=== FILE: README.md ===
# TaxPilot AI — a Dafny model of the tax engine and its gates

TaxPilot AI compares the corporate tax burden of a Swiss company across the 26
cantons. This project models, as pure Dafny functions with contracts and
lemmas, the parts of the application that compute or decide something:

- the canton rate table and the tax engine (`calculateTaxes`,
  `calculatePotentialSavings`, `calculateTaxHealthScore`, `getTopCantons`,
  `getCantonTaxRates`) of `src/lib/swiss-tax-data.ts` — modules
  `CantonTable`, `TaxEngine`, `HealthScore`, with the stable sort the engine
  relies on in `StableSort` and JavaScript's `Math.round`/clamping in
  `JsMath`;
- the helpers of `src/lib/utils.ts` (tax-year window, UID formatting, rates,
  canton names) — `Utils`, `CantonNames`;
- the subscription plans and the feature gate (`src/types/database.ts`,
  `src/lib/feature-gates.ts`) — `Plans`, `FeatureGates`;
- the Stripe plan catalogue and subscription helpers
  (`src/lib/stripe/client.ts`) — `StripeClient`;
- the two calculator API routes (`/api/calculator/compare`,
  `/api/calculator/analyze`) — `CompareRoute`, `AnalyzeRoute`, with the JSON
  envelope in `Api`;
- the decision logic of the billing and calculator components
  (`PricingTable.tsx`, `UsageMeter.tsx`, `CompanyProfileForm.tsx`,
  `CantonComparison.tsx`) — `PricingTable`, `UsageMeter`, `ProfileForm`,
  `CantonComparison`;
- the parsing of the AI reply and the rule-based fallback recommendations of
  `src/lib/openrouter.ts` — `Recommendations`;
- the `.env.local` reader of `simple-stripe-setup.js` — `EnvFile`, on top of
  the JavaScript string operations modelled in `Text` (`trim`, `split`,
  `toLowerCase`, `includes`, `indexOf`, `replace`, number formatting).

Money and rates are `real`s. `Math.round(x)` is `Floor(x + 0.5)`, which is
what JavaScript does for both signs. JavaScript truthiness is written out
at each site: the empty string, `0` and a missing value are false, and
`a || b` is an explicit fallback. Clocks, the current year, files, the
network and the AI reply are parameters: the model takes the reply as
`Option<string>` and the file contents the same way.

Behaviour worth noting:

- **Cheapest-canton tie-break.** Ties in total are broken by table order:
  the best canton of a tie is the earliest table entry, because `reduce`
  keeps the incumbent on ties. The table is in code order, so this is also
  the lowest code; `TaxEngine.BestHasLowestCode` proves the two agree.
- **Unknown filter canton.** Filtering `calculateTaxes` by an unknown canton
  gives an empty list, not an error.
- **Unknown canton in the analyze route.** The route turns the engine's
  error for an unknown canton into HTTP 500.
- **AI recommendations in the analyze route.** That route returns fixed
  texts; only `generateTaxRecommendations` parses a reply.
- **Zero expert allowance.** A plan whose expert-consultation allowance is
  0 is treated as having none, because the gate tests it with JavaScript
  truthiness.
- **Rate table.** The rate table is a constant of the code, not data loaded
  at run time.

## Model

| member | source | states |
|---|---|---|
| CantonTable.RateTableWellFormed | src/lib/swiss-tax-data.ts:15-250 | the table has 26 entries with pairwise distinct two-letter codes, the federal rate 8.5 everywhere and positive cantonal rates |
| CantonTable.CodesIncrease | src/lib/swiss-tax-data.ts:15-250 | each entry's code is alphabetically after the previous one, so the table order is code order |
| CantonTable.CodesInOrder | src/lib/swiss-tax-data.ts:15-250 | any earlier entry has a lower code than any later one |
| CantonTable.IncreasingCodesAreDistinct | src/lib/swiss-tax-data.ts:15-250 | codes that increase from entry to entry increase pairwise and so are distinct |
| CantonTable.FindCode | src/lib/swiss-tax-data.ts:421-423 | `find` returns the first entry with the code, and nothing exactly when no entry has it |
| CantonTable.FindDistinct | src/lib/swiss-tax-data.ts:421-423 | with distinct codes, the entry found for an entry's code is that entry |
| CantonTable.GetCantonTaxRates | src/lib/swiss-tax-data.ts:421-423 | an unknown code gives nothing; a known one gives the table entry with that code |
| TaxEngine.CalculateFor | src/lib/swiss-tax-data.ts:293-320 | a breakdown carries the canton's code, its total is the sum of federal, cantonal, municipal and capital tax, and its effective rate is the total as a percentage of profit (0 for a non-positive profit) |
| TaxEngine.CalculateForClosedForm | src/lib/swiss-tax-data.ts:293-310 | federal and cantonal tax are profit times their rates in percent, municipal tax is cantonal tax times the multiplier, capital tax is the capital rate on a fifth of revenue; the total is profit times (federal + cantonal × (1 + multiplier)) percent plus the capital rate on a fifth of revenue; effective rate times a positive profit is 100 times the total; no part is negative for non-negative figures and rates |
| TaxEngine.Breakdowns | src/lib/swiss-tax-data.ts:291-321 | one breakdown per rate entry, in the same order |
| TaxEngine.FilterByCode | src/lib/swiss-tax-data.ts:287-288 | the filter keeps only entries with the code, none when no entry has it, and starts with the first entry that has it |
| TaxEngine.FilterDistinct | src/lib/swiss-tax-data.ts:287-288 | on the table the filter keeps at most one entry |
| TaxEngine.AllCalculations | src/lib/swiss-tax-data.ts:286-322 | without a target there are 26 breakdowns and the i-th is that of the i-th canton |
| TaxEngine.CalculateTaxes | src/lib/swiss-tax-data.ts:286-322 | an empty target gives the breakdowns of all 26 cantons in table order, an unknown target gives none, and a known one gives exactly the breakdown of its own entry |
| TaxEngine.TargetFilter | src/lib/swiss-tax-data.ts:287-289 | filtering the table by an unknown code gives nothing, and by a known code exactly its entry |
| TaxEngine.CalculateTaxesShape | src/lib/swiss-tax-data.ts:286-291 | no target gives all cantons in table order, an unknown target gives no breakdown, a known one gives exactly its own |
| TaxEngine.AllCalculationsDistinct | src/lib/swiss-tax-data.ts:286-322 | the breakdowns of all cantons have pairwise distinct canton codes |
| TaxEngine.FirstCheapest | src/lib/swiss-tax-data.ts:337-339 | the reduce picks an entry of minimal total, and every earlier entry is strictly dearer |
| TaxEngine.TableIndex | src/lib/swiss-tax-data.ts:330 | the position of a code in the table, absent exactly for unknown codes |
| TaxEngine.CalculatePotentialSavings | src/lib/swiss-tax-data.ts:325-349 | an error with the canton's message exactly for an unknown canton; otherwise savings are current minus best and never negative, and the best total is no larger than any canton's and is the earliest minimum |
| TaxEngine.CheapestIsEarliestMinimum | src/lib/swiss-tax-data.ts:337-339 | the entry kept by the reduce is minimal and no earlier entry reaches its total |
| TaxEngine.FoundCanton | src/lib/swiss-tax-data.ts:330 | the current canton is found among the breakdowns exactly when it is in the table, at the table's position |
| TaxEngine.SavingsBestIsFirstCheapest | src/lib/swiss-tax-data.ts:337-347 | the best canton and tax reported are those of the reduce's pick |
| TaxEngine.BestIsFirstCheapest | src/lib/swiss-tax-data.ts:337-339 | any best canton and total that are an earliest minimum are the reduce's pick, so the earliest minimum is unique |
| TaxEngine.EarliestMinimumIsFirstCheapest | src/lib/swiss-tax-data.ts:337-339 | an index of minimal total with no earlier entry of that total is the reduce's pick |
| TaxEngine.BestHasLowestCode | src/lib/swiss-tax-data.ts:337-339 | among cantons tied for the lowest total, the best canton has the alphabetically lowest code |
| TaxEngine.SavingsZeroIffCheapest | src/lib/swiss-tax-data.ts:341 | the saving is zero exactly when the current canton's total is minimal |
| TaxEngine.SortedHeadIsFirstCheapest | src/lib/swiss-tax-data.ts:337-339 | the head of the list sorted by total is the canton the reduce picks |
| TaxEngine.SliceEnd | src/lib/swiss-tax-data.ts:430 | `slice(0, limit)` keeps `min(limit, n)` entries for a non-negative limit and counts a negative one from the back |
| TaxEngine.GetTopCantons | src/lib/swiss-tax-data.ts:426-431 | the result has `min(limit, 26)` entries for a non-negative limit, is sorted by total, is a sub-multiset of the table's breakdowns with no canton twice, and every left-out canton is no cheaper than any kept one |
| TaxEngine.GetTopCantonsDefault | src/lib/swiss-tax-data.ts:426-431 | without a limit the result is five breakdowns, sorted by total, and no left-out canton is cheaper than a kept one |
| TaxEngine.DefaultIsPrefix | src/lib/swiss-tax-data.ts:426-431 | the default top list is the first five entries of the top list for any larger limit |
| TaxEngine.CheapestPrefix | src/lib/swiss-tax-data.ts:428-430 | a prefix of the sorted breakdowns is sorted, a sub-multiset of them, and no left-out breakdown is cheaper than a kept one |
| TaxEngine.ZurichExample | src/lib/swiss-tax-data.ts:293-310 | a company with revenue 1,200,000 and profit 240,000 owes in Zurich federal 20,400, cantonal 15,600, municipal 18,564 and capital 240, in total 54,804, an effective rate of 22.835% |
| TaxEngine.ZurichRates | src/lib/swiss-tax-data.ts:242-249 | Zurich is the last table entry, with cantonal rate 6.5, capital rate 0.001, multiplier 1.19 and federal rate 8.5 |
| TaxEngine.ZugCheaperThanZurich | src/lib/swiss-tax-data.ts:293-310 | for any positive profit, Zug's municipal tax and total are below Zurich's |
| HealthScore.BaseScore | src/lib/swiss-tax-data.ts:363-366 | the base is round((26 − rank) × 70 / 26), halves up, stated in integers as ((26 − rank) × 70 + 13) div 26; the cheapest rank gives 70, and every rank of the 26 gives between 3 and 70 |
| HealthScore.BaseScoreMonotone | src/lib/swiss-tax-data.ts:363-366 | a better rank never gives a lower base score |
| HealthScore.FactorPoints | src/lib/swiss-tax-data.ts:369-376 | the factor adjustment lies in [-5, 25]; at most 10 for a VAT gap and at least 10 without one; exactly 10 when no factor fires (5 for VAT and 5 for the margin) |
| HealthScore.VatGapCosts15 | src/lib/swiss-tax-data.ts:370 | above 100,000 of revenue, a company without VAT registration gets 15 points fewer than the same company registered (−10 against +5) |
| HealthScore.SmallRevenueNeedsNoVat | src/lib/swiss-tax-data.ts:370 | at or below 100,000 of revenue, VAT registration does not change the points |
| HealthScore.AGAdds5 | src/lib/swiss-tax-data.ts:371 | above 500,000 of revenue, an AG gets 5 points more than the same company with any other legal form |
| HealthScore.EmployeesAdd5 | src/lib/swiss-tax-data.ts:372 | more than ten employees give 5 points more than ten or fewer |
| HealthScore.HighMarginAdds5 | src/lib/swiss-tax-data.ts:373 | at the same revenue, a margin over 15% gives 5 points more than one at or below it (10 against 5) |
| HealthScore.FactorExample | src/lib/swiss-tax-data.ts:369-376 | a registered GmbH with 8 employees, 1.2 million revenue and 240,000 profit gets 5 + 0 + 0 + 10 = 15 points |
| HealthScore.GradeOf | src/lib/swiss-tax-data.ts:380-385 | each grade holds exactly in its score band: A from 90, B from 80, C from 70, D from 60, F below |
| HealthScore.GradeMonotone | src/lib/swiss-tax-data.ts:380-385 | a higher score never gets a worse grade |
| HealthScore.Issues | src/lib/swiss-tax-data.ts:388-404 | at most three issues: a high rate exactly above 20%, a VAT gap, and the sole-proprietorship gap, each present exactly when its rule fires; every entry is one of the three messages, in rule order |
| HealthScore.RuleAdvice | src/lib/swiss-tax-data.ts:388-404 | the three rules' recommendations, each present exactly when its rule fires, nothing else, in rule order |
| HealthScore.Recommendations | src/lib/swiss-tax-data.ts:389-409 | at most four recommendations, each present exactly when its rule fires, the savings advice exactly when savings exceed 5% of profit; every entry is a rule's recommendation in rule order, except the savings advice, which can only come last |
| HealthScore.SavingsAdviceIsNew | src/lib/swiss-tax-data.ts:406-409 | the savings advice differs from every rule-based recommendation |
| HealthScore.ScoreForRank | src/lib/swiss-tax-data.ts:366-377 | the score is the base plus the factor points when that sum lies in [0, 100], 0 below and 100 above; so it never exceeds 95 for a rank of the 26, and is at least 13 without a VAT gap |
| HealthScore.SortedRank | src/lib/swiss-tax-data.ts:361-362 | the position of the canton in the sorted list is its stable rank among the breakdowns |
| HealthScore.RankOfCanton | src/lib/swiss-tax-data.ts:361-362 | for a known canton the rank used is the number of cheaper cantons plus the equally cheap ones earlier in the table |
| HealthScore.CalculateTaxHealthScore | src/lib/swiss-tax-data.ts:352-418 | an error with the canton's message exactly for an unknown canton; otherwise the score is that of the canton's stable rank, the grade matches the score, issues and recommendations follow their rules at the canton's effective rate, and the savings equal those of `calculatePotentialSavings` and are not negative |
| HealthScore.ScoreOfCanton | src/lib/swiss-tax-data.ts:352-377 | the score of a known canton is that of its stable rank |
| HealthScore.CheapestCantonGetsFullBase | src/lib/swiss-tax-data.ts:361-366 | the rank is zero, and the base score 70, exactly when no canton is cheaper and no earlier one is as cheap |
| HealthScore.RankZeroByTotals | src/lib/swiss-tax-data.ts:361-362 | rank zero among breakdowns means minimal total with no earlier tie |
| HealthScore.VatRegistrationNeverHurts | src/lib/swiss-tax-data.ts:370 | registering for VAT, everything else equal, never lowers the score |
| HealthScore.VatFactorNeverHurts | src/lib/swiss-tax-data.ts:370-377 | at a fixed rank, VAT registration never lowers the factor points or the score |
| HealthScore.SameFiguresSameTaxes | src/lib/swiss-tax-data.ts:293-310 | a breakdown depends only on profit, capital and the canton's rates |
| HealthScore.VatDoesNotChangeTaxes | src/lib/swiss-tax-data.ts:286-322 | the VAT flag does not change any canton's breakdown |
| StableSort.Sort | src/lib/swiss-tax-data.ts:361 | the sorted list is a permutation of the input and sorted by the key |
| StableSort.SortPosition | src/lib/swiss-tax-data.ts:361-362 | with distinct ids, an entry's position after the stable sort is its stable rank |
| StableSort.RankZeroIff | src/lib/swiss-tax-data.ts:361-362 | the stable rank is zero exactly when the key is minimal and no earlier entry has the same key |
| StableSort.SortPrefixCheapest | src/lib/swiss-tax-data.ts:428-430 | a prefix of the sorted list is sorted, a sub-multiset of the input, and no left-out entry has a smaller key than a kept one |
| StableSort.SortKeepsDistinct | src/lib/swiss-tax-data.ts:428-430 | a prefix of the sorted output of a list with distinct identifiers has distinct identifiers |
| StableSort.SortAllTied | src/components/calculator/CantonComparison.tsx:50-72 | when every key ties, the stable sort returns its input unchanged |
| Seqs.Filter | src/components/calculator/CantonComparison.tsx:45-49 | `filter` keeps every occurrence of each value that satisfies the condition, no other value, and the input order |
| StableSort.FoundInSort | src/app/api/calculator/compare/route.ts:26-28 | an id found in the input is found in the sorted list, on an entry with that id |
| StableSort.IndexOfId | src/lib/swiss-tax-data.ts:362 | `findIndex` gives the first position with the id, and -1 exactly when no entry has it |
| StableSort.CountBelowSort | src/lib/swiss-tax-data.ts:361 | sorting keeps the number of entries below any key |
| JsMath.Round | src/lib/swiss-tax-data.ts:366 | `Math.round` gives the nearest integer, halves rounding up |
| JsMath.RoundMonotone | src/lib/swiss-tax-data.ts:366 | rounding never reverses the order of two numbers |
| JsMath.Clamp | src/lib/swiss-tax-data.ts:377 | `Math.max(lo, Math.min(hi, x))` lies in [lo, hi], is `x` when `x` does, and the nearer bound otherwise |
| JsMath.ClampMonotone | src/lib/swiss-tax-data.ts:377 | clamping never reverses the order of two numbers |
| Utils.IsValidTaxYear | src/lib/utils.ts:86-89 | a year is valid exactly inside the window from 2020 to next year: every year before 2020 and every year after next year is refused, every year in between is accepted, and next year is valid exactly when the current year is 2019 or later |
| Utils.TaxYearWindow | src/lib/utils.ts:86-89 | a year valid now stays valid in every later year |
| Utils.ValidCHEIsCanonical | src/lib/utils.ts:92-96 | a UID the regular expression accepts is `CHE-` and three dot-separated groups of three digits |
| Utils.IsValidCHE | src/lib/utils.ts:92-96 | an accepted UID has 15 characters: `CHE-`, three digits, a dot, three digits, a dot, three digits; any other length is refused |
| Utils.CanonicalIsValid | src/lib/utils.ts:92-96 | every canonical UID is accepted by the validator |
| Utils.Digits | src/lib/utils.ts:101 | removing non-digits leaves only digits and never lengthens the text |
| Utils.FormatCHE | src/lib/utils.ts:99-108 | nine digits give a valid canonical UID with those digits; any other count leaves the input unchanged |
| Utils.FormatCHEIdempotent | src/lib/utils.ts:99-108 | formatting a formatted UID changes nothing |
| Utils.FormatValidCHE | src/lib/utils.ts:99-108 | a valid UID formats to itself |
| Utils.DigitsOfCanonical | src/lib/utils.ts:103-104 | the digits of a canonical UID are its nine digits |
| Utils.CalculateEffectiveRate | src/lib/utils.ts:111-114 | zero for a non-positive income, otherwise tax over income in percent, so rate times income is 100 times tax |
| Utils.CalculateMarginalRate | src/lib/utils.ts:117-127 | the marginal income is ignored: the result is always the effective rate |
| CantonNames.GetCantonByCode | src/lib/utils.ts:68-70 | the first canton with the code, and nothing exactly when no canton has it |
| CantonNames.GetCantonName | src/lib/utils.ts:73-83 | the canton's name in the chosen language (German, French, Italian or English), or the code itself for an unknown canton |
| CantonNames.NamesMatchRateTable | src/lib/utils.ts:38-65 | the name list has the rate table's 26 codes and English names, in the same order, with distinct codes |
| CantonNames.EnglishNameOfTableCode | src/lib/utils.ts:73-83 | the English name of every code of the rate table is the table's name for it |
| Plans.PlansAreOrdered | src/types/database.ts:362-388 | there are exactly three plans; starter allows everything free does and professional everything starter does, and neither lower plan covers the higher |
| Plans.CoversTransitive | src/types/database.ts:362-388 | allowing everything another plan allows is transitive |
| Plans.LimitsFor | src/lib/feature-gates.ts:18 | "free", "starter" and "professional" get their own plan's limits, an unknown id gets the free plan's, and the result always covers the free plan |
| Plans.LimitsForIsAPlan | src/lib/feature-gates.ts:18 | the limits used are always those of one of the three plans, with a non-negative expert allowance |
| Plans.ExpertOnlyForProfessional | src/types/database.ts:379-387 | a plan id gets an expert-consultation allowance exactly when it is professional |
| FeatureGates.NewFeatureGate | src/lib/feature-gates.ts:16-20 | the gate holds the limits of the plan id, which always cover the free plan's |
| FeatureGates.QuotaCheck | src/lib/feature-gates.ts:23-46 | allowed exactly when the limit is -1 or usage is below it; an unlimited quota has no figures, otherwise usage and limit are attached; a refusal carries the reason and asks for an upgrade |
| FeatureGates.QuotaCheckMonotone | src/lib/feature-gates.ts:31 | more usage never turns a refusal into a permission |
| FeatureGates.QuotaCheckCovered | src/lib/feature-gates.ts:27-31 | a larger or unlimited allowance permits whatever a smaller one does |
| FeatureGates.CanCalculateTaxes | src/lib/feature-gates.ts:23-46 | allowed exactly when calculations are unlimited or the recorded count is below the limit; a refusal names the limit |
| FeatureGates.CanSaveCompanyProfile | src/lib/feature-gates.ts:49-72 | allowed exactly when profiles are unlimited or the saved count is below the limit; a refusal names the limit |
| FeatureGates.ComparisonNoun | src/lib/feature-gates.ts:86 | the singular noun for a limit of one, the plural otherwise |
| FeatureGates.CanCompareCantons | src/lib/feature-gates.ts:75-98 | allowed exactly when comparisons are unlimited or the count is below the limit; a refusal names the limit with a noun agreeing in number |
| FeatureGates.FlagCheck | src/lib/feature-gates.ts:101-124 | allowed exactly when the feature is on, with no details; a refusal carries the reason and asks for an upgrade |
| FeatureGates.CanAccessAIRecommendations | src/lib/feature-gates.ts:101-111 | allowed exactly on plans with AI recommendations; a refusal says they need a paid plan |
| FeatureGates.CanAccessComplianceMonitoring | src/lib/feature-gates.ts:114-124 | allowed exactly on plans with compliance monitoring; a refusal says it needs a paid plan |
| FeatureGates.CanUseExpertConsultation | src/lib/feature-gates.ts:127-155 | refused with an upgrade request without an allowance; otherwise allowed exactly while usage is below it, with the figures attached, and a refusal asks for no upgrade |
| FeatureGates.HasPrioritySupport | src/lib/feature-gates.ts:158-160 | among the three plans, true exactly for professional |
| FeatureGates.UpgradeKeepsPermissions | src/lib/feature-gates.ts:16-160 | at the same usage, moving up a plan never withdraws a permission |
| FeatureGates.CoveringQuotasPermit | src/lib/feature-gates.ts:23-98 | limits that cover others permit every quota action the others permit |
| FeatureGates.CoveringFeaturesPermit | src/lib/feature-gates.ts:101-160 | limits that cover others permit every feature the others permit |
| FeatureGates.GetLimitsOverview | src/lib/feature-gates.ts:163-194 | each quota row holds the plan's quota and the recorded usage and is unlimited exactly for the quota -1; the expert row exists exactly for plans with an allowance, holds that allowance and the usage, and is never unlimited; the three feature flags are the plan's |
| FeatureGates.OverviewAgreesWithChecks | src/lib/feature-gates.ts:163-194 | each overview row has room exactly when the matching check allows, and the feature flags equal the feature checks |
| FeatureGates.QuotaRowsAgree | src/lib/feature-gates.ts:163-194 | the three quota rows agree with the three quota checks |
| FeatureGates.FeatureRowsAgree | src/lib/feature-gates.ts:163-194 | the expert row and the feature flags agree with their checks |
| FeatureGates.SuggestionKinds | src/lib/feature-gates.ts:197-225 | at most four suggestions: the starter step exactly for "free", the professional step exactly for "starter", and each feature suggestion exactly when that feature is refused |
| FeatureGates.KindsInOrder | src/lib/feature-gates.ts:197-225 | the suggestions come in push order: plan step, calculations, profiles, AI, none twice |
| FeatureGates.SuggestionTextInjective | src/lib/feature-gates.ts:201-222 | the five suggestion texts are pairwise different |
| FeatureGates.TextListed | src/lib/feature-gates.ts:197-225 | a suggestion's text is in the list exactly when the suggestion is |
| FeatureGates.Suggestions | src/lib/feature-gates.ts:197-225 | at most four; a free or starter plan's next step comes first and is present exactly for that plan id, and each feature suggestion is present exactly when that feature is refused |
| FeatureGates.SuggestionsInOrder | src/lib/feature-gates.ts:197-225 | every entry is the text of one of the five suggestions, and they come in the order plan step, calculations, profiles, AI, none twice |
| FeatureGates.GetUpgradeSuggestions | src/lib/feature-gates.ts:197-225 | the plan's next step is present exactly for "free" and "starter" and comes first; each feature suggestion appears exactly when its check refuses |
| FeatureGates.UpgradeSuggestionsByPlan | src/lib/feature-gates.ts:197-225 | a professional user gets no suggestion; a free user gets the starter step first and the AI suggestion |
| FeatureGates.CalculateUsageFromLogs | src/lib/feature-gates.ts:229-237 | the keys are the actions that occur in the log and each count is how often its action occurs |
| FeatureGates.CountedUsageReadBack | src/lib/feature-gates.ts:229-237 | an action's count is its number of occurrences, 0 when absent |
| FeatureGates.UsageCountsTotal | src/lib/feature-gates.ts:229-237 | the counts add up to the number of log entries |
| FeatureGates.IsSubscriptionActive | src/lib/feature-gates.ts:240-247 | active exactly when there is a subscription, its status is active and its period end is known and after now |
| FeatureGates.ActiveEarlier | src/lib/feature-gates.ts:243-246 | a subscription active at a time is active at every earlier time |
| FeatureGates.GetUserPlanId | src/lib/feature-gates.ts:250-256 | the subscription's plan when it is active, otherwise free |
| FeatureGates.InactiveMeansFree | src/lib/feature-gates.ts:250-256 | without an active subscription the gate uses the free limits |
| StripeClient.PriceIdOr | src/lib/stripe/client.ts:24 | the configured price id, or the default when it is unset or empty |
| StripeClient.Starter | src/lib/stripe/client.ts:23-37 | the price id is the environment variable when it is set and non-empty, and `price_starter_monthly` otherwise; the product is named "Starter Plan", costs CHF 197 a month and carries the starter features |
| StripeClient.Professional | src/lib/stripe/client.ts:38-53 | the price id is the environment variable when it is set and non-empty, and `price_professional_monthly` otherwise; the product is named "Professional Plan", costs CHF 497 a month and carries the professional features |
| StripeClient.PricesOrdered | src/lib/stripe/client.ts:22-54 | both prices are positive and professional costs CHF 300 a month more than starter, whatever the price ids |
| StripeClient.ActiveTestsDiffer | src/lib/stripe/client.ts:65-67 | whatever the gate counts as active the Stripe helper does too; they differ exactly on a trialing subscription and on an active one whose period end is unknown or past |
| StripeClient.HasActiveSubscription | src/lib/stripe/client.ts:65-67 | no subscription is inactive; a present one is active exactly when its status is `active` or `trialing`, whatever its period end |
| StripeClient.TrialingIsFreeForTheGate | src/lib/stripe/client.ts:65-67 | a trialing subscription is active for the Stripe helper but gets the free plan from the gate |
| StripeClient.GetPlanFeatures | src/lib/stripe/client.ts:70-74 | the starter or professional features for those ids, the three basic features for any other id |
| StripeClient.PlanFeaturesIdentifyPlan | src/lib/stripe/client.ts:70-74 | two ids get the same features exactly when they are equal or both neither starter nor professional |
| PricingTable.FromProduct | src/components/billing/PricingTable.tsx:39-52 | a paid plan takes the product's name, price and features, with no limitations and the trial call to action |
| PricingTable.GetPlanId | src/components/billing/PricingTable.tsx:64-69 | the three known names map to free, starter and professional; another name without " plan" in its lower-case form maps to that lower-case form |
| PricingTable.PlanSuffixDropped | src/components/billing/PricingTable.tsx:68 | for a one-word name followed by " Plan", lower-casing and removing " plan" gives the lower-cased word |
| PricingTable.PricingPlansShape | src/components/billing/PricingTable.tsx:37-53 | free, starter and professional in that order, priced 0, 197 and 497, with only starter marked popular |
| PricingTable.CurrentPlanUnique | src/components/billing/PricingTable.tsx:71-74 | at most one plan is the current one, and for each known plan id it is that plan's card |
| PricingTable.PlansToShow | src/components/billing/PricingTable.tsx:62 | all plans when the free plan is shown, otherwise all but the first, in order |
| PricingTable.HiddenFreePlan | src/components/billing/PricingTable.tsx:62 | hiding the free plan leaves starter and professional |
| PricingTable.YearlyPrice | src/components/billing/PricingTable.tsx:131 | the yearly price is within half a franc of twelve months at a 20% discount |
| PricingTable.DisplayPrice | src/components/billing/PricingTable.tsx:132 | the monthly price, or a twelfth of the yearly price |
| PricingTable.YearlySaving | src/components/billing/PricingTable.tsx:192 | the yearly saving shown is never negative for a non-negative price |
| PricingTable.YearlySavingIsAFifth | src/components/billing/PricingTable.tsx:130-132 | the yearly saving is within half a franc of a fifth of a year at list price, and the yearly monthly figure never exceeds the monthly price |
| PricingTable.PaidPlanYearlyFigures | src/components/billing/PricingTable.tsx:130-132 | yearly starter costs 1891 and saves 473, yearly professional costs 4771 and saves 1193, free stays 0 |
| PricingTable.RenderCard | src/components/billing/PricingTable.tsx:124-208 | the button is disabled exactly on the current plan and reads "Current Plan" there; a free plan shows no price, and a paid plan shows its display price (the monthly price under monthly billing); the yearly saving shows exactly for paid plans billed yearly, and it is the saving that, added to the yearly price, makes twelve monthly payments |
| PricingTable.RenderTable | src/components/billing/PricingTable.tsx:124-132 | one card per plan shown, in order |
| PricingTable.RenderTableWithDefaults | src/components/billing/PricingTable.tsx:55-62 | a left-out `showFreePlan` shows all three cards, and a bare table marks the free card as the current, disabled one |
| PricingTable.OneDisabledButton | src/components/billing/PricingTable.tsx:205-207 | for a starter or professional user only that plan's button is disabled, and a free user with the free plan hidden has no disabled button |
| UsageMeter.Percentage | src/components/billing/UsageMeter.tsx:22 | 0 for unlimited; otherwise usage over limit in percent, capped at 100, and 100 exactly once the quota is used |
| UsageMeter.ProgressColour | src/components/billing/UsageMeter.tsx:31-36 | green exactly for unlimited; red from 100%, orange from 80% |
| UsageMeter.ColourByUsage | src/components/billing/UsageMeter.tsx:22-36 | a row is red once used up, orange from four fifths of its quota, blue below |
| UsageMeter.StatusColour | src/components/billing/UsageMeter.tsx:24-29 | never blue; green for unlimited; without a warning or danger hint it is the bar colour with green in place of blue |
| UsageMeter.ItemView | src/components/billing/UsageMeter.tsx:38-84 | unlimited rows show a caption and check icon and no bar, in green; limited rows show a bar between 0 and 100 and the alert icon exactly when used up; the bar is red once the quota is used up, orange from four fifths of it and blue below; the figure shown is 100 once used up and otherwise the rounded share usage × 100 / limit; the text colour follows the bar, with green in place of blue |
| UsageMeter.LimitIssuesIffRefused | src/components/billing/UsageMeter.tsx:90-94 | the meter reports a limit issue exactly when a quota check refuses |
| UsageMeter.HasLimitIssues | src/components/billing/UsageMeter.tsx:90-94 | a used-up limited quota row is an issue, an overview whose three quota rows are unlimited has none, and every issue is one of the three quota rows, never the expert row |
| UsageMeter.OverviewRowsHaveLimits | src/components/billing/UsageMeter.tsx:117-149 | no row of a plan's overview has a zero limit, so no percentage divides by zero |
| UsageMeter.MeterRows | src/components/billing/UsageMeter.tsx:116-151 | the rows are the views of the calculations, profiles and comparisons rows of the overview, in that order and with those titles, then the expert row exactly when the overview has one |
| UsageMeter.RenderMeter | src/components/billing/UsageMeter.tsx:86-217 | the upgrade button needs a handler and a limit issue; the rows are the overview's rows as `MeterRows` lays them out, with the expert row exactly when the overview has one; the suggestions are the gate's |
| UsageMeter.ExpertRowForProfessionalOnly | src/components/billing/UsageMeter.tsx:141-149 | only professional users see four rows, and a user on the free plan's limits past three calculations gets the upgrade button |
| ProfileForm.ValidateStep | src/components/calculator/CompanyProfileForm.tsx:98-138 | each of steps 1-3 reports errors only for its own fields, each exactly when that field is missing, blank or out of range (a zero profit counts as missing; profit above revenue gets its own message); other steps report nothing |
| ProfileForm.Initial | src/components/calculator/CompanyProfileForm.tsx:72-84 | the form starts on step 1 without errors, each field taken from the initial data when given and from the defaults otherwise |
| ProfileForm.HandleNext | src/components/calculator/CompanyProfileForm.tsx:140-144 | the errors become the step's; the form advances one step exactly when there are none and it is not on the last step; the data is unchanged |
| ProfileForm.HandlePrevious | src/components/calculator/CompanyProfileForm.tsx:146-148 | the form goes back one step, never below step 1, keeping data and errors |
| ProfileForm.HandleSubmit | src/components/calculator/CompanyProfileForm.tsx:150-154 | the errors become the step's, and the data is submitted unchanged exactly when the step validates and name and canton are filled in |
| ProfileForm.UpdateFormData | src/components/calculator/CompanyProfileForm.tsx:86-96 | updated fields take the new values and lose their errors; other fields and their errors are unchanged, and so is the step |
| ProfileForm.TransitionsKeepStepInRange | src/components/calculator/CompanyProfileForm.tsx:140-154 | no transition leaves steps 1-4 |
| ProfileForm.ReviewStepSubmits | src/components/calculator/CompanyProfileForm.tsx:150-154 | on the review step the data is submitted exactly when name and canton are filled in |
| ProfileForm.FinancialStepAdvances | src/components/calculator/CompanyProfileForm.tsx:114-124 | entering a positive revenue and a positive profit not above it on step 2 lets the form advance to step 3 |
| CantonComparison.HandleSort | src/components/calculator/CantonComparison.tsx:29-36 | a new field sorts ascending; the same field flips the direction |
| CantonComparison.HandleSortTwice | src/components/calculator/CantonComparison.tsx:29-36 | clicking the same header twice restores the direction |
| CantonComparison.FilterByName | src/components/calculator/CantonComparison.tsx:45-49 | the rows kept are exactly those whose lower-cased English name contains the lower-cased query, each as often as in the input, and they keep their input order (a subsequence of the input) |
| CantonComparison.EmptyQueryKeepsAll | src/components/calculator/CantonComparison.tsx:45-49 | an empty query keeps every row |
| CantonComparison.FilterAndSort | src/components/calculator/CantonComparison.tsx:45-72 | the shown rows are a permutation of the filtered rows, ordered by the chosen field and direction; the placement of tied rows is stated by `FilterAndSortStable` |
| CantonComparison.FilterAndSortStable | src/components/calculator/CantonComparison.tsx:45-72 | for rows with distinct cantons, each filtered row lands after every row with a smaller key and after the tied rows that precede it, as a stable sort places it |
| CantonComparison.FederalColumnKeepsOrder | src/components/calculator/CantonComparison.tsx:45-76 | sorting the engine's rows by the federal tax column, in either direction, leaves the filtered rows in table order, since every canton has the same federal rate |
| CantonComparison.DisplayCalculations | src/components/calculator/CantonComparison.tsx:74-76 | the first five filtered and sorted rows in top-five mode, all of them otherwise |
| CantonComparison.BestAndSavings | src/components/calculator/CantonComparison.tsx:78-84 | nothing for no rows; otherwise the best row is the reduce's pick and no row is cheaper, and the saving is the current canton's total minus the best, or 0 when the canton is not listed |
| CantonComparison.CardMatchesSavings | src/components/calculator/CantonComparison.tsx:78-84 | for a known canton the card shows what `calculatePotentialSavings` reports |
| CompareRoute.Summarize | src/app/api/calculator/compare/route.ts:26-43 | best canton and tax are the first sorted entry's; the current tax is the canton's total, or the best when it is missing or zero; savings are current minus best; the average is the mean total |
| CompareRoute.Compare | src/app/api/calculator/compare/route.ts:9-57 | 500 for an unreadable body, 400 without revenue or legal form; otherwise success with all 26 breakdowns sorted by total (a permutation), their summary and the timestamp |
| CompareRoute.SummaryBest | src/app/api/calculator/compare/route.ts:30-42 | the reported best canton and tax are those `calculatePotentialSavings` would pick, and the average is at least the best |
| CompareRoute.AverageAtLeastBest | src/app/api/calculator/compare/route.ts:42 | the average tax is at least the best tax |
| TaxEngine.SumTotals | src/app/api/calculator/compare/route.ts:42 | the sum of no totals is 0, and totals that are not negative have a sum that is not negative |
| TaxEngine.SumTotalsAtLeast | src/app/api/calculator/compare/route.ts:42 | when no total is below m, the sum is at least the count times m |
| CompareRoute.SummarySavings | src/app/api/calculator/compare/route.ts:26-31 | the saving is never negative, and equals the engine's saving for a known canton whose total is not zero |
| CompareRoute.SavingsNotNegative | src/app/api/calculator/compare/route.ts:31 | the reported saving is never negative |
| CompareRoute.CurrentTaxFound | src/app/api/calculator/compare/route.ts:26-28 | a known canton is found in the sorted breakdowns, with the current tax `calculatePotentialSavings` reports |
| CompareRoute.CompareAnswersSummary | src/app/api/calculator/compare/route.ts:33-46 | a request with revenue and legal form is answered with data whose summary is that of the sorted breakdowns |
| CompareRoute.SummaryAgreesWithSavings | src/app/api/calculator/compare/route.ts:26-31 | when the first sorted total and the current canton's total are the engine's best and current tax, the route's saving equals the engine's unless the current total is zero |
| AnalyzeRoute.Analyze | src/app/api/calculator/analyze/route.ts:9-47 | 500 for an unreadable body or an unknown canton, 400 without revenue, canton or legal form; otherwise 200 with the engine's health score, the fixed recommendations and the timestamp |
| Api.Success | src/app/api/calculator/compare/route.ts:33-46 | status 200, success, the data and no error |
| Api.Failure | src/app/api/calculator/compare/route.ts:10-16 | the given status, no success, the error message and no data |
| Recommendations.ParseLine | src/lib/openrouter.ts:133-139 | a line yields a recommendation only when its trimmed form starts with digits and a dot, and the recommendation is trimmed and longer than ten characters |
| Recommendations.ParseRecommendations | src/lib/openrouter.ts:127-144 | at most one recommendation per line, each trimmed and longer than ten characters |
| Recommendations.PresentAppend | src/lib/openrouter.ts:132-141 | the recommendations of two runs of lines are those of each run, joined |
| Recommendations.UnnumberedLinesIgnored | src/lib/openrouter.ts:135 | lines none of which starts with a number once trimmed give no recommendation |
| Recommendations.NumberedReplyRoundTrip | src/lib/openrouter.ts:127-144 | a reply of lines "n. text", each text trimmed, on one line and longer than ten characters, parses back to exactly those texts in order |
| Recommendations.NumberedLineParses | src/lib/openrouter.ts:133-139 | one numbered line gives back its recommendation |
| Recommendations.RuleText | src/lib/openrouter.ts:149-180 | each rule's text starts with that rule's own initial |
| Recommendations.RuleTextInjective | src/lib/openrouter.ts:149-180 | different rules have different texts |
| Recommendations.FiringRules | src/lib/openrouter.ts:149-180 | a rule is listed exactly when its condition holds; one to four rules, ending with tax planning |
| Recommendations.Take | src/lib/openrouter.ts:182 | `slice(0, n)` keeps the first `n` entries, or all of a shorter list |
| Recommendations.FallbackRecommendations | src/lib/openrouter.ts:146-183 | one to four texts, the tax-planning advice last |
| Recommendations.FallbackContents | src/lib/openrouter.ts:149-182 | a rule's text is in the fallback exactly when the rule fires: the cut to four never removes one |
| Recommendations.FallbackOrder | src/lib/openrouter.ts:149-182 | of two firing rules, the earlier rule's text comes first |
| Recommendations.FallbackIsRuleTexts | src/lib/openrouter.ts:182 | the fallback is the texts of all firing rules, in order |
| Recommendations.GenerateTaxRecommendations | src/lib/openrouter.ts:39-94 | without an API key, without a reply, or with a reply that yields nothing, the fallback; otherwise the parsed recommendations; never empty |
| Recommendations.WellFormedReplyIsUsed | src/lib/openrouter.ts:82-88 | a well-formed numbered reply is returned as its recommendations |
| Text.Trim | simple-stripe-setup.js:11 | the trimmed text neither starts nor ends with white space |
| Text.TrimMeaning | simple-stripe-setup.js:11 | the trimmed text is the input with only white space removed from its two ends |
| Text.TrimIdempotent | simple-stripe-setup.js:14 | trimming twice is trimming once |
| Text.Split | simple-stripe-setup.js:10 | `split` gives pieces without the separator that join back to the input |
| EnvFile.SplitDestructuring | simple-stripe-setup.js:12-14 | the key is the text before the first `=`, the value the rest joined back with `=` |
| EnvFile.LineEntryMeaning | simple-stripe-setup.js:11-14 | a line gives an entry exactly when it is not blank, does not start with `#`, and has an `=` after at least one character; the entry is the trimmed key and the trimmed rest |
| EnvFile.LineEntry | simple-stripe-setup.js:11-15 | a line gives an entry exactly when it is not blank, does not start with `#`, and has an `=` after at least one character; the entry is the trimmed first part of `split('=')` and the trimmed rest rejoined with `=` |
| EnvFile.LoadEnvFile | simple-stripe-setup.js:5-24 | an unreadable file gives no variables; otherwise a name is defined exactly when some line defines it, with the value of the last such line |
| EnvFile.AppliedValue | simple-stripe-setup.js:10-17 | a name is defined exactly when some line defines it, and its value is that of the last line defining it |
| EnvFile.IndentedHashIsNotComment | simple-stripe-setup.js:11 | a line whose `#` comes after leading white space is read as an entry whose name starts with `#` |
| EnvFile.SplitsAt | simple-stripe-setup.js:12-14 | a line `a=v` with no `=` in `a` gives the entry of trimmed `a` and trimmed `v` |
| EnvFile.DefiningLine | simple-stripe-setup.js:12-14 | a defining line gives the trimmed text before its first `=` and the trimmed text after it |
| EnvFile.EntryLineReadsBack | simple-stripe-setup.js:10-17 | a written `KEY=value` line with a writable key and value reads back as that entry |
| EnvFile.LinesReadBack | simple-stripe-setup.js:10-17 | written entry lines read back as their entries |
| EnvFile.EnvRoundTrip | simple-stripe-setup.js:5-24 | a file written from writable entries reads back as the map of those entries, later entries winning |
| EnvFile.EmptyFile | simple-stripe-setup.js:10-19 | an empty file defines nothing |
| EnvFile.ApplyDefined | simple-stripe-setup.js:14 | applying entries that all define something gives their map, later entries winning |

## Left out

- Reading files, the network, the clock and the AI service are not modelled. The current time and year, the `.env.local` contents and the AI reply are parameters instead.
- `Intl` and `toLocaleString` formatting are left out. The savings advice uses a plain integer rendering, and the fallback rules take the amount formatter as a parameter.
- Strings are sequences of characters: lower-casing is ASCII only, and there is no UTF-16 surrogate handling.
- IEEE doubles are not modelled; money and rates are exact reals. The divisions by profit and by income are modelled with their guards, which return 0 for a non-positive profit or income.
- A request body without `profit` is not modelled. In JavaScript the federal, cantonal and municipal taxes and the total then become NaN. The capital tax stays a number, since it depends only on revenue. The effective rate is 0, because `undefined > 0` is false. The compare route's sort then keeps table order, its current and best tax fall back to 0 and its average is NaN. The model's profile always has a numeric profit.
- `localeCompare` is left out. Sorting by canton name uses an abstract collation key, because locale collation is not part of the code.
- `getStripe`, `formatStripePrice`, `buildRecommendationPrompt` and the HTTP call to the AI service are left out: they are I/O or formatting.
- `formatSwissFrancs`, `formatPercentage`, `formatSwissNumber`, `cn` and `debounce` in `src/lib/utils.ts` are left out: they are display formatting and timers.
- Plan lookups by an inherited object key such as `toString` are not modelled; every unknown id maps to the free plan.
- UsageMeter.Percentage: requires a non-zero limit for a limited row. JavaScript would give Infinity or NaN there; `OverviewRowsHaveLimits` shows that no plan's row has a zero limit.
- PricingTable.GetPlanId: for a name other than the three known ones whose lower-case form contains " plan", the contract only covers a one-word name followed by " Plan" (through `PlanSuffixDropped`), because `replace` of the first occurrence inside longer names is not needed by any plan the table shows.
- Price ids do not reach the pricing cards: the cards are built from the default environment's products.
- FeatureGates.CoveringFeaturesPermit: requires a non-negative expert allowance, since a negative allowance is not an allowance any plan has.
- React rendering, `handleSelectPlan`, icons, widths and the other pages are left out: they hold no decision logic.

=== FILE: analyze_route.dfy ===
/** `POST /api/calculator/analyze` (src/app/api/calculator/analyze/route.ts):
    validates the profile and returns its tax health score with three fixed
    AI recommendations. A body that is not valid JSON is `None`. An absent
    revenue, canton or legal form behaves like 0 or the empty string, which
    the validation rejects, and an absent VAT flag like `false`; the profit
    is always a number here: in JavaScript an absent one makes the federal,
    cantonal and municipal taxes and the total NaN, leaves the capital tax a
    number and the effective rate 0. A canton outside the table makes the score computation
    throw, which the handler turns into a 500. */
module AnalyzeRoute {
  import opened Wrappers
  import opened CantonTable
  import opened TaxEngine
  import opened HealthScore
  import opened Api

  datatype AnalyzeData = AnalyzeData(healthScore: TaxHealthScore, aiRecommendations: seq<string>, timestamp: string)

  const MISSING_FIELDS := "Missing required fields: revenue, canton, or legalForm"
  const ANALYSIS_FAILED := "Internal server error during tax analysis"

  /** The placeholder recommendations the route always attaches. */
  const AI_RECOMMENDATIONS: seq<string> := [
    "Consider relocating to a canton with lower corporate tax rates",
    "Optimize your business structure for better tax efficiency",
    "Review deductible expenses to maximize tax savings"
  ]

  /** The route handler. */
  function Analyze(body: Option<CompanyData>, timestamp: string): (r: ApiResponse<AnalyzeData>)
    ensures body.None? ==> r == Failure(500, ANALYSIS_FAILED)
    ensures body.Some? && (body.value.revenue == 0.0 || body.value.canton == "" || body.value.legalForm == "")
            ==> r == Failure(400, MISSING_FIELDS)
    ensures body.Some? && body.value.revenue != 0.0 && body.value.canton != "" && body.value.legalForm != ""
            && GetCantonTaxRates(body.value.canton).None?
            ==> r == Failure(500, ANALYSIS_FAILED)
    ensures r.success <==> r.data.Some?
    ensures r.success <==> && body.Some? && body.value.revenue != 0.0 && body.value.legalForm != ""
                           && body.value.canton != "" && GetCantonTaxRates(body.value.canton).Some?
    ensures r.success ==> && r.status == 200
                          && r.data.value.healthScore == CalculateTaxHealthScore(body.value).value
                          && r.data.value.aiRecommendations == AI_RECOMMENDATIONS
                          && r.data.value.timestamp == timestamp
  {
    match body
    case None => Failure(500, ANALYSIS_FAILED)
    case Some(data) =>
      if data.revenue == 0.0 || data.canton == "" || data.legalForm == "" then Failure(400, MISSING_FIELDS)
      else
        match CalculateTaxHealthScore(data)
        case Err(_) => Failure(500, ANALYSIS_FAILED)
        case Ok(healthScore) => Success(AnalyzeData(healthScore, AI_RECOMMENDATIONS, timestamp))
  }
}

=== FILE: api.dfy ===
/** The JSON envelope the calculator API routes answer with. */
module Api {
  import opened Wrappers

  /** An HTTP status with the body `{ success, data?, error? }`. */
  datatype ApiResponse<T> = ApiResponse(status: int, success: bool, data: Option<T>, error: Option<string>)

  function Success<T>(data: T): (r: ApiResponse<T>)
    ensures r.status == 200 && r.success && r.data == Some(data) && r.error.None?
  {
    ApiResponse(200, true, Some(data), None)
  }

  function Failure<T>(status: int, error: string): (r: ApiResponse<T>)
    ensures r.status == status && !r.success && r.data.None? && r.error == Some(error)
  {
    ApiResponse(status, false, None, Some(error))
  }
}

=== FILE: canton_comparison.dfy ===
/** The comparison table of src/components/calculator/CantonComparison.tsx:
    the sort-header toggle, the name filter, the sort by the chosen column
    and direction, the top-5 cut, and the best-canton savings card.
    `localeCompare` on canton names is modelled by comparing the values of an
    abstract collation key supplied by the caller. */
module CantonComparison {
  import opened Wrappers
  import opened Text
  import opened CantonTable
  import opened TaxEngine
  import opened CantonNames
  import StableSort
  import Seqs

  datatype SortField = Canton | TotalTaxBurden | EffectiveRate | FederalTax | CantonalTax | MunicipalTax
  datatype SortDirection = Asc | Desc
  datatype SortState = SortState(field: SortField, direction: SortDirection)

  /** The table opens sorted by total, ascending. */
  const INITIAL_SORT := SortState(TotalTaxBurden, Asc)

  /** How many rows the top-5 view keeps. */
  const TOP_COUNT := 5

  /** `handleSort(field)`: the active column flips direction, another column
      becomes active in ascending order. */
  function HandleSort(st: SortState, field: SortField): (r: SortState)
    ensures r.field == field
    ensures st.field == field ==> r.direction != st.direction
    ensures st.field != field ==> r.direction == Asc
  {
    if st.field == field then SortState(field, if st.direction == Asc then Desc else Asc)
    else SortState(field, Asc)
  }

  /** Clicking the same header twice restores the original state. */
  lemma HandleSortTwice(st: SortState)
    ensures HandleSort(HandleSort(st, st.field), st.field) == st
  {
  }

  /** The English display name of a row's canton (the code for an unknown one). */
  function DisplayName(t: TaxCalculation): string {
    GetCantonName(t.canton, EN)
  }

  /** The filter condition: the lower-cased English name contains the
      lower-cased query. */
  predicate MatchesQuery(t: TaxCalculation, query: string) {
    Contains(Lower(DisplayName(t)), Lower(query))
  }

  /** `calculations.filter(...)` by the search query, keeping order. */
  function FilterByName(s: seq<TaxCalculation>, query: string): (r: seq<TaxCalculation>)
    ensures |r| <= |s|
    ensures forall i :: 0 <= i < |r| ==> r[i] in s && MatchesQuery(r[i], query)
    ensures forall i :: 0 <= i < |s| && MatchesQuery(s[i], query) ==> s[i] in r
    ensures multiset(r) <= multiset(s)
    ensures forall i :: 0 <= i < |s| ==>
              multiset(r)[s[i]] == if MatchesQuery(s[i], query) then multiset(s)[s[i]] else 0
    ensures Seqs.Subsequence(r, s)
  {
    var p := (t: TaxCalculation) => MatchesQuery(t, query);
    Seqs.FilterMembers(s, p);
    Seqs.Filter(s, p)
  }

  /** The empty query matches every row. */
  lemma EmptyQueryKeepsAll(s: seq<TaxCalculation>)
    ensures FilterByName(s, "") == s
  {
    forall i | 0 <= i < |s| ensures MatchesQuery(s[i], "") {
      assert OccursAt(Lower(DisplayName(s[i])), Lower(""), 0);
    }
    Seqs.FilterAll(s, (t: TaxCalculation) => MatchesQuery(t, ""));
  }

  /** The value a column shows for a row; the canton column sorts by the
      collation key of the English name. */
  function ColumnValue(field: SortField, t: TaxCalculation, collationKey: string -> real): real {
    match field
    case Canton => collationKey(DisplayName(t))
    case TotalTaxBurden => t.totalTaxBurden
    case EffectiveRate => t.effectiveRate
    case FederalTax => t.federalTax
    case CantonalTax => t.cantonalTax
    case MunicipalTax => t.municipalTax
  }

  /** The comparator `a - b` (ascending) or `b - a` (descending) as the key of
      a stable ascending sort: a descending order is an ascending order of
      the negated values. */
  function SortKey(st: SortState, collationKey: string -> real): TaxCalculation -> real {
    (t: TaxCalculation) =>
      if st.direction == Asc then ColumnValue(st.field, t, collationKey)
      else -ColumnValue(st.field, t, collationKey)
  }

  /** The filtered rows sorted by the active column. */
  function FilterAndSort(calculations: seq<TaxCalculation>, query: string, st: SortState,
                         collationKey: string -> real): (r: seq<TaxCalculation>)
    ensures multiset(r) == multiset(FilterByName(calculations, query))
    ensures st.direction == Asc ==>
              forall i, j :: 0 <= i < j < |r| ==>
                ColumnValue(st.field, r[i], collationKey) <= ColumnValue(st.field, r[j], collationKey)
    ensures st.direction == Desc ==>
              forall i, j :: 0 <= i < j < |r| ==>
                ColumnValue(st.field, r[i], collationKey) >= ColumnValue(st.field, r[j], collationKey)
  {
    var key := SortKey(st, collationKey);
    var r := StableSort.Sort(FilterByName(calculations, query), key);
    assert forall i, j :: 0 <= i < j < |r| ==> key(r[i]) <= key(r[j]);
    r
  }

  /** The sort is stable: when the rows have distinct cantons, as the
      engine's rows do, the `i`-th filtered row lands after every row with a
      smaller sort key and after the rows with an equal key that precede it
      in the filtered list. On a column where every row ties, such as the
      federal tax with its single federal rate, the rows keep their input
      order. */
  lemma FilterAndSortStable(calculations: seq<TaxCalculation>, query: string, st: SortState,
                            collationKey: string -> real, i: nat)
    requires StableSort.DistinctIds(calculations, CantonOf)
    requires i < |FilterByName(calculations, query)|
    ensures var f := FilterByName(calculations, query);
            StableSort.IndexOfId(FilterAndSort(calculations, query, st, collationKey), CantonOf, CantonOf(f[i]))
            == StableSort.StableRank(f, SortKey(st, collationKey), i)
  {
    var f := FilterByName(calculations, query);
    StableSort.SubMultisetKeepsDistinct(f, calculations, CantonOf);
    StableSort.SortPosition(f, SortKey(st, collationKey), CantonOf, i);
  }

  /** Every canton applies the same federal rate, so sorting the engine's
      rows by the federal tax column, in either direction, leaves the
      filtered rows in table order. */
  lemma FederalColumnKeepsOrder(data: CompanyData, query: string, direction: SortDirection,
                                collationKey: string -> real)
    ensures var st := SortState(FederalTax, direction);
            FilterAndSort(AllCalculations(data), query, st, collationKey)
            == FilterByName(AllCalculations(data), query)
  {
    var all := AllCalculations(data);
    var f := FilterByName(all, query);
    var key := SortKey(SortState(FederalTax, direction), collationKey);
    var v := data.profit * 8.5 / 100.0;
    FederalTaxUniform(data);
    forall i | 0 <= i < |f| ensures f[i].federalTax == v {
      assert f[i] in multiset(all);
    }
    forall i, j | 0 <= i < |f| && 0 <= j < |f| ensures key(f[i]) == key(f[j]) {
      FederalKey(direction, collationKey, f[i]);
      FederalKey(direction, collationKey, f[j]);
    }
    StableSort.SortAllTied(f, key);
  }

  /** The sort key of the federal tax column is the federal tax, negated
      for a descending sort. */
  lemma FederalKey(direction: SortDirection, collationKey: string -> real, t: TaxCalculation)
    ensures SortKey(SortState(FederalTax, direction), collationKey)(t)
            == if direction == Asc then t.federalTax else -t.federalTax
  {
  }

  /** Every breakdown of the engine carries the same federal tax. */
  lemma FederalTaxUniform(data: CompanyData)
    ensures forall t :: t in AllCalculations(data) ==> t.federalTax == data.profit * 8.5 / 100.0
  {
    var all := AllCalculations(data);
    RatesPositive();
    forall k | 0 <= k < |all| ensures all[k].federalTax == data.profit * 8.5 / 100.0 {
      CalculateForClosedForm(data, CANTON_TAX_RATES[k]);
    }
  }

  /** The rows on screen: the first five in top-5 mode, all of them otherwise. */
  function DisplayCalculations(calculations: seq<TaxCalculation>, query: string, st: SortState,
                               collationKey: string -> real, showTop5Only: bool): (r: seq<TaxCalculation>)
    ensures var all := FilterAndSort(calculations, query, st, collationKey);
            && (showTop5Only ==> |r| == (if |all| < TOP_COUNT then |all| else TOP_COUNT) && r == all[..|r|])
            && (!showTop5Only ==> r == all)
  {
    var all := FilterAndSort(calculations, query, st, collationKey);
    if showTop5Only then all[..SliceEnd(|all|, TOP_COUNT)] else all
  }

  /** The savings card: the reduce for the cheapest row (which throws on an
      empty table, here `None`) and the current canton's excess over it, 0
      when the current canton has no row. */
  datatype SavingsCard = SavingsCard(best: TaxCalculation, savings: real)

  function BestAndSavings(calculations: seq<TaxCalculation>, currentCanton: string): (r: Option<SavingsCard>)
    ensures r.None? <==> calculations == []
    ensures r.Some? ==>
              && r.value.best == calculations[FirstCheapest(calculations)]
              && (forall k :: 0 <= k < |calculations| ==> r.value.best.totalTaxBurden <= calculations[k].totalTaxBurden)
              && r.value.savings >= 0.0
              && (StableSort.IndexOfId(calculations, CantonOf, currentCanton) < 0 ==> r.value.savings == 0.0)
              && (StableSort.IndexOfId(calculations, CantonOf, currentCanton) >= 0 ==>
                    r.value.savings ==
                      calculations[StableSort.IndexOfId(calculations, CantonOf, currentCanton)].totalTaxBurden
                      - r.value.best.totalTaxBurden)
  {
    if calculations == [] then None
    else
      var best := calculations[FirstCheapest(calculations)];
      var i := StableSort.IndexOfId(calculations, CantonOf, currentCanton);
      Some(SavingsCard(best, if i >= 0 then calculations[i].totalTaxBurden - best.totalTaxBurden else 0.0))
  }

  /** With all 26 breakdowns of a profile and a known canton, the card shows
      the same best canton and savings as the savings computation. */
  lemma CardMatchesSavings(data: CompanyData)
    requires CantonTable.GetCantonTaxRates(data.canton).Some?
    ensures var card := BestAndSavings(AllCalculations(data), data.canton);
            var p := CalculatePotentialSavings(data, data.canton);
            && card.Some? && p.Ok?
            && card.value.best.canton == p.value.bestCanton
            && card.value.savings == p.value.savings
  {
    var all := AllCalculations(data);
    var i := StableSort.IndexOfId(all, CantonOf, data.canton);
    FoundCanton(data, data.canton);
    SavingsBestIsFirstCheapest(data);
    assert all[i] == CalculateFor(data, CantonTable.CANTON_TAX_RATES[i]);
    CardFromParts(all, data.canton, CalculatePotentialSavings(data, data.canton).value);
  }

  /** A card over rows whose cheapest and current entries carry the savings
      result's best canton, best tax and current tax shows that result. */
  lemma CardFromParts(all: seq<TaxCalculation>, currentCanton: string, p: SavingsResult)
    requires |all| > 0
    requires p.bestCanton == all[FirstCheapest(all)].canton
    requires p.bestTax == all[FirstCheapest(all)].totalTaxBurden
    requires p.savings == p.currentTax - p.bestTax
    requires var i := StableSort.IndexOfId(all, CantonOf, currentCanton);
             i >= 0 && all[i].totalTaxBurden == p.currentTax
    ensures var card := BestAndSavings(all, currentCanton);
            && card.Some?
            && card.value.best.canton == p.bestCanton
            && card.value.savings == p.savings
  {
  }
}

=== FILE: canton_names.dfy ===
/** The localised canton list of the UI helpers (`SWISS_CANTONS`,
    `getCantonByCode` and `getCantonName` in src/lib/utils.ts). */
module CantonNames {
  import opened Wrappers
  import CantonTable

  /** A canton's code with its English, German, French and Italian names. */
  datatype CantonInfo = CantonInfo(code: string, name: string, nameDE: string, nameFR: string, nameIT: string)

  /** The language argument of `getCantonName`. */
  datatype Language = DE | FR | IT | EN

  const SWISS_CANTONS: seq<CantonInfo> := [
      CantonInfo("AG", "Aargau", "Aargau", "Argovie", "Argovia"),
      CantonInfo("AI", "Appenzell Innerrhoden", "Appenzell Innerrhoden", "Appenzell Rhodes-Intérieures", "Appenzello Interno"),
      CantonInfo("AR", "Appenzell Ausserrhoden", "Appenzell Ausserrhoden", "Appenzell Rhodes-Extérieures", "Appenzello Esterno"),
      CantonInfo("BE", "Bern", "Bern", "Berne", "Berna"),
      CantonInfo("BL", "Basel-Landschaft", "Basel-Landschaft", "Bâle-Campagne", "Basilea Campagna"),
      CantonInfo("BS", "Basel-Stadt", "Basel-Stadt", "Bâle-Ville", "Basilea Città"),
      CantonInfo("FR", "Fribourg", "Freiburg", "Fribourg", "Friborgo"),
      CantonInfo("GE", "Geneva", "Genf", "Genève", "Ginevra"),
      CantonInfo("GL", "Glarus", "Glarus", "Glaris", "Glarona"),
      CantonInfo("GR", "Graubünden", "Graubünden", "Grisons", "Grigioni"),
      CantonInfo("JU", "Jura", "Jura", "Jura", "Giura"),
      CantonInfo("LU", "Lucerne", "Luzern", "Lucerne", "Lucerna"),
      CantonInfo("NE", "Neuchâtel", "Neuenburg", "Neuchâtel", "Neuchâtel"),
      CantonInfo("NW", "Nidwalden", "Nidwalden", "Nidwald", "Nidvaldo"),
      CantonInfo("OW", "Obwalden", "Obwalden", "Obwald", "Obvaldo"),
      CantonInfo("SG", "St. Gallen", "St. Gallen", "Saint-Gall", "San Gallo"),
      CantonInfo("SH", "Schaffhausen", "Schaffhausen", "Schaffhouse", "Sciaffusa"),
      CantonInfo("SO", "Solothurn", "Solothurn", "Soleure", "Soletta"),
      CantonInfo("SZ", "Schwyz", "Schwyz", "Schwytz", "Svitto"),
      CantonInfo("TG", "Thurgau", "Thurgau", "Thurgovie", "Turgovia"),
      CantonInfo("TI", "Ticino", "Tessin", "Tessin", "Ticino"),
      CantonInfo("UR", "Uri", "Uri", "Uri", "Uri"),
      CantonInfo("VD", "Vaud", "Waadt", "Vaud", "Vaud"),
      CantonInfo("VS", "Valais", "Wallis", "Valais", "Vallese"),
      CantonInfo("ZG", "Zug", "Zug", "Zoug", "Zugo"),
      CantonInfo("ZH", "Zurich", "Zürich", "Zurich", "Zurigo")
    ]

  /** `getCantonByCode`: the first canton with the code, if any. */
  function GetCantonByCode(code: string): (r: Option<CantonInfo>)
    ensures r.None? <==> forall k :: 0 <= k < |SWISS_CANTONS| ==> SWISS_CANTONS[k].code != code
    ensures r.Some? ==> r.value.code == code && r.value in SWISS_CANTONS
  {
    FindInfo(SWISS_CANTONS, code)
  }

  function FindInfo(s: seq<CantonInfo>, code: string): (r: Option<CantonInfo>)
    ensures r.None? <==> forall k :: 0 <= k < |s| ==> s[k].code != code
    ensures r.Some? ==> r.value.code == code && r.value in s
  {
    if s == [] then None
    else if s[0].code == code then Some(s[0])
    else FindInfo(s[1..], code)
  }

  /** `getCantonName`: an unknown code is returned unchanged; a known one
      gives the name in the requested language, English by default. */
  function GetCantonName(code: string, language: Language): (r: string)
    ensures GetCantonByCode(code).None? ==> r == code
    ensures GetCantonByCode(code).Some? ==>
              var c := GetCantonByCode(code).value;
              r == (match language
                    case DE => c.nameDE
                    case FR => c.nameFR
                    case IT => c.nameIT
                    case EN => c.name)
  {
    match GetCantonByCode(code)
    case None => code
    case Some(c) =>
      match language
      case DE => c.nameDE
      case FR => c.nameFR
      case IT => c.nameIT
      case EN => c.name
  }

  /** The UI list and the tax engine's rate table describe the same 26
      cantons: same codes in the same order, with the same English names;
      hence the UI list's codes are distinct too. */
  lemma NamesMatchRateTable()
    ensures |SWISS_CANTONS| == |CantonTable.CANTON_TAX_RATES| == 26
    ensures forall i :: 0 <= i < 26 ==>
              && SWISS_CANTONS[i].code == CantonTable.CANTON_TAX_RATES[i].code
              && SWISS_CANTONS[i].name == CantonTable.CANTON_TAX_RATES[i].name
    ensures forall i, j :: 0 <= i < j < 26 ==> SWISS_CANTONS[i].code != SWISS_CANTONS[j].code
  {
    CantonTable.RateTableWellFormed();
  }

  /** Every code of the rate table has a name entry, so the English name
      lookup of a rate-table code is the table's own name and never falls back
      to the code. */
  lemma {:induction false} EnglishNameOfTableCode(i: nat)
    requires i < |CantonTable.CANTON_TAX_RATES|
    ensures GetCantonName(CantonTable.CANTON_TAX_RATES[i].code, EN) == CantonTable.CANTON_TAX_RATES[i].name
  {
    NamesMatchRateTable();
    var code := CantonTable.CANTON_TAX_RATES[i].code;
    assert SWISS_CANTONS[i].code == code;
    var c := GetCantonByCode(code).value;
    var k :| 0 <= k < 26 && SWISS_CANTONS[k] == c;
    assert k == i;
  }
}

=== FILE: canton_table.dfy ===
/** The static per-canton rate table of the tax engine
    (`CANTON_TAX_RATES` in src/lib/swiss-tax-data.ts) and lookups in it. */
module CantonTable {
  import opened Wrappers

  /** One canton's tax parameters. `corporateIncomeTaxRate` and
      `federalTaxRate` are percentages of profit; `capitalTaxRate` is applied
      to the estimated capital as a plain factor; `municipalMultiplier`
      scales the cantonal tax; `vatThreshold` is informational. */
  datatype CantonTaxRates = CantonTaxRates(
    code: string,
    name: string,
    corporateIncomeTaxRate: real,
    capitalTaxRate: real,
    municipalMultiplier: real,
    vatThreshold: real,
    federalTaxRate: real)

  /** The 26 cantons in the table's canonical (alphabetical by code) order. */
  const CANTON_TAX_RATES: seq<CantonTaxRates> := [
      CantonTaxRates("AG", "Aargau", 6.72, 0.001, 1.15, 100000.0, 8.5),
      CantonTaxRates("AI", "Appenzell Innerrhoden", 6.5, 0.001, 1.0, 100000.0, 8.5),
      CantonTaxRates("AR", "Appenzell Ausserrhoden", 6.6, 0.001, 1.08, 100000.0, 8.5),
      CantonTaxRates("BE", "Bern", 6.96, 0.001, 1.54, 100000.0, 8.5),
      CantonTaxRates("BL", "Basel-Landschaft", 6.84, 0.001, 1.2, 100000.0, 8.5),
      CantonTaxRates("BS", "Basel-Stadt", 6.99, 0.001, 1.0, 100000.0, 8.5),
      CantonTaxRates("FR", "Fribourg", 6.79, 0.001, 1.2, 100000.0, 8.5),
      CantonTaxRates("GE", "Geneva", 6.18, 0.001, 0.455, 100000.0, 8.5),
      CantonTaxRates("GL", "Glarus", 6.5, 0.001, 1.2, 100000.0, 8.5),
      CantonTaxRates("GR", "Graubünden", 6.5, 0.001, 1.25, 100000.0, 8.5),
      CantonTaxRates("JU", "Jura", 6.5, 0.001, 1.2, 100000.0, 8.5),
      CantonTaxRates("LU", "Lucerne", 6.5, 0.001, 1.6, 100000.0, 8.5),
      CantonTaxRates("NE", "Neuchâtel", 6.5, 0.001, 0.68, 100000.0, 8.5),
      CantonTaxRates("NW", "Nidwalden", 6.5, 0.001, 1.0, 100000.0, 8.5),
      CantonTaxRates("OW", "Obwalden", 6.5, 0.001, 1.0, 100000.0, 8.5),
      CantonTaxRates("SG", "St. Gallen", 6.5, 0.001, 1.25, 100000.0, 8.5),
      CantonTaxRates("SH", "Schaffhausen", 6.5, 0.001, 1.25, 100000.0, 8.5),
      CantonTaxRates("SO", "Solothurn", 6.5, 0.001, 1.25, 100000.0, 8.5),
      CantonTaxRates("SZ", "Schwyz", 6.5, 0.001, 1.0, 100000.0, 8.5),
      CantonTaxRates("TG", "Thurgau", 6.5, 0.001, 1.2, 100000.0, 8.5),
      CantonTaxRates("TI", "Ticino", 8.84, 0.001, 1.0, 100000.0, 8.5),
      CantonTaxRates("UR", "Uri", 6.5, 0.001, 1.0, 100000.0, 8.5),
      CantonTaxRates("VD", "Vaud", 6.5, 0.001, 0.64, 100000.0, 8.5),
      CantonTaxRates("VS", "Valais", 6.5, 0.001, 1.0, 100000.0, 8.5),
      CantonTaxRates("ZG", "Zug", 6.5, 0.001, 0.76, 100000.0, 8.5),
      CantonTaxRates("ZH", "Zurich", 6.5, 0.001, 1.19, 100000.0, 8.5)
    ]

  /** No two entries of `s` share a code. */
  ghost predicate DistinctCodes(s: seq<CantonTaxRates>) {
    forall i, j :: 0 <= i < j < |s| ==> s[i].code != s[j].code
  }

  /** A two-letter code as a number that orders codes alphabetically;
      -1 for any other string. */
  function CodeOrder(code: string): (n: int)
    ensures n >= 0 <==> |code| == 2
  {
    if |code| == 2 then code[0] as int * 0x11_0000 + code[1] as int else -1
  }

  /** Two-letter codes with the same order number are the same code. */
  lemma CodeOrderInjective(a: string, b: string)
    requires |a| == 2 && |b| == 2 && CodeOrder(a) == CodeOrder(b)
    ensures a == b
  {
    var a0, a1, b0, b1 := a[0] as int, a[1] as int, b[0] as int, b[1] as int;
    assert 0 <= a1 < 0x11_0000 && 0 <= b1 < 0x11_0000;
    assert a[0] == b[0] && a[1] == b[1];
    assert a == [a[0], a[1]] && b == [b[0], b[1]];
  }

  /** Entries whose two-letter codes increase strictly from each entry to the
      next have pairwise distinct codes. */
  lemma {:induction false} IncreasingCodesAreDistinct(s: seq<CantonTaxRates>)
    requires forall i :: 0 <= i < |s| ==> |s[i].code| == 2
    requires forall i :: 0 <= i < |s| - 1 ==> CodeOrder(s[i].code) < CodeOrder(s[i + 1].code)
    ensures forall i, j :: 0 <= i < j < |s| ==> CodeOrder(s[i].code) < CodeOrder(s[j].code)
    ensures DistinctCodes(s)
  {
    if |s| > 1 {
      IncreasingCodesAreDistinct(s[1..]);
      assert forall j :: 1 <= j < |s| ==> CodeOrder(s[0].code) < CodeOrder(s[j].code) by {
        forall j | 1 <= j < |s|
          ensures CodeOrder(s[0].code) < CodeOrder(s[j].code)
        {
          if j > 1 {
            assert s[1..][0] == s[1] && s[1..][j - 1] == s[j];
          }
        }
      }
      assert forall i, j :: 1 <= i < j < |s| ==> s[1..][i - 1] == s[i] && s[1..][j - 1] == s[j];
    }
  }

  /** The table holds 26 cantons with distinct two-letter codes, and every
      canton applies the same 8.5% federal rate. */
  lemma RateTableWellFormed()
    ensures |CANTON_TAX_RATES| == 26
    ensures forall i :: 0 <= i < |CANTON_TAX_RATES| ==> |CANTON_TAX_RATES[i].code| == 2
    ensures DistinctCodes(CANTON_TAX_RATES)
    ensures forall i :: 0 <= i < |CANTON_TAX_RATES| ==> CANTON_TAX_RATES[i].federalTaxRate == 8.5
    ensures forall i :: 0 <= i < |CANTON_TAX_RATES| ==>
              && CANTON_TAX_RATES[i].corporateIncomeTaxRate > 0.0
              && CANTON_TAX_RATES[i].capitalTaxRate > 0.0
              && CANTON_TAX_RATES[i].municipalMultiplier > 0.0
  {
    CodesIncrease();
    IncreasingCodesAreDistinct(CANTON_TAX_RATES);
    RatesPositive();
  }

  /** The codes of the table are two letters each and in strictly
      increasing order. */
  lemma CodesIncrease()
    ensures |CANTON_TAX_RATES| == 26
    ensures forall i :: 0 <= i < |CANTON_TAX_RATES| ==> |CANTON_TAX_RATES[i].code| == 2
    ensures forall i :: 0 <= i < |CANTON_TAX_RATES| - 1 ==>
              CodeOrder(CANTON_TAX_RATES[i].code) < CodeOrder(CANTON_TAX_RATES[i + 1].code)
  {
    CodesIncreaseAGtoGL();
    CodesIncreaseGLtoSG();
    CodesIncreaseSGtoZH();
  }

  /** Any earlier entry of the table has a lower code than any later one. */
  lemma CodesInOrder()
    ensures |CANTON_TAX_RATES| == 26
    ensures forall i, j :: 0 <= i < j < 26 ==>
              CodeOrder(CANTON_TAX_RATES[i].code) < CodeOrder(CANTON_TAX_RATES[j].code)
  {
    CodesIncrease();
    IncreasingCodesAreDistinct(CANTON_TAX_RATES);
  }

  /** The codes increase from Aargau to Glarus. */
  lemma CodesIncreaseAGtoGL()
    ensures |CANTON_TAX_RATES| == 26
    ensures forall i :: 0 <= i <= 9 ==> |CANTON_TAX_RATES[i].code| == 2
    ensures forall i :: 0 <= i < 9 ==>
              CodeOrder(CANTON_TAX_RATES[i].code) < CodeOrder(CANTON_TAX_RATES[i + 1].code)
  {
    var s := CANTON_TAX_RATES;
    assert CodeOrder(s[0].code) < CodeOrder(s[1].code);
    assert CodeOrder(s[1].code) < CodeOrder(s[2].code);
    assert CodeOrder(s[2].code) < CodeOrder(s[3].code);
    assert CodeOrder(s[3].code) < CodeOrder(s[4].code);
    assert CodeOrder(s[4].code) < CodeOrder(s[5].code);
    assert CodeOrder(s[5].code) < CodeOrder(s[6].code);
    assert CodeOrder(s[6].code) < CodeOrder(s[7].code);
    assert CodeOrder(s[7].code) < CodeOrder(s[8].code);
    assert CodeOrder(s[8].code) < CodeOrder(s[9].code);
  }

  /** The codes increase from Glarus to St. Gallen. */
  lemma CodesIncreaseGLtoSG()
    ensures |CANTON_TAX_RATES| == 26
    ensures forall i :: 8 <= i <= 16 ==> |CANTON_TAX_RATES[i].code| == 2
    ensures forall i :: 8 <= i < 16 ==>
              CodeOrder(CANTON_TAX_RATES[i].code) < CodeOrder(CANTON_TAX_RATES[i + 1].code)
  {
    var s := CANTON_TAX_RATES;
    assert CodeOrder(s[8].code) < CodeOrder(s[9].code);
    assert CodeOrder(s[9].code) < CodeOrder(s[10].code);
    assert CodeOrder(s[10].code) < CodeOrder(s[11].code);
    assert CodeOrder(s[11].code) < CodeOrder(s[12].code);
    assert CodeOrder(s[12].code) < CodeOrder(s[13].code);
    assert CodeOrder(s[13].code) < CodeOrder(s[14].code);
    assert CodeOrder(s[14].code) < CodeOrder(s[15].code);
    assert CodeOrder(s[15].code) < CodeOrder(s[16].code);
  }

  /** The codes increase from St. Gallen to Zurich. */
  lemma CodesIncreaseSGtoZH()
    ensures |CANTON_TAX_RATES| == 26
    ensures forall i :: 15 <= i <= 25 ==> |CANTON_TAX_RATES[i].code| == 2
    ensures forall i :: 15 <= i < 25 ==>
              CodeOrder(CANTON_TAX_RATES[i].code) < CodeOrder(CANTON_TAX_RATES[i + 1].code)
  {
    var s := CANTON_TAX_RATES;
    assert CodeOrder(s[15].code) < CodeOrder(s[16].code);
    assert CodeOrder(s[16].code) < CodeOrder(s[17].code);
    assert CodeOrder(s[17].code) < CodeOrder(s[18].code);
    assert CodeOrder(s[18].code) < CodeOrder(s[19].code);
    assert CodeOrder(s[19].code) < CodeOrder(s[20].code);
    assert CodeOrder(s[20].code) < CodeOrder(s[21].code);
    assert CodeOrder(s[21].code) < CodeOrder(s[22].code);
    assert CodeOrder(s[22].code) < CodeOrder(s[23].code);
    assert CodeOrder(s[23].code) < CodeOrder(s[24].code);
    assert CodeOrder(s[24].code) < CodeOrder(s[25].code);
  }

  /** Every canton has the 8.5% federal rate and positive cantonal rates. */
  lemma RatesPositive()
    ensures forall i :: 0 <= i < |CANTON_TAX_RATES| ==> CANTON_TAX_RATES[i].federalTaxRate == 8.5
    ensures forall i :: 0 <= i < |CANTON_TAX_RATES| ==>
              && CANTON_TAX_RATES[i].corporateIncomeTaxRate > 0.0
              && CANTON_TAX_RATES[i].capitalTaxRate > 0.0
              && CANTON_TAX_RATES[i].municipalMultiplier > 0.0
  {
  }

  /** The index of the first entry of `s` with the given code
      (`s.find(c => c.code === code)`), or `None`. */
  function FindCode(s: seq<CantonTaxRates>, code: string): (r: Option<nat>)
    ensures r.Some? ==> r.value < |s| && s[r.value].code == code
    ensures r.Some? ==> forall k :: 0 <= k < r.value ==> s[k].code != code
    ensures r.None? <==> forall k :: 0 <= k < |s| ==> s[k].code != code
  {
    if s == [] then None
    else if s[0].code == code then Some(0)
    else
      match FindCode(s[1..], code)
      case None => None
      case Some(i) => Some(i + 1)
  }

  /** In a table with distinct codes, looking up an entry's code finds that
      entry. */
  lemma FindDistinct(s: seq<CantonTaxRates>, i: int)
    requires DistinctCodes(s) && 0 <= i < |s|
    ensures FindCode(s, s[i].code) == Some(i)
  {
  }

  /** `getCantonTaxRates`: the table entry for a code, `None` when the code is
      not a canton of the table. */
  function GetCantonTaxRates(code: string): (r: Option<CantonTaxRates>)
    ensures r.None? <==> forall k :: 0 <= k < |CANTON_TAX_RATES| ==> CANTON_TAX_RATES[k].code != code
    ensures r.Some? ==> r.value.code == code && r.value in CANTON_TAX_RATES
  {
    match FindCode(CANTON_TAX_RATES, code)
    case None => None
    case Some(i) => Some(CANTON_TAX_RATES[i])
  }
}

=== FILE: compare_route.dfy ===
/** `POST /api/calculator/compare` (src/app/api/calculator/compare/route.ts):
    validates the profile, returns all 26 breakdowns cheapest first and a
    summary. The request body is `None` when it is not valid JSON. An absent
    revenue, legal form or canton behaves like 0 or the empty string, which
    the validation or the canton look-up treats the same way; the profile's
    profit is always a number here: in JavaScript an absent one makes the
    federal, cantonal and municipal taxes and the total NaN, leaves the
    capital tax a number and the effective rate 0. The current time is passed in as the ISO timestamp
    string. */
module CompareRoute {
  import opened Wrappers
  import opened CantonTable
  import opened TaxEngine
  import opened Api
  import StableSort

  datatype Summary = Summary(
    currentCantonTax: real,
    bestCantonTax: real,
    potentialSavings: real,
    bestCanton: string,
    averageTax: real)

  datatype CompareData = CompareData(calculations: seq<TaxCalculation>, summary: Summary, timestamp: string)

  const MISSING_FIELDS := "Missing required fields: revenue or legalForm"
  const COMPARE_FAILED := "Internal server error during canton comparison"

  /** `x || fallback` on numbers: zero is falsy. */
  function OrElse(x: real, fallback: real): real {
    if x != 0.0 then x else fallback
  }

  /** The summary over the sorted breakdowns. The source sorts in place, so
      its look-up of the current canton and its `calculations[0]` fallback
      both see the sorted list. */
  function Summarize(sorted: seq<TaxCalculation>, canton: string): (s: Summary)
    requires |sorted| > 0
    ensures s.bestCantonTax == sorted[0].totalTaxBurden
    ensures s.bestCanton == sorted[0].canton
    ensures s.potentialSavings == s.currentCantonTax - s.bestCantonTax
    ensures s.averageTax == SumTotals(sorted) / |sorted| as real
    ensures var i := StableSort.IndexOfId(sorted, CantonOf, canton);
            s.currentCantonTax == if i >= 0 && sorted[i].totalTaxBurden != 0.0 then sorted[i].totalTaxBurden else sorted[0].totalTaxBurden
  {
    var i := StableSort.IndexOfId(sorted, CantonOf, canton);
    var found := if i >= 0 then sorted[i].totalTaxBurden else 0.0;
    var currentCantonTax := OrElse(found, OrElse(sorted[0].totalTaxBurden, 0.0));
    var bestCantonTax := OrElse(sorted[0].totalTaxBurden, 0.0);
    Summary(currentCantonTax, bestCantonTax, currentCantonTax - bestCantonTax,
            sorted[0].canton, SumTotals(sorted) / |sorted| as real)
  }

  /** The route handler. */
  function Compare(body: Option<CompanyData>, timestamp: string): (r: ApiResponse<CompareData>)
    ensures body.None? ==> r == Failure(500, COMPARE_FAILED)
    ensures body.Some? && (body.value.revenue == 0.0 || body.value.legalForm == "") ==> r == Failure(400, MISSING_FIELDS)
    ensures r.success <==> body.Some? && body.value.revenue != 0.0 && body.value.legalForm != ""
    ensures r.success <==> r.data.Some?
    ensures r.success ==>
              var data := body.value;
              var d := r.data.value;
              && r.status == 200
              && d.timestamp == timestamp
              && d.calculations == StableSort.Sort(AllCalculations(data), TotalOf)
              && |d.calculations| == 26
              && StableSort.SortedBy(d.calculations, TotalOf)
              && multiset(d.calculations) == multiset(AllCalculations(data))
              && d.summary == Summarize(d.calculations, data.canton)
  {
    match body
    case None => Failure(500, COMPARE_FAILED)
    case Some(data) =>
      if data.revenue == 0.0 || data.legalForm == "" then Failure(400, MISSING_FIELDS)
      else
        var sorted := StableSort.Sort(CalculateTaxes(data, ""), TotalOf);
        Success(CompareData(sorted, Summarize(sorted, data.canton), timestamp))
  }

  /** The summary over all sorted breakdowns. */
  function SummaryOf(data: CompanyData): (s: Summary)
  {
    Summarize(StableSort.Sort(AllCalculations(data), TotalOf), data.canton)
  }

  /** The best canton and its total are the cheapest canton's, the earliest
      in the table on a tie, and the average is no lower than that total. */
  lemma SummaryBest(data: CompanyData)
    ensures var s := SummaryOf(data);
            var all := AllCalculations(data);
            var b := FirstCheapest(all);
            && s.bestCanton == all[b].canton
            && s.bestCantonTax == all[b].totalTaxBurden
            && s.averageTax >= s.bestCantonTax
  {
    SortedHeadIsFirstCheapest(data);
    AverageAtLeastBest(StableSort.Sort(AllCalculations(data), TotalOf), data.canton);
  }

  /** Over a sorted list the average total is at least the first total. */
  lemma AverageAtLeastBest(sorted: seq<TaxCalculation>, canton: string)
    requires |sorted| > 0 && StableSort.SortedBy(sorted, TotalOf)
    ensures Summarize(sorted, canton).averageTax >= Summarize(sorted, canton).bestCantonTax
  {
    assert forall k :: 0 <= k < |sorted| ==> TotalOf(sorted[0]) <= TotalOf(sorted[k]);
    SumTotalsAtLeast(sorted, sorted[0].totalTaxBurden);
    MeanAtLeast(SumTotals(sorted), |sorted| as real, sorted[0].totalTaxBurden);
  }

  lemma MeanAtLeast(sum: real, n: real, m: real)
    requires n > 0.0 && sum >= n * m
    ensures sum / n >= m
  {
    assert sum / n * n == sum;
  }

  /** The savings figure is never negative, and for a known canton whose
      total is not zero it is the figure the savings computation reports. */
  lemma SummarySavings(data: CompanyData)
    ensures SummaryOf(data).potentialSavings >= 0.0
    ensures GetCantonTaxRates(data.canton).Some? &&
            CalculatePotentialSavings(data, data.canton).value.currentTax != 0.0
            ==> SummaryOf(data).potentialSavings == CalculatePotentialSavings(data, data.canton).value.savings
  {
    SavingsNotNegative(StableSort.Sort(AllCalculations(data), TotalOf), data.canton);
    if GetCantonTaxRates(data.canton).Some? {
      var sorted := StableSort.Sort(AllCalculations(data), TotalOf);
      var p := CalculatePotentialSavings(data, data.canton).value;
      CurrentTaxFound(data);
      SavingsBestIsFirstCheapest(data);
      SortedHeadIsFirstCheapest(data);
      SummaryAgreesWithSavings(sorted, data.canton, p);
    }
  }

  /** A summary whose first and current totals are the savings result's best
      and current tax reports the same saving, unless the current total is
      zero and falls back to the first. */
  lemma SummaryAgreesWithSavings(sorted: seq<TaxCalculation>, canton: string, p: SavingsResult)
    requires |sorted| > 0 && sorted[0].totalTaxBurden == p.bestTax
    requires p.savings == p.currentTax - p.bestTax
    requires var i := StableSort.IndexOfId(sorted, CantonOf, canton);
             i >= 0 && sorted[i].totalTaxBurden == p.currentTax
    ensures p.currentTax != 0.0 ==> Summarize(sorted, canton).potentialSavings == p.savings
  {
  }

  /** Over a sorted list the current canton is never cheaper than the first. */
  lemma SavingsNotNegative(sorted: seq<TaxCalculation>, canton: string)
    requires |sorted| > 0 && StableSort.SortedBy(sorted, TotalOf)
    ensures Summarize(sorted, canton).potentialSavings >= 0.0
  {
    var i := StableSort.IndexOfId(sorted, CantonOf, canton);
    if i >= 0 {
      assert TotalOf(sorted[0]) <= TotalOf(sorted[i]);
    }
  }

  /** The sorted breakdowns hold the known canton, with the total the savings
      computation reports for it. */
  lemma CurrentTaxFound(data: CompanyData)
    requires GetCantonTaxRates(data.canton).Some?
    ensures var sorted := StableSort.Sort(AllCalculations(data), TotalOf);
            var i := StableSort.IndexOfId(sorted, CantonOf, data.canton);
            i >= 0 && sorted[i].totalTaxBurden == CalculatePotentialSavings(data, data.canton).value.currentTax
  {
    var all := AllCalculations(data);
    var j := TableIndex(data.canton).value;
    assert CantonOf(all[j]) == data.canton;
    AllCalculationsDistinct(data);
    StableSort.FoundInSort(all, TotalOf, CantonOf, j);
  }

  /** A valid request is answered with exactly that summary. */
  lemma CompareAnswersSummary(data: CompanyData, timestamp: string)
    requires data.revenue != 0.0 && data.legalForm != ""
    ensures Compare(Some(data), timestamp).data.Some?
    ensures Compare(Some(data), timestamp).data.value.summary == SummaryOf(data)
  {
  }
}

=== FILE: env_file.dfy ===
/** `loadEnvFile` of simple-stripe-setup.js: the `.env.local` text becomes a
    map from variable names to values. Reading the file is left out; its
    contents arrive as a parameter, `None` standing for a failed read. */
module EnvFile {
  import opened Wrappers
  import opened Text

  /** What one line of the file contributes: nothing for a blank line, a
      line starting with `#`, a line without `=` or a line starting with
      `=`; otherwise the trimmed text before the first `=` as the name and
      the trimmed text after it (later `=` signs included) as the value. */
  function LineEntry(line: string): (e: Option<(string, string)>)
    ensures e.Some? <==> Trim(line) != "" && !IsPrefix("#", line) && 0 < IndexOf(line, '=') < |line|
    ensures e.Some? ==>
              var parts := Split(line, '=');
              e.value == (Trim(parts[0]), Trim(Join(parts[1..], '=')))
  {
    SplitDestructuring(line);
    var i := IndexOf(line, '=');
    if Trim(line) == "" || IsPrefix("#", line) || i == 0 || i == |line| then None
    else Some((Trim(line[..i]), Trim(line[i + 1..])))
  }

  /** The source destructures `line.split('=')` into a key and the other
      parts: the key is the text before the first `=`, there are other
      parts exactly when the line has an `=`, and rejoining them with `=`
      gives the text after the first `=`. */
  lemma SplitDestructuring(line: string)
    ensures var parts := Split(line, '=');
            && parts[0] == line[..IndexOf(line, '=')]
            && (|parts| > 1 <==> IndexOf(line, '=') < |line|)
            && (|parts| > 1 ==> Join(parts[1..], '=') == line[IndexOf(line, '=') + 1..])
  {
    var i := IndexOf(line, '=');
    if i < |line| {
      SplitTailJoin(line, '=');
    } else {
      assert '=' !in line;
      SplitNoSeparator(line, '=');
    }
  }

  /** A line defines a name exactly when it is not blank, does not start
      with `#` and has an `=` after at least one character. */
  lemma LineEntryMeaning(line: string)
    ensures LineEntry(line).Some? <==>
              && Trim(line) != ""
              && !IsPrefix("#", line)
              && 0 < IndexOf(line, '=') < |line|
    ensures LineEntry(line).Some? ==>
              var parts := Split(line, '=');
              LineEntry(line).value == (Trim(parts[0]), Trim(Join(parts[1..], '=')))
  {
    SplitDestructuring(line);
  }

  /** The map after applying `es` in order, a later entry for a name
      overwriting an earlier one and an absent entry changing nothing. */
  function Apply(es: seq<Option<(string, string)>>): map<string, string>
  {
    if es == [] then map[]
    else
      var m := Apply(es[..|es| - 1]);
      match es[|es| - 1]
      case Some((k, v)) => m[k := v]
      case None => m
  }

  /** Entry `i` of `es` defines the name `k`. */
  predicate DefinesAt(es: seq<Option<(string, string)>>, i: int, k: string) {
    0 <= i < |es| && es[i].Some? && es[i].value.0 == k
  }

  /** The entries of the lines, in order. */
  function LineEntries(lines: seq<string>): (es: seq<Option<(string, string)>>)
    ensures |es| == |lines|
    ensures forall i :: 0 <= i < |lines| ==> es[i] == LineEntry(lines[i])
  {
    seq(|lines|, i requires 0 <= i < |lines| => LineEntry(lines[i]))
  }

  /** `env` holds exactly the names some entry of `es` defines, each with
      the value of the last entry that defines it. */
  ghost predicate LastDefinitions(env: map<string, string>, es: seq<Option<(string, string)>>) {
    && (forall k :: k in env <==> exists i :: DefinesAt(es, i, k))
    && (forall k :: k in env ==>
          exists i :: && DefinesAt(es, i, k)
                      && env[k] == es[i].value.1
                      && forall j :: i < j < |es| ==> !DefinesAt(es, j, k))
  }

  /** `loadEnvFile()`: the empty map when the file cannot be read; otherwise
      a name is in the map exactly when some line defines it, with the value
      of the last line that does. */
  function LoadEnvFile(content: Option<string>): (env: map<string, string>)
    ensures content.None? ==> env == map[]
    ensures content.Some? ==> LastDefinitions(env, LineEntries(Split(content.value, '\n')))
  {
    match content
    case None => map[]
    case Some(text) =>
      var es := LineEntries(Split(text, '\n'));
      AppliedEverywhere(es);
      Apply(es)
  }

  /** `AppliedValue` for every name at once. */
  lemma AppliedEverywhere(es: seq<Option<(string, string)>>)
    ensures LastDefinitions(Apply(es), es)
  {
    forall k
      ensures k in Apply(es) <==> exists i :: DefinesAt(es, i, k)
      ensures k in Apply(es) ==>
                exists i :: && DefinesAt(es, i, k)
                            && Apply(es)[k] == es[i].value.1
                            && forall j :: i < j < |es| ==> !DefinesAt(es, j, k)
    {
      AppliedValue(es, k);
    }
  }

  /** A name is defined exactly when some entry defines it, and its value is
      the one given by the last such entry. */
  lemma AppliedValue(es: seq<Option<(string, string)>>, k: string)
    ensures k in Apply(es) <==> exists i :: DefinesAt(es, i, k)
    ensures k in Apply(es) ==>
              exists i :: && DefinesAt(es, i, k)
                          && Apply(es)[k] == es[i].value.1
                          && forall j :: i < j < |es| ==> !DefinesAt(es, j, k)
  {
    AppliedDomain(es, k);
    if k in Apply(es) {
      AppliedLast(es, k);
    }
  }

  /** The entries before the last define a name at an index exactly when
      the whole sequence does and the index is not the last. */
  lemma InitDefines(es: seq<Option<(string, string)>>, k: string)
    requires es != []
    ensures forall i :: DefinesAt(es[..|es| - 1], i, k) <==> i < |es| - 1 && DefinesAt(es, i, k)
  {
  }

  lemma {:induction false} AppliedDomain(es: seq<Option<(string, string)>>, k: string)
    ensures k in Apply(es) <==> exists i :: DefinesAt(es, i, k)
  {
    if es != [] {
      var n := |es| - 1;
      AppliedDomain(es[..n], k);
      InitDefines(es, k);
      if !DefinesAt(es, n, k) && k in Apply(es) {
        var i :| DefinesAt(es[..n], i, k);
        assert DefinesAt(es, i, k);
      }
    }
  }

  lemma {:induction false} AppliedLast(es: seq<Option<(string, string)>>, k: string)
    requires k in Apply(es)
    ensures exists i :: && DefinesAt(es, i, k)
                        && Apply(es)[k] == es[i].value.1
                        && forall j :: i < j < |es| ==> !DefinesAt(es, j, k)
  {
    var n := |es| - 1;
    if DefinesAt(es, n, k) {
      assert Apply(es)[k] == es[n].value.1;
    } else {
      var init := es[..n];
      assert k in Apply(init) && Apply(es)[k] == Apply(init)[k];
      AppliedLast(init, k);
      InitDefines(es, k);
      var i :| && DefinesAt(init, i, k)
               && Apply(init)[k] == init[i].value.1
               && forall j :: i < j < n ==> !DefinesAt(init, j, k);
      assert DefinesAt(es, i, k);
    }
  }

  /** Only a `#` in the very first column marks a comment: a line indented
      by white space still defines a name, `#` and all. */
  lemma IndentedHashIsNotComment(pad: string, name: string, v: string)
    requires pad != [] && forall i :: 0 <= i < |pad| ==> IsSpace(pad[i])
    requires Carried(name, v) && name[0] == '#'
    ensures LineEntry(pad + EntryLine(name, v)) == Some((name, v))
  {
    var a := pad + name;
    var line := pad + EntryLine(name, v);
    PaddedLine(pad, name, v);
    PaddedName(pad, name);
    assert !IsSpace(name[0]);
    NotBlankAt(line, |pad|);
    NotCommentLine(line);
    SplitsAt(a, v);
    TrimPadded(pad, name);
    TrimOfTrimmed(v);
  }

  /** A padded line is the line of the padded name, with the padding in
      front and the name's first character after it. */
  lemma PaddedLine(pad: string, name: string, v: string)
    requires pad != [] && name != []
    ensures pad + EntryLine(name, v) == EntryLine(pad + name, v)
    ensures (pad + EntryLine(name, v))[0] == pad[0]
    ensures (pad + EntryLine(name, v))[|pad|] == name[0]
  {
    assert pad + (name + "=" + v) == (pad + name) + "=" + v;
  }

  /** A line that is not blank, not a comment and made of a non-empty text
      without `=`, an `=` and a rest defines the trimmed text as the trimmed
      rest. */
  lemma SplitsAt(a: string, v: string)
    requires a != [] && '=' !in a
    requires Trim(EntryLine(a, v)) != "" && !IsPrefix("#", EntryLine(a, v))
    ensures LineEntry(EntryLine(a, v)) == Some((Trim(a), Trim(v)))
  {
    var line := EntryLine(a, v);
    IndexOfSkip(a, '=', v);
    AroundSeparator(a, '=', v);
    DefiningLine(line, |a|);
  }

  /** A line whose first character is not `#` is no comment. */
  lemma NotCommentLine(line: string)
    requires line != [] && line[0] != '#'
    ensures !IsPrefix("#", line)
  {
    assert line[..1][0] != "#"[0];
  }

  /** White space ahead of a name brings no `=` into it. */
  lemma PaddedName(pad: string, name: string)
    requires forall i :: 0 <= i < |pad| ==> IsSpace(pad[i])
    requires '=' !in name
    ensures '=' !in pad + name
    ensures pad != [] ==> pad[0] != '#'
  {
    assert !IsSpace('=') && !IsSpace('#');
    forall i | 0 <= i < |pad + name| ensures (pad + name)[i] != '=' {
      if i < |pad| {
        assert IsSpace(pad[i]);
      } else {
        assert (pad + name)[i] == name[i - |pad|];
      }
    }
  }

  /** A string with a non-space character somewhere does not trim to "". */
  lemma NotBlankAt(s: string, j: int)
    requires 0 <= j < |s| && !IsSpace(s[j])
    ensures Trim(s) != ""
  {
    TrimMeaning(s);
  }

  /** Trimming a padded trimmed name gives the name. */
  lemma TrimPadded(pad: string, name: string)
    requires forall i :: 0 <= i < |pad| ==> IsSpace(pad[i])
    requires name != [] && Trimmed(name)
    ensures Trim(pad + name) == name
  {
    TrimStartPadding(pad, name);
    TrimOfTrimmed(name);
  }

  /** Leading white space before a non-space start is what trimming drops. */
  lemma {:induction false} TrimStartPadding(pad: string, s: string)
    requires forall i :: 0 <= i < |pad| ==> IsSpace(pad[i])
    requires s != [] && !IsSpace(s[0])
    ensures TrimStart(pad + s) == TrimStart(s)
  {
    if pad != [] {
      assert (pad + s)[1..] == pad[1..] + s;
      TrimStartPadding(pad[1..], s);
    } else {
      assert pad + s == s;
    }
  }

  /** A name and value the file format can carry unchanged: a non-empty
      trimmed name without `=`, not starting with `#`, and a trimmed value,
      neither spanning lines. */
  predicate Writable(k: string, v: string) {
    Carried(k, v) && k[0] != '#'
  }

  /** The entry survives as the text of a line, `#` aside. */
  predicate Carried(k: string, v: string) {
    && k != "" && Trimmed(k) && '=' !in k && '\n' !in k
    && Trimmed(v) && '\n' !in v
  }

  /** Neither end of `s` is white space. */
  predicate Trimmed(s: string) {
    s == [] || (!IsSpace(s[0]) && !IsSpace(s[|s| - 1]))
  }

  /** The line `name=value`. */
  function EntryLine(k: string, v: string): string {
    k + "=" + v
  }

  /** A writable entry's line reads back as that entry. */
  lemma EntryLineReadsBack(k: string, v: string)
    requires Writable(k, v)
    ensures LineEntry(EntryLine(k, v)) == Some((k, v))
  {
    var line := EntryLine(k, v);
    assert line[0] == k[0];
    NotBlank(line);
    NotCommentLine(line);
    SplitsAt(k, v);
    TrimOfTrimmed(k);
    TrimOfTrimmed(v);
  }

  lemma DefiningLine(line: string, i: int)
    requires Trim(line) != "" && !IsPrefix("#", line) && IndexOf(line, '=') == i && 0 < i < |line|
    ensures LineEntry(line) == Some((Trim(line[..i]), Trim(line[i + 1..])))
  {
  }

  /** A string starting with a non-space character does not trim to "". */
  lemma NotBlank(s: string)
    requires s != [] && !IsSpace(s[0])
    ensures Trim(s) != ""
  {
    TrimMeaning(s);
  }

  /** The map a sequence of entries denotes, later entries overwriting
      earlier ones. */
  function FromEntries(es: seq<(string, string)>): map<string, string> {
    if es == [] then map[]
    else FromEntries(es[..|es| - 1])[es[|es| - 1].0 := es[|es| - 1].1]
  }

  /** One line per entry. */
  function EntryLines(es: seq<(string, string)>): (lines: seq<string>)
    ensures |lines| == |es|
  {
    seq(|es|, i requires 0 <= i < |es| => EntryLine(es[i].0, es[i].1))
  }

  /** Writing writable entries one per line and loading the file gives back
      the map the entries denote. */
  lemma EnvRoundTrip(es: seq<(string, string)>)
    requires forall i :: 0 <= i < |es| ==> Writable(es[i].0, es[i].1)
    ensures LoadEnvFile(Some(Join(EntryLines(es), '\n'))) == FromEntries(es)
  {
    var lines := EntryLines(es);
    if es == [] {
      EmptyFile();
    } else {
      LinesAreSingle(es);
      SplitJoin(lines, '\n');
      LinesReadBack(es);
      ApplyDefined(es);
    }
  }

  /** No written line of writable entries breaks into two. */
  lemma LinesAreSingle(es: seq<(string, string)>)
    requires forall i :: 0 <= i < |es| ==> Writable(es[i].0, es[i].1)
    ensures forall i :: 0 <= i < |EntryLines(es)| ==> '\n' !in EntryLines(es)[i]
  {
    var lines := EntryLines(es);
    forall i | 0 <= i < |lines| ensures '\n' !in lines[i] {
      assert lines[i] == es[i].0 + "=" + es[i].1;
    }
  }

  /** Each written line reads back as its entry. */
  lemma LinesReadBack(es: seq<(string, string)>)
    requires forall i :: 0 <= i < |es| ==> Writable(es[i].0, es[i].1)
    ensures LineEntries(EntryLines(es)) == Defined(es)
  {
    var lines := EntryLines(es);
    forall i | 0 <= i < |es| ensures LineEntries(lines)[i] == Defined(es)[i] {
      EntryLineReadsBack(es[i].0, es[i].1);
    }
  }

  /** An empty file defines nothing. */
  lemma EmptyFile()
    ensures LoadEnvFile(Some("")) == map[]
  {
    assert Split("", '\n') == [""];
    assert LineEntry("").None?;
    assert LineEntries([""]) == [None];
    assert Apply([None]) == map[];
  }

  /** Every entry present. */
  function Defined(es: seq<(string, string)>): (r: seq<Option<(string, string)>>)
    ensures |r| == |es|
  {
    seq(|es|, i requires 0 <= i < |es| => Some(es[i]))
  }

  lemma {:induction false} ApplyDefined(es: seq<(string, string)>)
    ensures Apply(Defined(es)) == FromEntries(es)
  {
    if es != [] {
      var n := |es| - 1;
      assert Defined(es)[..n] == Defined(es[..n]);
      ApplyDefined(es[..n]);
    }
  }
}

=== FILE: feature_gates.dfy ===
/** The plan-based feature gate of src/lib/feature-gates.ts: quota checks
    against monthly usage, feature-flag checks, the limits overview, upgrade
    suggestions, and the subscription helpers that pick the plan. */
module FeatureGates {
  import opened Wrappers
  import opened Text
  import opened Plans

  /** A gate for one user: the plan id as given, the limits it resolves to,
      and the usage counts per action. */
  datatype FeatureGate = FeatureGate(planId: string, limits: PlanLimits, usage: map<string, int>)

  /** The answer of a check. Absent fields are `None`. */
  datatype FeatureGateResult = FeatureGateResult(
    allowed: bool,
    reason: Option<string>,
    upgradeRequired: Option<bool>,
    currentUsage: Option<int>,
    limit: Option<int>)

  /** `new FeatureGate(planId, currentUsage)`. */
  function NewFeatureGate(planId: string, usage: map<string, int>): (g: FeatureGate)
    ensures g.limits == LimitsFor(planId)
    ensures Covers(g.limits, FREE_LIMITS)
  {
    FeatureGate(planId, LimitsFor(planId), usage)
  }

  /** `currentUsage[key] || 0`: a missing count reads as zero. */
  function UsageOf(g: FeatureGate, key: string): int {
    if key in g.usage then g.usage[key] else 0
  }

  /** The common shape of the three quota checks: unlimited passes without
      details, a usage at or over the limit is refused with `reason`, and
      anything below passes with usage and limit attached. */
  function QuotaCheck(limit: int, usage: int, reason: string): (r: FeatureGateResult)
    ensures r.allowed <==> limit == UNLIMITED || usage < limit
    ensures limit == UNLIMITED ==> r == FeatureGateResult(true, None, None, None, None)
    ensures limit != UNLIMITED ==> r.currentUsage == Some(usage) && r.limit == Some(limit)
    ensures r.allowed ==> r.reason.None? && r.upgradeRequired.None?
    ensures !r.allowed ==> r.reason == Some(reason) && r.upgradeRequired == Some(true)
  {
    if limit == UNLIMITED then FeatureGateResult(true, None, None, None, None)
    else if usage >= limit then FeatureGateResult(false, Some(reason), Some(true), Some(usage), Some(limit))
    else FeatureGateResult(true, None, None, Some(usage), Some(limit))
  }

  /** Under a fixed limit, a check that passes also passes at any lower usage. */
  lemma QuotaCheckMonotone(limit: int, less: int, more: int, reason: string)
    requires less <= more
    ensures QuotaCheck(limit, more, reason).allowed ==> QuotaCheck(limit, less, reason).allowed
  {
  }

  /** At a fixed usage, a check that passes also passes under a quota that
      covers the first one. */
  lemma QuotaCheckCovered(bigger: int, smaller: int, usage: int, reason: string, reason': string)
    requires QuotaCovers(bigger, smaller)
    ensures QuotaCheck(smaller, usage, reason).allowed ==> QuotaCheck(bigger, usage, reason').allowed
  {
  }

  /** `canCalculateTaxes()`. */
  function CanCalculateTaxes(g: FeatureGate): (r: FeatureGateResult)
    ensures r.allowed <==> g.limits.calculations == UNLIMITED || UsageOf(g, "calculations") < g.limits.calculations
    ensures !r.allowed ==> r.reason == Some("You've reached your limit of " + IntToString(g.limits.calculations) + " calculations per month")
  {
    var limit := g.limits.calculations;
    QuotaCheck(limit, UsageOf(g, "calculations"),
               "You've reached your limit of " + IntToString(limit) + " calculations per month")
  }

  /** `canSaveCompanyProfile()`. */
  function CanSaveCompanyProfile(g: FeatureGate): (r: FeatureGateResult)
    ensures r.allowed <==> g.limits.savedProfiles == UNLIMITED || UsageOf(g, "savedProfiles") < g.limits.savedProfiles
    ensures !r.allowed ==> r.reason == Some("You've reached your limit of " + IntToString(g.limits.savedProfiles) + " saved company profiles")
  {
    var limit := g.limits.savedProfiles;
    QuotaCheck(limit, UsageOf(g, "savedProfiles"),
               "You've reached your limit of " + IntToString(limit) + " saved company profiles")
  }

  /** "comparison" for a limit of one, "comparisons" otherwise. */
  function ComparisonNoun(limit: int): (noun: string)
    ensures noun == "canton comparison" || noun == "canton comparisons"
    ensures noun == "canton comparison" <==> limit == 1
  {
    "canton comparison" + (if limit == 1 then "" else "s")
  }

  /** `canCompareCantons()`. */
  function CanCompareCantons(g: FeatureGate): (r: FeatureGateResult)
    ensures r.allowed <==> g.limits.cantonComparisons == UNLIMITED || UsageOf(g, "cantonComparisons") < g.limits.cantonComparisons
    ensures !r.allowed ==>
              r.reason == Some("You've reached your limit of " + IntToString(g.limits.cantonComparisons) + " "
                               + ComparisonNoun(g.limits.cantonComparisons) + " per month")
  {
    var limit := g.limits.cantonComparisons;
    QuotaCheck(limit, UsageOf(g, "cantonComparisons"),
               "You've reached your limit of " + IntToString(limit) + " " + ComparisonNoun(limit) + " per month")
  }

  /** A feature that is on or off per plan; refusals ask for an upgrade. */
  function FlagCheck(enabled: bool, reason: string): (r: FeatureGateResult)
    ensures r.allowed <==> enabled
    ensures r.allowed ==> r == FeatureGateResult(true, None, None, None, None)
    ensures !r.allowed ==> r == FeatureGateResult(false, Some(reason), Some(true), None, None)
  {
    if !enabled then FeatureGateResult(false, Some(reason), Some(true), None, None)
    else FeatureGateResult(true, None, None, None, None)
  }

  /** `canAccessAIRecommendations()`. */
  function CanAccessAIRecommendations(g: FeatureGate): (r: FeatureGateResult)
    ensures r.allowed <==> g.limits.aiRecommendations
    ensures !r.allowed ==> r.upgradeRequired == Some(true)
                           && r.reason == Some("AI recommendations are only available with paid plans")
  {
    FlagCheck(g.limits.aiRecommendations, "AI recommendations are only available with paid plans")
  }

  /** `canAccessComplianceMonitoring()`. */
  function CanAccessComplianceMonitoring(g: FeatureGate): (r: FeatureGateResult)
    ensures r.allowed <==> g.limits.complianceMonitoring
    ensures !r.allowed ==> r.upgradeRequired == Some(true)
                           && r.reason == Some("Compliance monitoring is only available with paid plans")
  {
    FlagCheck(g.limits.complianceMonitoring, "Compliance monitoring is only available with paid plans")
  }

  /** `canUseExpertConsultation()`. An absent or zero allowance is falsy and
      asks for an upgrade; an exhausted allowance is refused without one. */
  function CanUseExpertConsultation(g: FeatureGate): (r: FeatureGateResult)
    ensures r.allowed <==> ExpertAllowance(g.limits) != 0 && UsageOf(g, "expertConsultations") < ExpertAllowance(g.limits)
    ensures ExpertAllowance(g.limits) == 0 ==>
              r == FeatureGateResult(false, Some("Expert consultations are only available with Professional plan"), Some(true), None, None)
    ensures ExpertAllowance(g.limits) != 0 ==>
              r.currentUsage == Some(UsageOf(g, "expertConsultations")) && r.limit == Some(ExpertAllowance(g.limits))
    ensures ExpertAllowance(g.limits) != 0 && !r.allowed ==>
              r.upgradeRequired == Some(false)
              && r.reason == Some("You've used all " + IntToString(ExpertAllowance(g.limits)) + " expert consultation credits this month")
  {
    match g.limits.expertConsultations
    case None =>
      FeatureGateResult(false, Some("Expert consultations are only available with Professional plan"), Some(true), None, None)
    case Some(limit) =>
      if limit == 0 then
        FeatureGateResult(false, Some("Expert consultations are only available with Professional plan"), Some(true), None, None)
      else
        var usage := UsageOf(g, "expertConsultations");
        if usage >= limit then
          FeatureGateResult(false, Some("You've used all " + IntToString(limit) + " expert consultation credits this month"),
                            Some(false), Some(usage), Some(limit))
        else FeatureGateResult(true, None, None, Some(usage), Some(limit))
  }

  /** `hasPrioritySupport()`. */
  function HasPrioritySupport(g: FeatureGate): (b: bool)
    ensures g.limits in PLAN_LIMITS.Values ==> (b <==> g.limits == PROFESSIONAL_LIMITS)
  {
    g.limits.prioritySupport
  }

  /** Moving to a plan that covers the current one, with the same usage,
      never turns a permitted action into a refused one. */
  lemma UpgradeKeepsPermissions(planId: string, better: string, usage: map<string, int>)
    requires Covers(LimitsFor(better), LimitsFor(planId))
    ensures var g, h := NewFeatureGate(planId, usage), NewFeatureGate(better, usage);
            && (CanCalculateTaxes(g).allowed ==> CanCalculateTaxes(h).allowed)
            && (CanSaveCompanyProfile(g).allowed ==> CanSaveCompanyProfile(h).allowed)
            && (CanCompareCantons(g).allowed ==> CanCompareCantons(h).allowed)
            && (CanAccessAIRecommendations(g).allowed ==> CanAccessAIRecommendations(h).allowed)
            && (CanAccessComplianceMonitoring(g).allowed ==> CanAccessComplianceMonitoring(h).allowed)
            && (CanUseExpertConsultation(g).allowed ==> CanUseExpertConsultation(h).allowed)
            && (HasPrioritySupport(g) ==> HasPrioritySupport(h))
  {
    var g, h := NewFeatureGate(planId, usage), NewFeatureGate(better, usage);
    CoveringQuotasPermit(g, h);
    LimitsForIsAPlan(planId);
    CoveringFeaturesPermit(g, h);
  }

  /** The quota checks of a gate whose limits cover another's, at the same
      usage, pass whenever the other's do. */
  lemma CoveringQuotasPermit(g: FeatureGate, h: FeatureGate)
    requires g.usage == h.usage && Covers(h.limits, g.limits)
    ensures CanCalculateTaxes(g).allowed ==> CanCalculateTaxes(h).allowed
    ensures CanSaveCompanyProfile(g).allowed ==> CanSaveCompanyProfile(h).allowed
    ensures CanCompareCantons(g).allowed ==> CanCompareCantons(h).allowed
  {
  }

  /** The feature checks of a gate whose limits cover another's, at the
      same usage, pass whenever the other's do. */
  lemma CoveringFeaturesPermit(g: FeatureGate, h: FeatureGate)
    requires g.usage == h.usage && Covers(h.limits, g.limits)
    requires ExpertAllowance(g.limits) >= 0
    ensures CanAccessAIRecommendations(g).allowed ==> CanAccessAIRecommendations(h).allowed
    ensures CanAccessComplianceMonitoring(g).allowed ==> CanAccessComplianceMonitoring(h).allowed
    ensures CanUseExpertConsultation(g).allowed ==> CanUseExpertConsultation(h).allowed
    ensures HasPrioritySupport(g) ==> HasPrioritySupport(h)
  {
    assert UsageOf(g, "expertConsultations") == UsageOf(h, "expertConsultations");
  }

  /** One quota row of the overview. */
  datatype UsageItem = UsageItem(limit: int, usage: int, unlimited: bool)

  /** The result of `getLimitsOverview()`. */
  datatype LimitsOverview = LimitsOverview(
    planId: string,
    calculations: UsageItem,
    savedProfiles: UsageItem,
    cantonComparisons: UsageItem,
    expertConsultations: Option<UsageItem>,
    aiRecommendations: bool,
    complianceMonitoring: bool,
    prioritySupport: bool)

  function QuotaItem(limit: int, usage: int): UsageItem {
    UsageItem(limit, usage, limit == UNLIMITED)
  }

  /** `getLimitsOverview()`: each quota row carries the plan's quota, and is
      unlimited exactly for the -1 quota; the expert row is present only for
      a truthy allowance. */
  function GetLimitsOverview(g: FeatureGate): (o: LimitsOverview)
    ensures o.planId == g.planId
    ensures o.calculations.limit == g.limits.calculations
    ensures o.savedProfiles.limit == g.limits.savedProfiles
    ensures o.cantonComparisons.limit == g.limits.cantonComparisons
    ensures o.calculations.unlimited <==> o.calculations.limit == UNLIMITED
    ensures o.savedProfiles.unlimited <==> o.savedProfiles.limit == UNLIMITED
    ensures o.cantonComparisons.unlimited <==> o.cantonComparisons.limit == UNLIMITED
    ensures o.expertConsultations.Some? <==> ExpertAllowance(g.limits) != 0
    ensures o.expertConsultations.Some? ==> !o.expertConsultations.value.unlimited
    ensures o.expertConsultations.Some? ==>
              && o.expertConsultations.value.limit == ExpertAllowance(g.limits)
              && o.expertConsultations.value.usage == UsageOf(g, "expertConsultations")
    ensures o.aiRecommendations == g.limits.aiRecommendations
    ensures o.complianceMonitoring == g.limits.complianceMonitoring
    ensures o.prioritySupport == g.limits.prioritySupport
    ensures o.calculations.usage == UsageOf(g, "calculations")
    ensures o.savedProfiles.usage == UsageOf(g, "savedProfiles")
    ensures o.cantonComparisons.usage == UsageOf(g, "cantonComparisons")
  {
    LimitsOverview(
      g.planId,
      QuotaItem(g.limits.calculations, UsageOf(g, "calculations")),
      QuotaItem(g.limits.savedProfiles, UsageOf(g, "savedProfiles")),
      QuotaItem(g.limits.cantonComparisons, UsageOf(g, "cantonComparisons")),
      if ExpertAllowance(g.limits) != 0
      then Some(UsageItem(ExpertAllowance(g.limits), UsageOf(g, "expertConsultations"), false))
      else None,
      g.limits.aiRecommendations,
      g.limits.complianceMonitoring,
      g.limits.prioritySupport)
  }

  /** A quota row has room left. */
  predicate HasRoom(item: UsageItem) {
    item.unlimited || item.usage < item.limit
  }

  /** The overview agrees with the checks: each quota row has room exactly
      when the matching check passes, and so does the expert row when shown. */
  lemma OverviewAgreesWithChecks(g: FeatureGate)
    ensures var o := GetLimitsOverview(g);
            && (HasRoom(o.calculations) <==> CanCalculateTaxes(g).allowed)
            && (HasRoom(o.savedProfiles) <==> CanSaveCompanyProfile(g).allowed)
            && (HasRoom(o.cantonComparisons) <==> CanCompareCantons(g).allowed)
            && (o.expertConsultations.Some? ==> (HasRoom(o.expertConsultations.value) <==> CanUseExpertConsultation(g).allowed))
            && (o.expertConsultations.None? ==> !CanUseExpertConsultation(g).allowed)
            && o.aiRecommendations == CanAccessAIRecommendations(g).allowed
            && o.complianceMonitoring == CanAccessComplianceMonitoring(g).allowed
            && o.prioritySupport == HasPrioritySupport(g)
  {
    QuotaRowsAgree(g);
    FeatureRowsAgree(g);
  }

  /** The expert row and the three feature flags agree with their checks. */
  lemma FeatureRowsAgree(g: FeatureGate)
    ensures var o := GetLimitsOverview(g);
            && (o.expertConsultations.Some? ==> (HasRoom(o.expertConsultations.value) <==> CanUseExpertConsultation(g).allowed))
            && (o.expertConsultations.None? ==> !CanUseExpertConsultation(g).allowed)
            && o.aiRecommendations == CanAccessAIRecommendations(g).allowed
            && o.complianceMonitoring == CanAccessComplianceMonitoring(g).allowed
            && o.prioritySupport == HasPrioritySupport(g)
  {
  }

  /** The three quota rows have room exactly when their checks pass. */
  lemma QuotaRowsAgree(g: FeatureGate)
    ensures var o := GetLimitsOverview(g);
            && (HasRoom(o.calculations) <==> CanCalculateTaxes(g).allowed)
            && (HasRoom(o.savedProfiles) <==> CanSaveCompanyProfile(g).allowed)
            && (HasRoom(o.cantonComparisons) <==> CanCompareCantons(g).allowed)
  {
  }

  const UPGRADE_FROM_FREE := "Upgrade to Starter for unlimited calculations and AI recommendations"
  const UPGRADE_FROM_STARTER := "Upgrade to Professional for expert consultations and priority support"
  const UPGRADE_FOR_CALCULATIONS := "Upgrade for unlimited tax calculations"
  const UPGRADE_FOR_PROFILES := "Upgrade for unlimited company profiles"
  const UPGRADE_FOR_AI := "Upgrade for AI-powered tax optimization recommendations"

  /** The five upgrade suggestions: the next plan for a free or starter
      user, and one per refused feature. */
  datatype Suggestion = FromFree | FromStarter | ForCalculations | ForProfiles | ForAI

  /** The position of a suggestion in the order the source pushes them. */
  function SuggestionRank(k: Suggestion): nat {
    match k
    case FromFree => 0
    case FromStarter => 1
    case ForCalculations => 2
    case ForProfiles => 3
    case ForAI => 4
  }

  /** The text pushed for each suggestion. */
  function SuggestionText(k: Suggestion): string {
    match k
    case FromFree => UPGRADE_FROM_FREE
    case FromStarter => UPGRADE_FROM_STARTER
    case ForCalculations => UPGRADE_FOR_CALCULATIONS
    case ForProfiles => UPGRADE_FOR_PROFILES
    case ForAI => UPGRADE_FOR_AI
  }

  /** The five suggestion texts are pairwise different. */
  lemma SuggestionTextInjective(a: Suggestion, b: Suggestion)
    ensures SuggestionText(a) == SuggestionText(b) <==> a == b
  {
    assert |UPGRADE_FROM_FREE| == 68 && |UPGRADE_FROM_STARTER| == 69;
    assert |UPGRADE_FOR_CALCULATIONS| == 38 && |UPGRADE_FOR_PROFILES| == 38 && |UPGRADE_FOR_AI| == 55;
    assert UPGRADE_FOR_CALCULATIONS[22] == 't' && UPGRADE_FOR_PROFILES[22] == 'c';
  }

  /** `if (cond) suggestions.push(k)`. */
  function Push(ks: seq<Suggestion>, cond: bool, k: Suggestion): (r: seq<Suggestion>)
    ensures |r| == |ks| + (if cond then 1 else 0)
    ensures forall x :: x in r <==> x in ks || (cond && x == k)
  {
    ks + (if cond then [k] else [])
  }

  /** The suggestions pushed for a plan id and the outcomes of the three
      checks: the plan step for "free" or "starter", then calculations,
      profiles and AI for each refused check. */
  function SuggestionKinds(planId: string, calculations: bool, profiles: bool, ai: bool): (ks: seq<Suggestion>)
    ensures |ks| <= 4
    ensures FromFree in ks <==> planId == "free"
    ensures FromStarter in ks <==> planId == "starter"
    ensures ForCalculations in ks <==> !calculations
    ensures ForProfiles in ks <==> !profiles
    ensures ForAI in ks <==> !ai
  {
    var s1 := Push([], planId == "free", FromFree);
    var s2 := Push(s1, planId == "starter", FromStarter);
    var s3 := Push(s2, !calculations, ForCalculations);
    var s4 := Push(s3, !profiles, ForProfiles);
    Push(s4, !ai, ForAI)
  }

  /** Suggestions ranked below `bound`, in increasing rank. */
  ghost predicate RankedBelow(ks: seq<Suggestion>, bound: nat) {
    && (forall i :: 0 <= i < |ks| ==> SuggestionRank(ks[i]) < bound)
    && (forall i, j :: 0 <= i < j < |ks| ==> SuggestionRank(ks[i]) < SuggestionRank(ks[j]))
  }

  /** Pushing after lower-ranked suggestions keeps the ranks increasing. */
  lemma PushRanked(ks: seq<Suggestion>, cond: bool, k: Suggestion)
    requires RankedBelow(ks, SuggestionRank(k))
    ensures RankedBelow(Push(ks, cond, k), SuggestionRank(k) + 1)
  {
    var r := Push(ks, cond, k);
    assert forall i :: 0 <= i < |ks| ==> r[i] == ks[i];
  }

  /** The suggestions come in push order: plan step, calculations, profiles,
      AI. */
  lemma KindsInOrder(planId: string, calculations: bool, profiles: bool, ai: bool)
    ensures RankedBelow(SuggestionKinds(planId, calculations, profiles, ai), 5)
  {
    var s1 := Push([], planId == "free", FromFree);
    assert RankedBelow(s1, 1) by { PushRanked([], planId == "free", FromFree); }
    var s2 := Push(s1, planId == "starter", FromStarter);
    assert RankedBelow(s2, 2) by { PushRanked(s1, planId == "starter", FromStarter); }
    var s3 := Push(s2, !calculations, ForCalculations);
    assert RankedBelow(s3, 3) by { PushRanked(s2, !calculations, ForCalculations); }
    var s4 := Push(s3, !profiles, ForProfiles);
    assert RankedBelow(s4, 4) by { PushRanked(s3, !profiles, ForProfiles); }
    var s5 := Push(s4, !ai, ForAI);
    assert RankedBelow(s5, 5) by { PushRanked(s4, !ai, ForAI); }
    assert SuggestionKinds(planId, calculations, profiles, ai) == s5;
  }

  /** The texts of a list of suggestions. */
  function Texts(ks: seq<Suggestion>): (s: seq<string>)
    ensures |s| == |ks|
    ensures forall i :: 0 <= i < |ks| ==> s[i] == SuggestionText(ks[i])
  {
    seq(|ks|, i requires 0 <= i < |ks| => SuggestionText(ks[i]))
  }

  /** A suggestion's text is listed exactly when the suggestion is. */
  lemma TextListed(ks: seq<Suggestion>, k: Suggestion)
    ensures SuggestionText(k) in Texts(ks) <==> k in ks
  {
    if SuggestionText(k) in Texts(ks) {
      var i :| 0 <= i < |ks| && Texts(ks)[i] == SuggestionText(k);
      SuggestionTextInjective(ks[i], k);
    }
    if k in ks {
      var i :| 0 <= i < |ks| && ks[i] == k;
      assert Texts(ks)[i] == SuggestionText(k);
    }
  }

  /** The suggestion list for a plan id and the outcomes of the three checks. */
  function Suggestions(planId: string, calculations: bool, profiles: bool, ai: bool): (s: seq<string>)
    ensures |s| <= 4
    ensures |s| > 0 && planId == "free" ==> s[0] == UPGRADE_FROM_FREE
    ensures |s| > 0 && planId == "starter" ==> s[0] == UPGRADE_FROM_STARTER
    ensures UPGRADE_FROM_FREE in s <==> planId == "free"
    ensures UPGRADE_FROM_STARTER in s <==> planId == "starter"
    ensures UPGRADE_FOR_CALCULATIONS in s <==> !calculations
    ensures UPGRADE_FOR_PROFILES in s <==> !profiles
    ensures UPGRADE_FOR_AI in s <==> !ai
  {
    var ks := SuggestionKinds(planId, calculations, profiles, ai);
    TextListed(ks, FromFree);
    TextListed(ks, FromStarter);
    TextListed(ks, ForCalculations);
    TextListed(ks, ForProfiles);
    TextListed(ks, ForAI);
    Texts(ks)
  }

  /** Every suggestion is the text of one of the five suggestions, and they
      come in the order plan step, calculations, profiles, AI, each at most
      once. */
  lemma SuggestionsInOrder(planId: string, calculations: bool, profiles: bool, ai: bool)
    ensures var s := Suggestions(planId, calculations, profiles, ai);
            exists ks: seq<Suggestion> ::
              && |ks| == |s|
              && (forall i :: 0 <= i < |s| ==> s[i] == SuggestionText(ks[i]))
              && (forall i, j :: 0 <= i < j < |ks| ==> SuggestionRank(ks[i]) < SuggestionRank(ks[j]))
  {
    var ks := SuggestionKinds(planId, calculations, profiles, ai);
    KindsInOrder(planId, calculations, profiles, ai);
    assert Suggestions(planId, calculations, profiles, ai) == Texts(ks);
  }

  /** `getUpgradeSuggestions()`: the plan's next step first, then one line
      per refused check among calculations, profiles and AI. */
  function GetUpgradeSuggestions(g: FeatureGate): (s: seq<string>)
    ensures |s| <= 4
    ensures |s| > 0 && g.planId == "free" ==> s[0] == UPGRADE_FROM_FREE
    ensures |s| > 0 && g.planId == "starter" ==> s[0] == UPGRADE_FROM_STARTER
    ensures UPGRADE_FROM_FREE in s <==> g.planId == "free"
    ensures UPGRADE_FROM_STARTER in s <==> g.planId == "starter"
    ensures UPGRADE_FOR_CALCULATIONS in s <==> !CanCalculateTaxes(g).allowed
    ensures UPGRADE_FOR_PROFILES in s <==> !CanSaveCompanyProfile(g).allowed
    ensures UPGRADE_FOR_AI in s <==> !CanAccessAIRecommendations(g).allowed
  {
    Suggestions(g.planId, CanCalculateTaxes(g).allowed, CanSaveCompanyProfile(g).allowed,
                CanAccessAIRecommendations(g).allowed)
  }

  /** A professional subscriber is never asked to upgrade, and a free user is
      always offered both the Starter plan and AI recommendations. */
  lemma UpgradeSuggestionsByPlan(usage: map<string, int>)
    ensures GetUpgradeSuggestions(NewFeatureGate("professional", usage)) == []
    ensures var s := GetUpgradeSuggestions(NewFeatureGate("free", usage));
            |s| >= 2 && s[0] == UPGRADE_FROM_FREE && UPGRADE_FOR_AI in s
  {
  }

  /** One row of the usage log. */
  datatype UsageLog = UsageLog(id: string, userId: string, action: string, createdAt: string)

  /** The actions of the logs, in order. */
  function Actions(logs: seq<UsageLog>): (r: seq<string>)
    ensures |r| == |logs|
    ensures forall i :: 0 <= i < |logs| ==> r[i] == logs[i].action
  {
    seq(|logs|, i requires 0 <= i < |logs| => logs[i].action)
  }

  /** `calculateUsageFromLogs(logs)`: per action, how many log rows carry it. */
  function CalculateUsageFromLogs(logs: seq<UsageLog>): (usage: map<string, int>)
    ensures usage.Keys == set a | a in multiset(Actions(logs))
    ensures forall a :: a in usage ==> usage[a] == multiset(Actions(logs))[a]
  {
    if logs == [] then map[]
    else
      var init := logs[..|logs| - 1];
      var last := logs[|logs| - 1].action;
      var usage := CalculateUsageFromLogs(init);
      assert Actions(logs) == Actions(init) + [last];
      usage[last := (if last in usage then usage[last] else 0) + 1]
  }

  /** Gating on counted logs: every action's count is read back by the gate,
      and an action absent from the logs counts as zero. */
  lemma CountedUsageReadBack(planId: string, logs: seq<UsageLog>, action: string)
    ensures UsageOf(NewFeatureGate(planId, CalculateUsageFromLogs(logs)), action) == multiset(Actions(logs))[action]
  {
  }

  /** The sum of the values of a map. */
  ghost function MapSum(m: map<string, int>): int
    decreases |m.Keys|
  {
    if m == map[] then 0
    else
      var k :| k in m;
      assert m.Keys - {k} < m.Keys;
      m[k] + MapSum(m - {k})
  }

  /** The sum does not depend on which key is taken out first. */
  lemma {:induction false} MapSumRemove(m: map<string, int>, k: string)
    requires k in m
    ensures MapSum(m) == m[k] + MapSum(m - {k})
    decreases |m.Keys|
  {
    var j :| j in m && MapSum(m) == m[j] + MapSum(m - {j});
    if j != k {
      assert (m - {j}).Keys == m.Keys - {j} < m.Keys;
      assert (m - {k}).Keys == m.Keys - {k} < m.Keys;
      MapSumRemove(m - {j}, k);
      MapSumRemove(m - {k}, j);
      assert m - {j} - {k} == m - {k} - {j};
    }
  }

  /** Counting one more occurrence of a key adds one to the sum. */
  lemma MapSumIncrement(m: map<string, int>, k: string)
    ensures MapSum(m[k := (if k in m then m[k] else 0) + 1]) == MapSum(m) + 1
  {
    var m' := m[k := (if k in m then m[k] else 0) + 1];
    MapSumRemove(m', k);
    assert m' - {k} == m - {k};
    if k in m {
      MapSumRemove(m, k);
    } else {
      assert m - {k} == m;
    }
  }

  /** The counts of `calculateUsageFromLogs` add up to the number of logs. */
  lemma {:induction false} UsageCountsTotal(logs: seq<UsageLog>)
    ensures MapSum(CalculateUsageFromLogs(logs)) == |logs|
  {
    if logs != [] {
      var init := logs[..|logs| - 1];
      UsageCountsTotal(init);
      MapSumIncrement(CalculateUsageFromLogs(init), logs[|logs| - 1].action);
    }
  }

  /** A subscription row. The period end is the parsed timestamp, or `None`
      when the stored date does not parse (an Invalid Date compares false). */
  datatype Subscription = Subscription(planId: string, status: string, currentPeriodEnd: Option<int>)

  /** `isSubscriptionActive(subscription)`, with the current time passed in. */
  function IsSubscriptionActive(sub: Option<Subscription>, now: int): (b: bool)
    ensures b <==> sub.Some? && sub.value.status == "active"
                   && sub.value.currentPeriodEnd.Some? && sub.value.currentPeriodEnd.value > now
  {
    match sub
    case None => false
    case Some(s) =>
      match s.currentPeriodEnd
      case None => false
      case Some(periodEnd) => s.status == "active" && periodEnd > now
  }

  /** An active subscription stays active at every earlier moment. */
  lemma ActiveEarlier(sub: Option<Subscription>, earlier: int, now: int)
    requires earlier <= now
    ensures IsSubscriptionActive(sub, now) ==> IsSubscriptionActive(sub, earlier)
  {
  }

  /** `getUserPlanId(subscription)`: the subscription's plan while it is
      active, the free plan otherwise. */
  function GetUserPlanId(sub: Option<Subscription>, now: int): (planId: string)
    ensures IsSubscriptionActive(sub, now) ==> planId == sub.value.planId
    ensures !IsSubscriptionActive(sub, now) ==> planId == "free"
  {
    if sub.None? || !IsSubscriptionActive(sub, now) then "free" else sub.value.planId
  }

  /** Without an active subscription the gate applies the free plan's limits. */
  lemma InactiveMeansFree(sub: Option<Subscription>, now: int, usage: map<string, int>)
    requires !IsSubscriptionActive(sub, now)
    ensures NewFeatureGate(GetUserPlanId(sub, now), usage).limits == FREE_LIMITS
  {
  }
}

=== FILE: health_score.dfy ===
/** `calculateTaxHealthScore` of src/lib/swiss-tax-data.ts: a 0-100 score made
    of a rank-based base (up to 70 points) and four profile factors, a letter
    grade, and the issue and recommendation lists. */
module HealthScore {
  import opened Wrappers
  import opened Text
  import opened CantonTable
  import opened TaxEngine
  import StableSort
  import JsMath

  datatype Grade = A | B | C | D | F

  datatype TaxHealthScore = TaxHealthScore(
    score: int,
    grade: Grade,
    issues: seq<string>,
    recommendations: seq<string>,
    potentialSavings: real)

  // The longer messages are written as two literals so that the verifier
  // can see their first characters.
  const HIGH_RATE_ISSUE := "High effective tax rate " + "compared to Swiss average"
  const HIGH_RATE_ADVICE := "Consider relocating to a lower-tax canton"
  const VAT_ISSUE := "Not VAT registered despite high revenue"
  const VAT_ADVICE := "Register for VAT " + "to optimize input tax deductions"
  const SOLE_PROPRIETOR_ISSUE := "Sole proprietorship " + "may not be optimal for high revenue"
  const SOLE_PROPRIETOR_ADVICE := "Consider incorporating " + "as GmbH or AG for tax efficiency"

  /** The number of cantons in the ranking. */
  const CANTON_COUNT := 26

  /** The rank-based part of the score: `Math.round(((26 - rank) / 26) * 100 * 0.7)`. */
  function BaseScore(rank: int): (b: int)
    ensures rank == 0 ==> b == 70
    ensures 0 <= rank < CANTON_COUNT ==> 3 <= b <= 70
    ensures b == ((CANTON_COUNT - rank) * 70 + 13) / 26
  {
    JsMath.Round(((CANTON_COUNT - rank) as real / CANTON_COUNT as real) * 100.0 * 0.7)
  }

  /** A better (smaller) rank never earns fewer base points. */
  lemma BaseScoreMonotone(better: int, worse: int)
    requires better <= worse
    ensures BaseScore(better) >= BaseScore(worse)
  {
    JsMath.RoundMonotone(((CANTON_COUNT - worse) as real / CANTON_COUNT as real) * 100.0 * 0.7,
                         ((CANTON_COUNT - better) as real / CANTON_COUNT as real) * 100.0 * 0.7);
  }

  /** A revenue over 100,000 without VAT registration. */
  predicate VatGap(data: CompanyData) {
    data.revenue > 100000.0 && !data.vatRegistered
  }

  /** `profit / revenue > 0.15` under IEEE division: a zero revenue gives
      +Infinity for a positive profit and -Infinity or NaN otherwise, and
      only +Infinity passes. */
  predicate HighMargin(data: CompanyData) {
    if data.revenue == 0.0 then data.profit > 0.0 else data.profit / data.revenue > 0.15
  }

  /** An AG with a revenue over 500,000. */
  predicate BigAG(data: CompanyData) {
    data.legalForm == "AG" && data.revenue > 500000.0
  }

  /** The sum of the four factors: VAT (-10 or 5), an AG over 500,000 revenue
      (5), more than ten employees (5) and the profit margin (10 or 5). */
  function FactorPoints(data: CompanyData): (f: int)
    ensures -5 <= f <= 25
    ensures VatGap(data) ==> f <= 10
    ensures !VatGap(data) ==> f >= 10
    ensures !VatGap(data) && !BigAG(data) && data.employees <= 10 && !HighMargin(data) ==> f == 10
  {
    var vatOptimization := if VatGap(data) then -10 else 5;
    var legalStructure := if BigAG(data) then 5 else 0;
    var employeeCount := if data.employees > 10 then 5 else 0;
    var profitMargin := if HighMargin(data) then 10 else 5;
    vatOptimization + legalStructure + employeeCount + profitMargin
  }

  /** Each factor on its own, by comparing two profiles that differ in one
      field only. A VAT gap costs 15 points against a registered company
      with the same revenue. */
  lemma VatGapCosts15(data: CompanyData)
    requires data.revenue > 100000.0
    ensures FactorPoints(data.(vatRegistered := true)) - FactorPoints(data.(vatRegistered := false)) == 15
  {
  }

  /** Below 100,000 of revenue, VAT registration makes no difference. */
  lemma SmallRevenueNeedsNoVat(data: CompanyData)
    requires data.revenue <= 100000.0
    ensures FactorPoints(data.(vatRegistered := true)) == FactorPoints(data.(vatRegistered := false))
  {
  }

  /** An AG earns 5 points over any other legal form once revenue exceeds
      500,000. */
  lemma AGAdds5(data: CompanyData, otherForm: string)
    requires data.revenue > 500000.0 && otherForm != "AG"
    ensures FactorPoints(data.(legalForm := "AG")) - FactorPoints(data.(legalForm := otherForm)) == 5
  {
  }

  /** More than ten employees earn 5 points over ten or fewer. */
  lemma EmployeesAdd5(data: CompanyData, few: int, many: int)
    requires few <= 10 < many
    ensures FactorPoints(data.(employees := many)) - FactorPoints(data.(employees := few)) == 5
  {
  }

  /** At the same revenue, a margin over 15% earns 5 points more than one
      at or below it. */
  lemma HighMarginAdds5(data: CompanyData, high: real, low: real)
    requires HighMargin(data.(profit := high)) && !HighMargin(data.(profit := low))
    ensures FactorPoints(data.(profit := high)) - FactorPoints(data.(profit := low)) == 5
  {
  }

  /** A worked profile: a registered GmbH with 8 employees, 1.2 million in
      revenue and 240,000 in profit has a 20% margin and earns 5 + 0 + 0 + 10. */
  lemma FactorExample()
    ensures FactorPoints(CompanyData("Test Company", "GmbH", "ZH", 1200000.0, 240000.0, 8, "Technology", true)) == 15
  {
  }

  /** The letter grade of a score. */
  function GradeOf(score: int): (g: Grade)
    ensures g == A <==> score >= 90
    ensures g == B <==> 80 <= score < 90
    ensures g == C <==> 70 <= score < 80
    ensures g == D <==> 60 <= score < 70
    ensures g == F <==> score < 60
  {
    if score >= 90 then A
    else if score >= 80 then B
    else if score >= 70 then C
    else if score >= 60 then D
    else F
  }

  /** The position of a grade, A first. */
  function GradeIndex(g: Grade): nat {
    match g
    case A => 0
    case B => 1
    case C => 2
    case D => 3
    case F => 4
  }

  /** A higher score never earns a worse grade. */
  lemma GradeMonotone(lower: int, higher: int)
    requires lower <= higher
    ensures GradeIndex(GradeOf(higher)) <= GradeIndex(GradeOf(lower))
  {
  }

  /** The recommendation quoting the relocation savings, rounded to francs. */
  function SavingsAdvice(savings: real): string {
    "Potential annual savings of " + IntToString(JsMath.Round(savings)) + " CHF by relocating"
  }

  /** A sole proprietorship with revenue over 500,000. */
  predicate SoleProprietorGap(data: CompanyData) {
    data.legalForm == "Einzelfirma" && data.revenue > 500000.0
  }

  /** The position of an issue text in the order the rules are checked, or
      -1 for any other text. */
  function IssueRank(t: string): int {
    if t == HIGH_RATE_ISSUE then 0
    else if t == VAT_ISSUE then 1
    else if t == SOLE_PROPRIETOR_ISSUE then 2
    else -1
  }

  /** The issue list: one entry per problem found, in a fixed order. */
  function Issues(data: CompanyData, effectiveRate: real): (issues: seq<string>)
    ensures |issues| <= 3
    ensures forall i :: 0 <= i < |issues| ==> IssueRank(issues[i]) >= 0
    ensures forall i, j :: 0 <= i < j < |issues| ==> IssueRank(issues[i]) < IssueRank(issues[j])
    ensures HIGH_RATE_ISSUE in issues <==> effectiveRate > 20.0
    ensures VAT_ISSUE in issues <==> VatGap(data)
    ensures SOLE_PROPRIETOR_ISSUE in issues <==> SoleProprietorGap(data)
  {
    assert HIGH_RATE_ISSUE[0] == 'H' && VAT_ISSUE[0] == 'N' && SOLE_PROPRIETOR_ISSUE[0] == 'S';
    (if effectiveRate > 20.0 then [HIGH_RATE_ISSUE] else [])
    + (if VatGap(data) then [VAT_ISSUE] else [])
    + (if SoleProprietorGap(data) then [SOLE_PROPRIETOR_ISSUE] else [])
  }

  /** The savings advice differs from the three fixed recommendations. */
  lemma SavingsAdviceIsNew(savings: real)
    ensures SavingsAdvice(savings) != HIGH_RATE_ADVICE
    ensures SavingsAdvice(savings) != VAT_ADVICE
    ensures SavingsAdvice(savings) != SOLE_PROPRIETOR_ADVICE
  {
    assert SavingsAdvice(savings)[0] == 'P';
    assert HIGH_RATE_ADVICE[0] == 'C' && VAT_ADVICE[0] == 'R' && SOLE_PROPRIETOR_ADVICE[0] == 'C';
  }

  /** The position of a rule's recommendation in the order the rules are
      checked, or -1 for any other text. */
  function AdviceRank(t: string): int {
    if t == HIGH_RATE_ADVICE then 0
    else if t == VAT_ADVICE then 1
    else if t == SOLE_PROPRIETOR_ADVICE then 2
    else -1
  }

  /** The recommendations of the three rules: one per issue found, in rule
      order. */
  function RuleAdvice(data: CompanyData, effectiveRate: real): (recs: seq<string>)
    ensures |recs| <= 3
    ensures HIGH_RATE_ADVICE in recs <==> effectiveRate > 20.0
    ensures VAT_ADVICE in recs <==> VatGap(data)
    ensures SOLE_PROPRIETOR_ADVICE in recs <==> SoleProprietorGap(data)
    ensures forall i :: 0 <= i < |recs| ==> AdviceRank(recs[i]) >= 0
    ensures forall i, j :: 0 <= i < j < |recs| ==> AdviceRank(recs[i]) < AdviceRank(recs[j])
  {
    assert HIGH_RATE_ADVICE[0] == 'C' && VAT_ADVICE[0] == 'R' && SOLE_PROPRIETOR_ADVICE[0] == 'C';
    assert HIGH_RATE_ADVICE[9] == 'r' && SOLE_PROPRIETOR_ADVICE[9] == 'i';
    (if effectiveRate > 20.0 then [HIGH_RATE_ADVICE] else [])
    + (if VatGap(data) then [VAT_ADVICE] else [])
    + (if SoleProprietorGap(data) then [SOLE_PROPRIETOR_ADVICE] else [])
  }

  /** The recommendation list: the rules' recommendations, then the savings
      advice when relocating would save more than 5% of profit. Every entry
      is a rule's recommendation in rule order, except a last savings
      advice. */
  function Recommendations(data: CompanyData, effectiveRate: real, savings: real): (recs: seq<string>)
    ensures |recs| <= 4
    ensures HIGH_RATE_ADVICE in recs <==> effectiveRate > 20.0
    ensures VAT_ADVICE in recs <==> VatGap(data)
    ensures SOLE_PROPRIETOR_ADVICE in recs <==> SoleProprietorGap(data)
    ensures SavingsAdvice(savings) in recs <==> savings > data.profit * 0.05
    ensures InRuleOrder(recs, SavingsAdvice(savings))
  {
    var rules := RuleAdvice(data, effectiveRate);
    var extra := if savings > data.profit * 0.05 then [SavingsAdvice(savings)] else [];
    SavingsAdviceIsNew(savings);
    AppendUnranked(rules, extra, SavingsAdvice(savings));
    rules + extra
  }

  /** Every entry is a rule's recommendation, except that `last` may close
      the list, and the rule recommendations come in rule order. */
  ghost predicate InRuleOrder(recs: seq<string>, last: string) {
    && (forall i :: 0 <= i < |recs| ==> AdviceRank(recs[i]) >= 0 || (i == |recs| - 1 && recs[i] == last))
    && (forall i, j :: 0 <= i < j < |recs| && AdviceRank(recs[j]) >= 0 ==>
          0 <= AdviceRank(recs[i]) < AdviceRank(recs[j]))
  }

  /** Appending at most one text that is no rule's recommendation to a list
      of rule recommendations in rule order keeps that order, and adds that
      text and nothing else. */
  lemma AppendUnranked(rules: seq<string>, extra: seq<string>, x: string)
    requires forall i :: 0 <= i < |rules| ==> AdviceRank(rules[i]) >= 0
    requires forall i, j :: 0 <= i < j < |rules| ==> AdviceRank(rules[i]) < AdviceRank(rules[j])
    requires x != HIGH_RATE_ADVICE && x != VAT_ADVICE && x != SOLE_PROPRIETOR_ADVICE
    requires extra == [] || extra == [x]
    ensures var recs := rules + extra;
            && (HIGH_RATE_ADVICE in recs <==> HIGH_RATE_ADVICE in rules)
            && (VAT_ADVICE in recs <==> VAT_ADVICE in rules)
            && (SOLE_PROPRIETOR_ADVICE in recs <==> SOLE_PROPRIETOR_ADVICE in rules)
            && (x in recs <==> extra == [x])
            && InRuleOrder(recs, x)
  {
    var recs := rules + extra;
    assert AdviceRank(x) == -1;
    assert forall i :: 0 <= i < |rules| ==> recs[i] == rules[i];
    assert x !in rules;
  }

  /** The score of a company whose canton ranks `rank`-th: the base points
      plus the factors, clamped to 0-100. */
  function ScoreForRank(data: CompanyData, rank: int): (score: int)
    ensures 0 <= score <= 100
    ensures 0 <= rank < CANTON_COUNT ==> score <= 95
    ensures 0 <= rank < CANTON_COUNT && !VatGap(data) ==> score >= 13
    ensures 0 <= BaseScore(rank) + FactorPoints(data) <= 100 ==> score == BaseScore(rank) + FactorPoints(data)
    ensures BaseScore(rank) + FactorPoints(data) < 0 ==> score == 0
    ensures BaseScore(rank) + FactorPoints(data) > 100 ==> score == 100
  {
    JsMath.Clamp(0, 100, BaseScore(rank) + FactorPoints(data))
  }

  /** The source's rank, found by sorting the breakdowns and searching the
      canton code, is the stable rank of the canton's table entry. */
  lemma SortedRank(data: CompanyData, i: nat)
    requires i < 26
    ensures StableSort.IndexOfId(StableSort.Sort(AllCalculations(data), TotalOf), CantonOf, AllCalculations(data)[i].canton)
            == StableSort.StableRank(AllCalculations(data), TotalOf, i)
  {
    AllCalculationsDistinct(data);
    StableSort.SortPosition(AllCalculations(data), TotalOf, CantonOf, i);
  }

  /** The rank the source computes for the company's own canton. */
  lemma RankOfCanton(data: CompanyData)
    requires TableIndex(data.canton).Some?
    ensures StableSort.IndexOfId(StableSort.Sort(AllCalculations(data), TotalOf), CantonOf, data.canton)
            == StableSort.StableRank(AllCalculations(data), TotalOf, TableIndex(data.canton).value)
  {
    var i := TableIndex(data.canton).value;
    assert AllCalculations(data)[i].canton == data.canton;
    SortedRank(data, i);
  }

  /** `calculateTaxHealthScore(companyData)`. Throws, like the savings
      computation, for a canton outside the table. */
  function CalculateTaxHealthScore(data: CompanyData): (r: Result<TaxHealthScore>)
    ensures r.Err? <==> GetCantonTaxRates(data.canton).None?
    ensures r.Err? ==> r.message == "Canton " + data.canton + " not found"
    ensures r.Ok? ==>
              && r.value.score ==
                   ScoreForRank(data, StableSort.StableRank(AllCalculations(data), TotalOf, TableIndex(data.canton).value))
              && r.value.grade == GradeOf(r.value.score)
              && r.value.issues == Issues(data, AllCalculations(data)[TableIndex(data.canton).value].effectiveRate)
              && r.value.potentialSavings == CalculatePotentialSavings(data, data.canton).value.savings
              && r.value.potentialSavings >= 0.0
              && r.value.recommendations ==
                   Recommendations(data, AllCalculations(data)[TableIndex(data.canton).value].effectiveRate,
                                   r.value.potentialSavings)
  {
    var all := AllCalculations(data);
    match TableIndex(data.canton)
    case None => Err("Canton " + data.canton + " not found")
    case Some(i) =>
      var current := all[i];
      var sorted := StableSort.Sort(all, TotalOf);
      var rank := StableSort.IndexOfId(sorted, CantonOf, data.canton);
      RankOfCanton(data);
      var score := ScoreForRank(data, rank);
      var savings := CalculatePotentialSavings(data, data.canton).value.savings;
      Ok(TaxHealthScore(score, GradeOf(score), Issues(data, current.effectiveRate),
                        Recommendations(data, current.effectiveRate, savings),
                        if savings > 0.0 then savings else 0.0))
  }

  /** The company in a canton that no other canton undercuts, and that comes
      first in the table among the cantons with its total, gets the full 70
      base points. */
  lemma CheapestCantonGetsFullBase(data: CompanyData)
    requires GetCantonTaxRates(data.canton).Some?
    ensures var all := AllCalculations(data);
            var i := TableIndex(data.canton).value;
            StableSort.StableRank(all, TotalOf, i) == 0 <==>
              (forall k :: 0 <= k < 26 ==> all[i].totalTaxBurden <= all[k].totalTaxBurden)
              && (forall k :: 0 <= k < i ==> all[k].totalTaxBurden != all[i].totalTaxBurden)
    ensures var all := AllCalculations(data);
            var i := TableIndex(data.canton).value;
            StableSort.StableRank(all, TotalOf, i) == 0 ==> BaseScore(StableSort.StableRank(all, TotalOf, i)) == 70
  {
    RankZeroByTotals(AllCalculations(data), TableIndex(data.canton).value);
  }

  /** `RankZeroIff` for breakdowns ranked by their total. */
  lemma RankZeroByTotals(all: seq<TaxCalculation>, i: nat)
    requires i < |all|
    ensures StableSort.StableRank(all, TotalOf, i) == 0 <==>
              (forall k :: 0 <= k < |all| ==> all[i].totalTaxBurden <= all[k].totalTaxBurden)
              && (forall k :: 0 <= k < i ==> all[k].totalTaxBurden != all[i].totalTaxBurden)
  {
    StableSort.RankZeroIff(all, TotalOf, i);
  }

  /** Registering for VAT never lowers the score: taxes do not depend on it
      and the VAT factor can only rise. */
  lemma VatRegistrationNeverHurts(data: CompanyData)
    requires GetCantonTaxRates(data.canton).Some?
    ensures CalculateTaxHealthScore(data).Ok?
    ensures CalculateTaxHealthScore(data.(vatRegistered := true)).Ok?
    ensures CalculateTaxHealthScore(data.(vatRegistered := true)).value.score >= CalculateTaxHealthScore(data).value.score
  {
    var reg := data.(vatRegistered := true);
    var rank := StableSort.StableRank(AllCalculations(data), TotalOf, TableIndex(data.canton).value);
    ScoreOfCanton(data);
    ScoreOfCanton(reg);
    assert StableSort.StableRank(AllCalculations(reg), TotalOf, TableIndex(reg.canton).value) == rank by {
      VatDoesNotChangeTaxes(data);
    }
    VatFactorNeverHurts(data, rank);
  }

  /** For a fixed rank, registering for VAT never lowers the score. */
  lemma VatFactorNeverHurts(data: CompanyData, rank: int)
    ensures ScoreForRank(data.(vatRegistered := true), rank) >= ScoreForRank(data, rank)
  {
    var reg := data.(vatRegistered := true);
    JsMath.ClampMonotone(0, 100, BaseScore(rank) + FactorPoints(data), BaseScore(rank) + FactorPoints(reg));
  }

  lemma ScoreOfCanton(data: CompanyData)
    requires GetCantonTaxRates(data.canton).Some?
    ensures CalculateTaxHealthScore(data).Ok?
    ensures CalculateTaxHealthScore(data).value.score ==
              ScoreForRank(data, StableSort.StableRank(AllCalculations(data), TotalOf, TableIndex(data.canton).value))
  {
  }

  /** A breakdown depends on the profile's profit and revenue only. */
  lemma SameFiguresSameTaxes(d1: CompanyData, d2: CompanyData, c: CantonTaxRates)
    requires d1.profit == d2.profit && d1.revenue == d2.revenue
    ensures CalculateFor(d1, c) == CalculateFor(d2, c)
  {
  }

  /** The breakdowns do not depend on VAT registration. */
  lemma VatDoesNotChangeTaxes(data: CompanyData)
    ensures AllCalculations(data.(vatRegistered := true)) == AllCalculations(data)
  {
    var reg := data.(vatRegistered := true);
    var all, allReg := AllCalculations(data), AllCalculations(reg);
    forall k | 0 <= k < 26
      ensures allReg[k] == all[k]
    {
      SameFiguresSameTaxes(reg, data, CANTON_TAX_RATES[k]);
    }
  }
}

=== FILE: js_math.dfy ===
/** The `Math` functions the modelled code calls, on exact reals. */
module JsMath {

  /** `Math.round(x)`: the nearest integer, halves rounded up. */
  function Round(x: real): (r: int)
    ensures r as real - 0.5 <= x < r as real + 0.5
  {
    (x + 0.5).Floor
  }

  /** Rounding never reverses the order of two values. */
  lemma RoundMonotone(x: real, y: real)
    requires x <= y
    ensures Round(x) <= Round(y)
  {
  }

  /** Rounding an integer gives the integer back. */
  lemma RoundInt(n: int)
    ensures Round(n as real) == n
  {
  }

  /** `Math.max(lo, Math.min(hi, x))`: `x` clamped into `[lo, hi]`. */
  function Clamp(lo: int, hi: int, x: int): (r: int)
    requires lo <= hi
    ensures lo <= r <= hi
    ensures lo <= x <= hi ==> r == x
    ensures x < lo ==> r == lo
    ensures hi < x ==> r == hi
  {
    if x < lo then lo else if hi < x then hi else x
  }

  /** Clamping keeps the order of its arguments. */
  lemma ClampMonotone(lo: int, hi: int, x: int, y: int)
    requires lo <= hi && x <= y
    ensures Clamp(lo, hi, x) <= Clamp(lo, hi, y)
  {
  }
}

=== FILE: plans.dfy ===
/** The subscription plans of src/types/database.ts: per-plan quotas, where
    `-1` means unlimited, an optional expert-consultation allowance, and
    three feature flags. */
module Plans {
  import opened Wrappers

  datatype PlanLimits = PlanLimits(
    calculations: int,
    savedProfiles: int,
    cantonComparisons: int,
    expertConsultations: Option<int>,
    aiRecommendations: bool,
    complianceMonitoring: bool,
    prioritySupport: bool)

  /** The quota value that stands for "no limit". */
  const UNLIMITED: int := -1

  const FREE_LIMITS: PlanLimits := PlanLimits(3, 1, 1, None, false, false, false)
  const STARTER_LIMITS: PlanLimits := PlanLimits(UNLIMITED, 5, UNLIMITED, None, true, true, false)
  const PROFESSIONAL_LIMITS: PlanLimits := PlanLimits(UNLIMITED, UNLIMITED, UNLIMITED, Some(2), true, true, true)

  /** `PLAN_LIMITS`, keyed by plan id. */
  const PLAN_LIMITS: map<string, PlanLimits> :=
    map["free" := FREE_LIMITS, "starter" := STARTER_LIMITS, "professional" := PROFESSIONAL_LIMITS]

  /** Quota `a` allows at least as much as quota `b`. */
  predicate QuotaCovers(a: int, b: int) {
    a == UNLIMITED || (b != UNLIMITED && a >= b)
  }

  /** The expert allowance, where an absent entry grants nothing. */
  function ExpertAllowance(l: PlanLimits): int {
    l.expertConsultations.GetOr(0)
  }

  /** Plan `upper` offers everything plan `lower` offers. */
  predicate Covers(upper: PlanLimits, lower: PlanLimits) {
    && QuotaCovers(upper.calculations, lower.calculations)
    && QuotaCovers(upper.savedProfiles, lower.savedProfiles)
    && QuotaCovers(upper.cantonComparisons, lower.cantonComparisons)
    && ExpertAllowance(upper) >= ExpertAllowance(lower)
    && (lower.aiRecommendations ==> upper.aiRecommendations)
    && (lower.complianceMonitoring ==> upper.complianceMonitoring)
    && (lower.prioritySupport ==> upper.prioritySupport)
  }

  /** Offering at least as much is a preorder. */
  lemma CoversTransitive(a: PlanLimits, b: PlanLimits, c: PlanLimits)
    requires Covers(a, b) && Covers(b, c)
    ensures Covers(a, c)
  {
  }

  /** The plans form a chain: each paid plan offers everything of the plan
      below it, and strictly more. */
  lemma PlansAreOrdered()
    ensures PLAN_LIMITS.Keys == {"free", "starter", "professional"}
    ensures Covers(PLAN_LIMITS["starter"], PLAN_LIMITS["free"])
    ensures Covers(PLAN_LIMITS["professional"], PLAN_LIMITS["starter"])
    ensures Covers(PLAN_LIMITS["professional"], PLAN_LIMITS["free"])
    ensures !Covers(PLAN_LIMITS["free"], PLAN_LIMITS["starter"])
    ensures !Covers(PLAN_LIMITS["starter"], PLAN_LIMITS["professional"])
  {
  }

  /** `PLAN_LIMITS[planId] || PLAN_LIMITS.free`: an unknown plan id falls
      back to the free plan. */
  function LimitsFor(planId: string): (l: PlanLimits)
    ensures l in PLAN_LIMITS.Values
    ensures planId == "free" ==> l == FREE_LIMITS
    ensures planId == "starter" ==> l == STARTER_LIMITS
    ensures planId == "professional" ==> l == PROFESSIONAL_LIMITS
    ensures planId !in PLAN_LIMITS ==> l == FREE_LIMITS
    ensures Covers(l, FREE_LIMITS)
  {
    if planId in PLAN_LIMITS then PLAN_LIMITS[planId]
    else
      assert PLAN_LIMITS["free"] == FREE_LIMITS;
      FREE_LIMITS
  }

  /** Every plan id resolves to the limits of one of the three plans, none
      of which grants a negative expert allowance. */
  lemma LimitsForIsAPlan(planId: string)
    ensures var l := LimitsFor(planId);
            l == FREE_LIMITS || l == STARTER_LIMITS || l == PROFESSIONAL_LIMITS
    ensures ExpertAllowance(LimitsFor(planId)) >= 0
  {
    var l := LimitsFor(planId);
    assert l in PLAN_LIMITS.Values;
    var k :| k in PLAN_LIMITS && PLAN_LIMITS[k] == l;
  }

  /** Only the professional plan grants expert consultations. */
  lemma ExpertOnlyForProfessional(planId: string)
    ensures ExpertAllowance(LimitsFor(planId)) != 0 <==> planId == "professional"
  {
    if planId in PLAN_LIMITS {
      assert planId == "free" || planId == "starter" || planId == "professional";
    }
  }
}

=== FILE: pricing_table.dfy ===
/** The pricing-card logic of src/components/billing/PricingTable.tsx: the
    plan list, the plan id derived from a plan's name, which card is the
    current plan, and the monthly/yearly price arithmetic. */
module PricingTable {
  import opened Wrappers
  import opened Text
  import JsMath
  import StripeClient

  /** A card of the table: the fields the component reads. */
  datatype PricingPlan = PricingPlan(name: string, price: int, description: string,
                                     features: seq<string>, limitations: seq<string>,
                                     cta: string, popular: bool)

  const FREE_PLAN: PricingPlan := PricingPlan(
    "Free", 0, "Perfect for getting started with Swiss tax calculations",
    ["3 tax calculations per month", "1 canton comparison", "Basic tax health score",
     "Email capture for results", "Standard support"],
    ["Limited calculations", "No AI recommendations", "No compliance monitoring"],
    "Get Started Free", false)

  const TRIAL_CTA := "Start 14-Day Free Trial"

  /** A paid product spread into a card with its own description. */
  function FromProduct(p: StripeClient.Product, description: string, popular: bool): (plan: PricingPlan)
    ensures plan.name == p.name && plan.price == p.price && plan.features == p.features
    ensures plan.limitations == [] && plan.cta == TRIAL_CTA
  {
    PricingPlan(p.name, p.price, description, p.features, [], TRIAL_CTA, popular)
  }

  /** `PRICING_PLANS`: free, starter, professional, in that order. The price
      ids do not reach the cards, so the default environment is used. */
  const PRICING_PLANS: seq<PricingPlan> := [
    FREE_PLAN,
    FromProduct(StripeClient.Starter(None),
                "Ideal for SMEs needing regular tax monitoring and optimization", true),
    FromProduct(StripeClient.Professional(None),
                "Complete solution for businesses requiring expert guidance", false)]

  /** `getPlanId(plan)`: the three known names map to their ids; any other
      name is lower-cased with its first " plan" removed. */
  function GetPlanId(name: string): (id: string)
    ensures name == "Free" ==> id == "free"
    ensures name == "Starter Plan" ==> id == "starter"
    ensures name == "Professional Plan" ==> id == "professional"
    ensures name !in {"Free", "Starter Plan", "Professional Plan"} && !Contains(Lower(name), " plan")
            ==> id == Lower(name)
  {
    if name == "Free" then "free"
    else if name == "Starter Plan" then "starter"
    else if name == "Professional Plan" then "professional"
    else ReplaceFirst(Lower(name), " plan", "")
  }

  /** The general rule turns any "<Word> Plan" into the lower-cased word, so
      the paid names' special cases give what the rule would give anyway. */
  lemma PlanSuffixDropped(word: string)
    requires ' ' !in word
    ensures ReplaceFirst(Lower(word + " Plan"), " plan", "") == Lower(word)
  {
    LowerAppend(word, " Plan");
    assert Lower(" Plan") == " plan";
    DropSuffix(Lower(word), " plan");
  }

  lemma {:induction false} LowerAppend(a: string, b: string)
    ensures Lower(a + b) == Lower(a) + Lower(b)
  {
  }

  lemma {:induction false} DropSuffix(w: string, pat: string)
    requires pat != [] && pat[0] !in w
    ensures ReplaceFirst(w + pat, pat, "") == w
    decreases |w|
  {
    var s := w + pat;
    if w == [] {
      assert s == pat;
    } else {
      assert s[0] == w[0] != pat[0];
      assert !IsPrefix(pat, s);
      assert s[1..] == w[1..] + pat;
      DropSuffix(w[1..], pat);
    }
  }

  /** The cards of the table carry the plan ids the feature gate knows, in
      the order free, starter, professional, and the paid cards quote the
      product prices. */
  lemma PricingPlansShape()
    ensures |PRICING_PLANS| == 3
    ensures GetPlanId(PRICING_PLANS[0].name) == "free"
    ensures GetPlanId(PRICING_PLANS[1].name) == "starter"
    ensures GetPlanId(PRICING_PLANS[2].name) == "professional"
    ensures PRICING_PLANS[0].price == 0
    ensures PRICING_PLANS[1].price == StripeClient.Starter(None).price == 197
    ensures PRICING_PLANS[2].price == StripeClient.Professional(None).price == 497
    ensures PRICING_PLANS[1].popular && !PRICING_PLANS[0].popular && !PRICING_PLANS[2].popular
  {
  }

  /** `isCurrentPlan(plan)` against the `currentPlan` property. */
  predicate IsCurrentPlan(currentPlan: string, plan: PricingPlan) {
    currentPlan == GetPlanId(plan.name)
  }

  /** At most one card of the table is the current plan, and for each of the
      three plan ids exactly the card of that plan is. */
  lemma CurrentPlanUnique(currentPlan: string, i: int, j: int)
    requires 0 <= i < |PRICING_PLANS| && 0 <= j < |PRICING_PLANS|
    ensures IsCurrentPlan(currentPlan, PRICING_PLANS[i]) && IsCurrentPlan(currentPlan, PRICING_PLANS[j]) ==> i == j
    ensures currentPlan == "free" ==> (IsCurrentPlan(currentPlan, PRICING_PLANS[i]) <==> i == 0)
    ensures currentPlan == "starter" ==> (IsCurrentPlan(currentPlan, PRICING_PLANS[i]) <==> i == 1)
    ensures currentPlan == "professional" ==> (IsCurrentPlan(currentPlan, PRICING_PLANS[i]) <==> i == 2)
  {
    PricingPlansShape();
  }

  /** `plansToShow`: every plan, or all but the first when the free plan is
      hidden. */
  function PlansToShow(showFreePlan: bool, plans: seq<PricingPlan>): (shown: seq<PricingPlan>)
    ensures showFreePlan ==> shown == plans
    ensures !showFreePlan ==> |shown| == if |plans| == 0 then 0 else |plans| - 1
    ensures !showFreePlan ==> forall k :: 0 <= k < |shown| ==> shown[k] == plans[k + 1]
  {
    if showFreePlan || plans == [] then plans else plans[1..]
  }

  /** Hiding the free plan leaves exactly the two paid cards, in order, and
      none of them is the free plan. */
  lemma HiddenFreePlan()
    ensures PlansToShow(false, PRICING_PLANS) == [PRICING_PLANS[1], PRICING_PLANS[2]]
    ensures forall k :: 0 <= k < |PlansToShow(false, PRICING_PLANS)| ==>
              GetPlanId(PlansToShow(false, PRICING_PLANS)[k].name) != "free"
  {
    PricingPlansShape();
  }

  /** The billing toggle. */
  datatype BillingInterval = Month | Year

  /** `Math.round(monthlyPrice * 12 * 0.8)`: a year at a 20% discount. */
  function YearlyPrice(monthly: int): (yearly: int)
    ensures (yearly as real - 0.5) <= (monthly * 12) as real * 0.8 < yearly as real + 0.5
  {
    JsMath.Round((monthly * 12) as real * 0.8)
  }

  /** The price shown per month: the yearly price spread over twelve months
      under yearly billing, the monthly price otherwise. */
  function DisplayPrice(monthly: int, interval: BillingInterval): (shown: real)
    ensures interval == Month ==> shown == monthly as real
    ensures interval == Year ==> shown * 12.0 == YearlyPrice(monthly) as real
  {
    if interval == Year then YearlyPrice(monthly) as real / 12.0 else monthly as real
  }

  /** `monthlyPrice * 12 - yearlyPrice`: what a year of yearly billing saves. */
  function YearlySaving(monthly: int): (saving: int)
    ensures monthly >= 0 ==> saving >= 0
  {
    monthly * 12 - YearlyPrice(monthly)
  }

  /** The saving is a fifth of a year of monthly payments, up to rounding,
      and yearly billing never shows a higher monthly figure. */
  lemma YearlySavingIsAFifth(monthly: int)
    requires monthly >= 0
    ensures -0.5 <= YearlySaving(monthly) as real - (monthly * 12) as real * 0.2 <= 0.5
    ensures DisplayPrice(monthly, Year) <= DisplayPrice(monthly, Month)
  {
  }

  /** The figures the paid cards show under yearly billing. */
  lemma PaidPlanYearlyFigures()
    ensures YearlyPrice(197) == 1891 && YearlySaving(197) == 473
    ensures YearlyPrice(497) == 4771 && YearlySaving(497) == 1193
    ensures YearlyPrice(0) == 0
  {
  }

  /** What one card shows and does, for the given current plan and interval.
      A free card shows "Free" in place of a price. */
  datatype Card = Card(planId: string, isCurrent: bool, price: Option<real>,
                       yearlySaving: Option<int>, buttonLabel: string, disabled: bool)

  function RenderCard(plan: PricingPlan, currentPlan: string, interval: BillingInterval): (card: Card)
    ensures card.planId == GetPlanId(plan.name)
    ensures card.disabled <==> card.isCurrent
    ensures card.isCurrent <==> IsCurrentPlan(currentPlan, plan)
    ensures card.buttonLabel == if card.isCurrent then "Current Plan" else plan.cta
    ensures card.price.None? <==> plan.price == 0
    ensures card.yearlySaving.Some? <==> plan.price != 0 && interval == Year
    ensures card.price.Some? ==> card.price.value == DisplayPrice(plan.price, interval)
    ensures card.price.Some? && interval == Month ==> card.price.value == plan.price as real
    ensures card.yearlySaving.Some? ==>
              card.yearlySaving.value == YearlySaving(plan.price)
              && card.yearlySaving.value + YearlyPrice(plan.price) == plan.price * 12
  {
    var current := IsCurrentPlan(currentPlan, plan);
    Card(GetPlanId(plan.name), current,
         if plan.price == 0 then None else Some(DisplayPrice(plan.price, interval)),
         if plan.price != 0 && interval == Year then Some(YearlySaving(plan.price)) else None,
         if current then "Current Plan" else plan.cta,
         current)
  }

  /** The cards of the table. */
  function RenderTable(currentPlan: string, showFreePlan: bool, interval: BillingInterval): (cards: seq<Card>)
    ensures |cards| == |PlansToShow(showFreePlan, PRICING_PLANS)|
    ensures forall k :: 0 <= k < |cards| ==>
              cards[k] == RenderCard(PlansToShow(showFreePlan, PRICING_PLANS)[k], currentPlan, interval)
  {
    var plans := PlansToShow(showFreePlan, PRICING_PLANS);
    seq(|plans|, k requires 0 <= k < |plans| => RenderCard(plans[k], currentPlan, interval))
  }

  /** The component's defaults for the properties a caller leaves out. */
  const DEFAULT_CURRENT_PLAN := "free"
  const DEFAULT_SHOW_FREE_PLAN := true

  /** `<PricingTable currentPlan? showFreePlan? />`: a property left out
      takes its default, so a bare table shows all three cards with the free
      card as the current, disabled one. */
  function RenderTableWithDefaults(currentPlan: Option<string>, showFreePlan: Option<bool>,
                                   interval: BillingInterval): (cards: seq<Card>)
    ensures showFreePlan.None? ==> |cards| == 3
    ensures currentPlan.None? && showFreePlan.None? ==>
              && cards[0].planId == "free" && cards[0].disabled
              && !cards[1].disabled && !cards[2].disabled
    ensures currentPlan.Some? && showFreePlan.Some? ==>
              cards == RenderTable(currentPlan.value, showFreePlan.value, interval)
  {
    PricingPlansShape();
    RenderTable(currentPlan.GetOr(DEFAULT_CURRENT_PLAN), showFreePlan.GetOr(DEFAULT_SHOW_FREE_PLAN), interval)
  }

  /** For a subscriber of a paid plan exactly one button of the table is
      disabled, whether or not the free plan is shown; a free user with the
      free plan hidden sees no disabled button. */
  lemma OneDisabledButton(currentPlan: string, showFreePlan: bool, interval: BillingInterval, k: int)
    requires 0 <= k < |RenderTable(currentPlan, showFreePlan, interval)|
    ensures var cards := RenderTable(currentPlan, showFreePlan, interval);
            && (currentPlan == "starter" ==> (cards[k].disabled <==> cards[k].planId == "starter"))
            && (currentPlan == "professional" ==> (cards[k].disabled <==> cards[k].planId == "professional"))
            && (currentPlan == "free" && !showFreePlan ==> !cards[k].disabled)
  {
    PricingPlansShape();
  }
}

=== FILE: profile_form.dfy ===
/** The four-step company profile form of
    src/components/calculator/CompanyProfileForm.tsx as a state machine: the
    current step, the error messages per field and the partial profile. A
    field missing from the profile map is `undefined` in the source. */
module ProfileForm {
  import opened Wrappers
  import opened Text

  datatype Field = Name | LegalForm | Canton | Revenue | Profit | Employees | Industry | VatRegistered

  /** A field value: text, a number or a flag. */
  datatype Value = Str(s: string) | Num(n: real) | Flag(b: bool)

  datatype FormState = FormState(step: int, errors: map<Field, string>, data: map<Field, Value>)

  /** `FORM_STEPS.length`. */
  const STEP_COUNT := 4

  const NAME_REQUIRED := "Company name is required"
  const LEGAL_FORM_REQUIRED := "Legal form is required"
  const INDUSTRY_REQUIRED := "Industry is required"
  const REVENUE_POSITIVE := "Revenue must be greater than 0"
  const PROFIT_NEGATIVE := "Profit cannot be negative"
  const PROFIT_EXCEEDS := "Profit cannot exceed revenue"
  const CANTON_REQUIRED := "Canton is required"
  const EMPLOYEES_REQUIRED := "Must have at least 1 employee"

  /** The defaults the form starts from before the initial data is spread over them. */
  const DEFAULTS: map<Field, Value> := map[
    Name := Str(""), LegalForm := Str("GmbH"), Canton := Str(""), Revenue := Num(0.0),
    Profit := Num(0.0), Employees := Num(1.0), Industry := Str(""), VatRegistered := Flag(false)]

  /** The text of a field, when it holds text. */
  function TextOf(data: map<Field, Value>, f: Field): Option<string> {
    if f in data && data[f].Str? then Some(data[f].s) else None
  }

  /** The number in a field, when it holds one. */
  function NumberOf(data: map<Field, Value>, f: Field): Option<real> {
    if f in data && data[f].Num? then Some(data[f].n) else None
  }

  /** A text field that is absent or empty (falsy). */
  predicate MissingText(data: map<Field, Value>, f: Field) {
    TextOf(data, f).None? || TextOf(data, f).value == ""
  }

  /** `!x || x <= bound` and `!x || x < bound` on a numeric field: absent, zero
      or not above the bound. */
  predicate NumberAtMost(data: map<Field, Value>, f: Field, bound: real) {
    NumberOf(data, f).None? || NumberOf(data, f).value == 0.0 || NumberOf(data, f).value <= bound
  }

  /** `formData.profit && formData.revenue && formData.profit > formData.revenue`. */
  predicate ProfitExceedsRevenue(data: map<Field, Value>) {
    && NumberOf(data, Profit).Some? && NumberOf(data, Profit).value != 0.0
    && NumberOf(data, Revenue).Some? && NumberOf(data, Revenue).value != 0.0
    && NumberOf(data, Profit).value > NumberOf(data, Revenue).value
  }

  /** The error for one field when `failed`, nothing otherwise. */
  function ErrorIf(failed: bool, f: Field, message: string): map<Field, string> {
    if failed then map[f := message] else map[]
  }

  /** `validateStep(step)`: the errors of the given step. Step 4, and any
      other step number, has no rules. */
  function ValidateStep(data: map<Field, Value>, step: int): (errors: map<Field, string>)
    ensures step == 1 ==> errors.Keys <= {Name, LegalForm, Industry}
    ensures step == 2 ==> errors.Keys <= {Revenue, Profit}
    ensures step == 3 ==> errors.Keys <= {Canton, Employees}
    ensures step !in {1, 2, 3} ==> errors == map[]
    ensures step == 1 ==>
              && (Name in errors <==> TextOf(data, Name).None? || Trim(TextOf(data, Name).value) == "")
              && (LegalForm in errors <==> MissingText(data, LegalForm))
              && (Industry in errors <==> MissingText(data, Industry))
    ensures step == 2 ==>
              && (Revenue in errors <==> NumberAtMost(data, Revenue, 0.0))
              && (Profit in errors <==> NumberOf(data, Profit).None? || NumberOf(data, Profit).value <= 0.0
                                        || ProfitExceedsRevenue(data))
              && (Profit in errors ==>
                    errors[Profit] == if ProfitExceedsRevenue(data) then PROFIT_EXCEEDS else PROFIT_NEGATIVE)
    ensures step == 3 ==>
              && (Canton in errors <==> MissingText(data, Canton))
              && (Employees in errors <==> NumberOf(data, Employees).None? || NumberOf(data, Employees).value < 1.0)
  {
    if step == 1 then
      ErrorIf(TextOf(data, Name).None? || Trim(TextOf(data, Name).value) == "", Name, NAME_REQUIRED)
      + ErrorIf(MissingText(data, LegalForm), LegalForm, LEGAL_FORM_REQUIRED)
      + ErrorIf(MissingText(data, Industry), Industry, INDUSTRY_REQUIRED)
    else if step == 2 then
      var revenue := ErrorIf(NumberAtMost(data, Revenue, 0.0), Revenue, REVENUE_POSITIVE);
      var profit := ErrorIf(NumberOf(data, Profit).None? || NumberOf(data, Profit).value == 0.0
                            || NumberOf(data, Profit).value < 0.0, Profit, PROFIT_NEGATIVE);
      revenue + profit + ErrorIf(ProfitExceedsRevenue(data), Profit, PROFIT_EXCEEDS)
    else if step == 3 then
      ErrorIf(MissingText(data, Canton), Canton, CANTON_REQUIRED)
      + ErrorIf(NumberOf(data, Employees).None? || NumberOf(data, Employees).value == 0.0
                || NumberOf(data, Employees).value < 1.0, Employees, EMPLOYEES_REQUIRED)
    else map[]
  }

  lemma DefaultsCoverEveryField()
    ensures forall f: Field :: f in DEFAULTS
  {
    forall f: Field ensures f in DEFAULTS {
      match f
      case Name =>
      case LegalForm =>
      case Canton =>
      case Revenue =>
      case Profit =>
      case Employees =>
      case Industry =>
      case VatRegistered =>
    }
  }

  /** The form as first shown: step 1, no errors, the defaults overlaid by
      the initial data. */
  function Initial(initialData: map<Field, Value>): (s: FormState)
    ensures s.step == 1 && s.errors == map[]
    ensures forall f :: f in initialData ==> f in s.data && s.data[f] == initialData[f]
    ensures forall f :: f !in initialData ==> f in DEFAULTS && f in s.data && s.data[f] == DEFAULTS[f]
  {
    DefaultsCoverEveryField();
    FormState(1, map[], DEFAULTS + initialData)
  }

  /** `handleNext`: validate the current step, replace the errors, and move
      on (at most to the last step) only when there are none. */
  function HandleNext(s: FormState): (r: FormState)
    ensures r.data == s.data
    ensures r.errors == ValidateStep(s.data, s.step)
    ensures r.step > s.step <==> r.errors == map[] && s.step < STEP_COUNT
    ensures s.step < STEP_COUNT ==> r.step == if r.errors == map[] then s.step + 1 else s.step
    ensures s.step >= STEP_COUNT ==> r.step == if r.errors == map[] then STEP_COUNT else s.step
  {
    var errors := ValidateStep(s.data, s.step);
    if errors == map[] then
      FormState(if s.step + 1 < STEP_COUNT then s.step + 1 else STEP_COUNT, errors, s.data)
    else FormState(s.step, errors, s.data)
  }

  /** `handlePrevious`: one step back, never before the first. */
  function HandlePrevious(s: FormState): (r: FormState)
    ensures r.data == s.data && r.errors == s.errors
    ensures s.step > 1 ==> r.step == s.step - 1
    ensures s.step <= 1 ==> r.step == 1
  {
    FormState(if s.step - 1 > 1 then s.step - 1 else 1, s.errors, s.data)
  }

  /** `handleSubmit`: validates the current step (replacing the errors) and
      hands the profile over only when it is error-free and has a name and a
      canton. */
  function HandleSubmit(s: FormState): (r: (FormState, Option<map<Field, Value>>))
    ensures r.0 == s.(errors := ValidateStep(s.data, s.step))
    ensures r.1.Some? <==> ValidateStep(s.data, s.step) == map[] && !MissingText(s.data, Name) && !MissingText(s.data, Canton)
    ensures r.1.Some? ==> r.1.value == s.data
  {
    var errors := ValidateStep(s.data, s.step);
    var next := s.(errors := errors);
    if errors == map[] && !MissingText(s.data, Name) && !MissingText(s.data, Canton) then (next, Some(s.data))
    else (next, None)
  }

  /** `updateFormData(updates)`: the given fields take the given values and
      lose their errors; every other field and error stays. */
  function UpdateFormData(s: FormState, updates: map<Field, Value>): (r: FormState)
    ensures r.step == s.step
    ensures forall f :: f in updates ==> f in r.data && r.data[f] == updates[f] && f !in r.errors
    ensures forall f :: f !in updates ==> (f in r.data <==> f in s.data) && (f in s.data ==> r.data[f] == s.data[f])
    ensures forall f :: f !in updates ==> (f in r.errors <==> f in s.errors) && (f in s.errors ==> r.errors[f] == s.errors[f])
  {
    FormState(s.step, s.errors - updates.Keys, s.data + updates)
  }

  /** The step stays within 1 to 4 under every transition. */
  predicate StepInRange(s: FormState) {
    1 <= s.step <= STEP_COUNT
  }

  lemma TransitionsKeepStepInRange(s: FormState, updates: map<Field, Value>)
    requires StepInRange(s)
    ensures StepInRange(HandleNext(s))
    ensures StepInRange(HandlePrevious(s))
    ensures StepInRange(HandleSubmit(s).0)
    ensures StepInRange(UpdateFormData(s, updates))
  {
  }

  /** The last step has no rules, so submitting there depends only on the
      name and the canton. */
  lemma ReviewStepSubmits(s: FormState)
    requires s.step == STEP_COUNT
    ensures HandleSubmit(s).1.Some? <==> !MissingText(s.data, Name) && !MissingText(s.data, Canton)
  {
  }

  /** Fixing the one offending field of a step and pressing "next" moves on:
      after a valid revenue and profit are entered, step 2 advances. */
  lemma FinancialStepAdvances(s: FormState, revenue: real, profit: real)
    requires s.step == 2 && revenue > 0.0 && 0.0 < profit <= revenue
    ensures HandleNext(UpdateFormData(s, map[Revenue := Num(revenue), Profit := Num(profit)])).step == 3
  {
    var u := UpdateFormData(s, map[Revenue := Num(revenue), Profit := Num(profit)]);
    assert NumberOf(u.data, Revenue) == Some(revenue) && NumberOf(u.data, Profit) == Some(profit);
    assert ValidateStep(u.data, 2) == map[];
  }
}

=== FILE: recommendations.dfy ===
/** The recommendation text logic of src/lib/openrouter.ts: reading numbered
    items out of a model reply, the rule-based fallback list, and the choice
    between the two. The HTTP exchange itself is left out: its outcome
    arrives as a parameter. */
module Recommendations {
  import opened Wrappers
  import opened Text
  import TaxEngine

  /** The number of leading ASCII digits of `s`. */
  function LeadingDigits(s: string): (n: nat)
    ensures n <= |s|
    ensures forall k :: 0 <= k < n ==> IsDigit(s[k])
    ensures n < |s| ==> !IsDigit(s[n])
  {
    if s != [] && IsDigit(s[0]) then 1 + LeadingDigits(s[1..]) else 0
  }

  /** The test `/^\d+\./`: one or more digits and then a full stop. */
  predicate IsNumbered(s: string) {
    var n := LeadingDigits(s);
    0 < n < |s| && s[n] == '.'
  }

  /** What one line of the reply contributes: the trimmed line with its
      number, the full stop and the white space after it removed, trimmed
      again, when the line is numbered and the rest is longer than ten
      characters. */
  function ParseLine(line: string): (item: Option<string>)
    ensures item.Some? ==> |item.value| > 10 && Trimmed(item.value)
    ensures item.Some? ==> IsNumbered(Trim(line))
  {
    ItemOf(Trim(line))
  }

  /** The item of an already trimmed line. */
  function ItemOf(t: string): (item: Option<string>)
    ensures item.Some? ==> |item.value| > 10 && Trimmed(item.value) && IsNumbered(t)
  {
    if IsNumbered(t) then
      var rec := Trim(TrimStart(t[LeadingDigits(t) + 1..]));
      if |rec| > 10 then Some(rec) else None
    else None
  }

  /** Neither end of `s` is white space. */
  predicate Trimmed(s: string) {
    s == [] || (!IsSpace(s[0]) && !IsSpace(s[|s| - 1]))
  }

  /** The per-line outcomes of `lines`. */
  function LineItems(lines: seq<string>): (items: seq<Option<string>>)
    ensures |items| == |lines|
    ensures forall i :: 0 <= i < |lines| ==> items[i] == ParseLine(lines[i])
  {
    seq(|lines|, i requires 0 <= i < |lines| => ParseLine(lines[i]))
  }

  /** The present values of `opts`, in order: the pushes of the loop. */
  function Present(opts: seq<Option<string>>): (r: seq<string>)
    ensures |r| <= |opts|
    ensures forall i :: 0 <= i < |r| ==> Some(r[i]) in opts
  {
    if opts == [] then []
    else (match opts[0] case Some(x) => [x] case None => []) + Present(opts[1..])
  }

  /** `parseRecommendations(content)`: the items of the lines, in line
      order, each longer than ten characters and trimmed. */
  function ParseRecommendations(content: string): (items: seq<string>)
    ensures |items| <= |Split(content, '\n')|
    ensures forall i :: 0 <= i < |items| ==> |items[i]| > 10 && Trimmed(items[i])
  {
    ItemsOfLines(Split(content, '\n'))
  }

  /** The items of a list of lines. */
  function ItemsOfLines(lines: seq<string>): (items: seq<string>)
    ensures |items| <= |lines|
    ensures forall i :: 0 <= i < |items| ==> |items[i]| > 10 && Trimmed(items[i])
  {
    var opts := LineItems(lines);
    var items := Present(opts);
    forall i | 0 <= i < |items| ensures |items[i]| > 10 && Trimmed(items[i]) {
      var j :| 0 <= j < |opts| && opts[j] == Some(items[i]);
    }
    items
  }

  /** Parsing is line by line: the items of a concatenation of line lists
      are the items of the first followed by those of the second. */
  lemma {:induction false} PresentAppend(a: seq<Option<string>>, b: seq<Option<string>>)
    ensures Present(a + b) == Present(a) + Present(b)
  {
    if a != [] {
      assert (a + b)[0] == a[0] && (a + b)[1..] == a[1..] + b;
      PresentAppend(a[1..], b);
    } else {
      assert a + b == b;
    }
  }

  /** Lines that are not numbered contribute nothing. */
  lemma UnnumberedLinesIgnored(lines: seq<string>)
    requires forall i :: 0 <= i < |lines| ==> !IsNumbered(Trim(lines[i]))
    ensures ItemsOfLines(lines) == []
  {
    AllAbsent(LineItems(lines));
  }

  lemma {:induction false} AllAbsent(opts: seq<Option<string>>)
    requires forall i :: 0 <= i < |opts| ==> opts[i].None?
    ensures Present(opts) == []
  {
    if opts != [] {
      AllAbsent(opts[1..]);
    }
  }

  /** Every value present: all of them come out. */
  lemma {:induction false} AllPresent(items: seq<string>)
    ensures Present(seq(|items|, i requires 0 <= i < |items| => Some(items[i]))) == items
  {
    var opts := seq(|items|, i requires 0 <= i < |items| => Some(items[i]));
    if items != [] {
      assert opts[1..] == seq(|items| - 1, i requires 0 <= i < |items| - 1 => Some(items[1..][i]));
      AllPresent(items[1..]);
      assert items == [items[0]] + items[1..];
    }
  }

  /** The line `num. item`, as the prompt asks the model to write. */
  function NumberedLine(num: string, item: string): string {
    num + ". " + item
  }

  /** A number as the model may write it: one or more decimal digits. */
  predicate IsNumber(num: string) {
    num != [] && forall k :: 0 <= k < |num| ==> IsDigit(num[k])
  }

  /** The items, each on its own line after its number. */
  function NumberedLines(nums: seq<string>, items: seq<string>): (lines: seq<string>)
    requires |nums| == |items|
    ensures |lines| == |items|
  {
    seq(|items|, i requires 0 <= i < |items| => NumberedLine(nums[i], items[i]))
  }

  /** An item the reply format can carry: longer than ten characters,
      trimmed, on one line. */
  predicate Carried(item: string) {
    |item| > 10 && Trimmed(item) && '\n' !in item
  }

  /** A reply listing items in the requested numbered format, whatever the
      numbers, parses back to exactly those items, in order. */
  lemma NumberedReplyRoundTrip(nums: seq<string>, items: seq<string>)
    requires |nums| == |items| >= 1
    requires forall i :: 0 <= i < |items| ==> IsNumber(nums[i]) && Carried(items[i])
    ensures ParseRecommendations(Join(NumberedLines(nums, items), '\n')) == items
  {
    var lines := NumberedLines(nums, items);
    forall i | 0 <= i < |lines| ensures '\n' !in lines[i] {
      NumberedLineIsOneLine(nums[i], items[i]);
    }
    SplitJoin(lines, '\n');
    NumberedLinesParse(nums, items);
    AllPresent(items);
  }

  lemma NumberedLinesParse(nums: seq<string>, items: seq<string>)
    requires |nums| == |items|
    requires forall i :: 0 <= i < |items| ==> IsNumber(nums[i]) && Carried(items[i])
    ensures LineItems(NumberedLines(nums, items)) == seq(|items|, i requires 0 <= i < |items| => Some(items[i]))
  {
    var lines := NumberedLines(nums, items);
    forall i | 0 <= i < |items| ensures ParseLine(lines[i]) == Some(items[i]) {
      NumberedLineParses(nums[i], items[i]);
    }
  }

  lemma NumberedLineIsOneLine(num: string, item: string)
    requires IsNumber(num) && '\n' !in item
    ensures '\n' !in NumberedLine(num, item)
  {
  }

  /** One numbered line reads back as its item. */
  lemma NumberedLineParses(num: string, item: string)
    requires IsNumber(num) && Carried(item)
    ensures ParseLine(NumberedLine(num, item)) == Some(item)
  {
    var rest := ". " + item;
    var line := NumberedLine(num, item);
    assert line == num + rest;
    assert rest[|rest| - 1] == item[|item| - 1];
    LineIsTrimmed(num, rest, line);
    NumberedItem(num, item, rest, line);
  }

  /** The item of a trimmed numbered line `t`, which is `d` then `rest`. */
  lemma NumberedItem(d: string, item: string, rest: string, t: string)
    requires t == d + rest && rest == ". " + item
    requires IsNumber(d) && Carried(item)
    ensures ItemOf(t) == Some(item)
  {
    assert rest[0] == '.';
    LeadingDigitsOf(d, rest);
    assert t[|d|..] == rest;
    assert t[|d| + 1..] == rest[1..] == " " + item;
    SpaceThenItem(item);
  }

  /** One space before a trimmed item is what the pattern's `\s*` and the
      final trim remove. */
  lemma SpaceThenItem(item: string)
    requires item != [] && Trimmed(item)
    ensures Trim(TrimStart(" " + item)) == item
  {
    assert (" " + item)[1..] == item;
    assert TrimStart(" " + item) == TrimStart(item);
    TrimOfTrimmed(item);
  }

  /** A numbered line starts with a digit and ends with its item's last
      character, so trimming leaves it alone. */
  lemma LineIsTrimmed(d: string, rest: string, line: string)
    requires line == d + rest
    requires d != [] && IsDigit(d[0])
    requires |rest| >= 1 && !IsSpace(rest[|rest| - 1])
    ensures Trim(line) == line
  {
    assert line[0] == d[0] && line[|line| - 1] == rest[|rest| - 1];
    assert !IsSpace(d[0]);
    TrimOfTrimmed(line);
  }

  /** Digits followed by a non-digit: the leading digits are exactly those. */
  lemma {:induction false} LeadingDigitsOf(d: string, rest: string)
    requires forall k :: 0 <= k < |d| ==> IsDigit(d[k])
    requires rest != [] && !IsDigit(rest[0])
    ensures LeadingDigits(d + rest) == |d|
  {
    if d != [] {
      assert (d + rest)[1..] == d[1..] + rest;
      LeadingDigitsOf(d[1..], rest);
    } else {
      assert d + rest == rest;
    }
  }

  /** The savings analysis the fallback reads: the annual saving and the
      name of the best canton, either of which may be missing. */
  datatype SavingsAnalysis = SavingsAnalysis(annualSavings: Option<real>, bestCantonName: Option<string>)

  /** The fallback rules, in the order the source tries them. */
  datatype Rule = CantonRelocation | LegalStructure | DividendTiming | VatRegistration | TaxPlanning

  const LEGAL_STRUCTURE_TEXT: string :=
    "Legal Structure: " + "Convert to GmbH or AG to benefit from lower corporate tax rates "
    + "and improved tax planning flexibility."
  const DIVIDEND_TIMING_TEXT: string :=
    "Dividend Timing: " + "Optimize dividend distributions across tax years to minimize personal "
    + "income tax impact and leverage qualified participation exemptions."
  const VAT_REGISTRATION_TEXT: string :=
    "VAT Registration: " + "Consider voluntary VAT registration to recover input VAT and improve "
    + "cash flow, especially for B2B operations."
  const TAX_PLANNING_TEXT: string :=
    "Tax Planning: " + "Implement quarterly tax reviews to ensure optimal timing of expenses, "
    + "depreciation strategies, and provision management."

  /** A missing value, interpolated into a template literal. */
  function ShowOptional(s: Option<string>): string {
    s.GetOr("undefined")
  }

  /** The text of a rule. The relocation advice names the best canton and
      the saving, rendered by `formatAmount` (the source's
      `toLocaleString`). */
  function RuleText(rule: Rule, savings: SavingsAnalysis, formatAmount: real -> string): (t: string)
    ensures t != [] && t[0] == RuleInitial(rule)
  {
    match rule
    case CantonRelocation =>
      "Canton Relocation: " + "Consider relocating to " + ShowOptional(savings.bestCantonName)
      + " to save CHF "
      + ShowOptional(if savings.annualSavings.Some? then Some(formatAmount(savings.annualSavings.value)) else None)
      + " annually while maintaining business operations."
    case LegalStructure => LEGAL_STRUCTURE_TEXT
    case DividendTiming => DIVIDEND_TIMING_TEXT
    case VatRegistration => VAT_REGISTRATION_TEXT
    case TaxPlanning => TAX_PLANNING_TEXT
  }

  /** The first letter of each rule's text; they are all different. */
  function RuleInitial(rule: Rule): char {
    match rule
    case CantonRelocation => 'C'
    case LegalStructure => 'L'
    case DividendTiming => 'D'
    case VatRegistration => 'V'
    case TaxPlanning => 'T'
  }

  /** Different rules give different texts. */
  lemma RuleTextInjective(a: Rule, b: Rule, savings: SavingsAnalysis, formatAmount: real -> string)
    requires RuleText(a, savings, formatAmount) == RuleText(b, savings, formatAmount)
    ensures a == b
  {
    assert RuleInitial(a) == RuleInitial(b);
  }

  /** Whether a conditional rule fires. A missing saving compares as not
      greater than 10000. */
  predicate Fires(rule: Rule, company: TaxEngine.CompanyData, savings: SavingsAnalysis) {
    match rule
    case CantonRelocation => savings.annualSavings.Some? && savings.annualSavings.value > 10000.0
    case LegalStructure => company.legalForm == "Einzelfirma" && company.profit > 100000.0
    case DividendTiming => company.legalForm == "AG" || company.legalForm == "GmbH"
    case VatRegistration => company.revenue > 100000.0 && !company.vatRegistered
    case TaxPlanning => true
  }

  /** The rules that fire, in order, before the list is cut to four. */
  function FiringRules(company: TaxEngine.CompanyData, savings: SavingsAnalysis): (rules: seq<Rule>)
    ensures forall r :: r in rules <==> Fires(r, company, savings)
    ensures 1 <= |rules| <= 4 && rules[|rules| - 1] == TaxPlanning
  {
    (if Fires(CantonRelocation, company, savings) then [CantonRelocation] else [])
    + (if Fires(LegalStructure, company, savings) then [LegalStructure] else [])
    + (if Fires(DividendTiming, company, savings) then [DividendTiming] else [])
    + (if Fires(VatRegistration, company, savings) then [VatRegistration] else [])
    + [TaxPlanning]
  }

  /** `recommendations.slice(0, 4)`. */
  function Take<T>(s: seq<T>, n: nat): (r: seq<T>)
    ensures |r| == if |s| < n then |s| else n
    ensures r == s[..|r|]
  {
    if |s| <= n then s else s[..n]
  }

  /** The texts of `rules`, in order. */
  function RuleTexts(rules: seq<Rule>, savings: SavingsAnalysis, formatAmount: real -> string): (r: seq<string>)
    ensures |r| == |rules|
    ensures forall i :: 0 <= i < |rules| ==> r[i] == RuleText(rules[i], savings, formatAmount)
  {
    seq(|rules|, i requires 0 <= i < |rules| => RuleText(rules[i], savings, formatAmount))
  }

  /** A rule's text is among the texts exactly when the rule is among the rules. */
  lemma RuleTextsMembership(rules: seq<Rule>, savings: SavingsAnalysis, formatAmount: real -> string, rule: Rule)
    ensures RuleText(rule, savings, formatAmount) in RuleTexts(rules, savings, formatAmount) <==> rule in rules
  {
    var r := RuleTexts(rules, savings, formatAmount);
    if RuleText(rule, savings, formatAmount) in r {
      var i :| 0 <= i < |r| && r[i] == RuleText(rule, savings, formatAmount);
      RuleTextInjective(rules[i], rule, savings, formatAmount);
    }
    if rule in rules {
      var i :| 0 <= i < |rules| && rules[i] == rule;
      assert r[i] == RuleText(rule, savings, formatAmount);
    }
  }

  /** `getFallbackRecommendations`: at most four rule texts, the
      tax-planning advice last (which texts, see `FallbackContents`). */
  function FallbackRecommendations(company: TaxEngine.CompanyData, savings: SavingsAnalysis,
                                   formatAmount: real -> string): (r: seq<string>)
    ensures 1 <= |r| <= 4
    ensures r[|r| - 1] == TAX_PLANNING_TEXT
  {
    var rules := Take(FiringRules(company, savings), 4);
    assert rules == FiringRules(company, savings);
    var r := RuleTexts(rules, savings, formatAmount);
    assert r[|r| - 1] == RuleText(TaxPlanning, savings, formatAmount);
    r
  }

  /** The fallback list holds a rule's text exactly when the rule fires:
      since the Einzelfirma and AG/GmbH rules never fire together, the cut
      to four never removes anything. */
  lemma FallbackContents(company: TaxEngine.CompanyData, savings: SavingsAnalysis, formatAmount: real -> string)
    ensures forall rule :: RuleText(rule, savings, formatAmount) in FallbackRecommendations(company, savings, formatAmount)
                           <==> Fires(rule, company, savings)
  {
    FallbackIsRuleTexts(company, savings, formatAmount);
    forall rule ensures RuleText(rule, savings, formatAmount) in FallbackRecommendations(company, savings, formatAmount)
                        <==> Fires(rule, company, savings) {
      FiringTexts(company, savings, formatAmount, rule);
    }
  }

  /** A rule's text is among the texts of the firing rules exactly when the
      rule fires. */
  lemma FiringTexts(company: TaxEngine.CompanyData, savings: SavingsAnalysis, formatAmount: real -> string, rule: Rule)
    ensures RuleText(rule, savings, formatAmount) in RuleTexts(FiringRules(company, savings), savings, formatAmount)
            <==> Fires(rule, company, savings)
  {
    RuleTextsMembership(FiringRules(company, savings), savings, formatAmount, rule);
  }

  /** Every item of the fallback list is one of the five rule texts, and the
      texts follow the order of the rules. */
  lemma FallbackOrder(company: TaxEngine.CompanyData, savings: SavingsAnalysis,
                      formatAmount: real -> string, a: Rule, b: Rule)
    requires Fires(a, company, savings) && Fires(b, company, savings)
    requires RuleIndex(a) < RuleIndex(b)
    ensures var r := FallbackRecommendations(company, savings, formatAmount);
            exists i, j :: 0 <= i < j < |r| && r[i] == RuleText(a, savings, formatAmount)
                                            && r[j] == RuleText(b, savings, formatAmount)
  {
    var rules := FiringRules(company, savings);
    var r := FallbackRecommendations(company, savings, formatAmount);
    FallbackIsRuleTexts(company, savings, formatAmount);
    var i :| 0 <= i < |rules| && rules[i] == a;
    var j :| 0 <= j < |rules| && rules[j] == b;
    RulesInOrder(company, savings, i, j);
    assert r[i] == RuleText(a, savings, formatAmount);
    assert r[j] == RuleText(b, savings, formatAmount);
  }

  /** The fallback list is the texts of the firing rules, uncut. */
  lemma FallbackIsRuleTexts(company: TaxEngine.CompanyData, savings: SavingsAnalysis, formatAmount: real -> string)
    ensures FallbackRecommendations(company, savings, formatAmount)
            == RuleTexts(FiringRules(company, savings), savings, formatAmount)
  {
  }

  /** The position of a rule in the source's sequence of checks. */
  function RuleIndex(rule: Rule): nat {
    match rule
    case CantonRelocation => 0
    case LegalStructure => 1
    case DividendTiming => 2
    case VatRegistration => 3
    case TaxPlanning => 4
  }

  /** The firing rules appear in the order of the checks. */
  lemma RulesInOrder(company: TaxEngine.CompanyData, savings: SavingsAnalysis, i: int, j: int)
    requires 0 <= i < |FiringRules(company, savings)| && 0 <= j < |FiringRules(company, savings)|
    requires RuleIndex(FiringRules(company, savings)[i]) < RuleIndex(FiringRules(company, savings)[j])
    ensures i < j
  {
  }

  /** `generateTaxRecommendations`. `apiKey` is the configured key ("" when
      unset) and `reply` the outcome of the request: `None` when it throws
      (network failure, a non-OK status, an unreadable body), otherwise the
      first choice's message text, "" when missing. */
  function GenerateTaxRecommendations(apiKey: string, reply: Option<string>,
                                      company: TaxEngine.CompanyData, savings: SavingsAnalysis,
                                      formatAmount: real -> string): (r: seq<string>)
    ensures |r| >= 1
    ensures apiKey == "" || reply.None? ==> r == FallbackRecommendations(company, savings, formatAmount)
    ensures apiKey != "" && reply.Some? ==>
              if |ParseRecommendations(reply.value)| > 0 then r == ParseRecommendations(reply.value)
              else r == FallbackRecommendations(company, savings, formatAmount)
  {
    var fallback := FallbackRecommendations(company, savings, formatAmount);
    if apiKey == "" then fallback
    else
      match reply
      case None => fallback
      case Some(content) =>
        var recs := ParseRecommendations(content);
        if |recs| > 0 then recs else fallback
  }

  /** A reply in the requested format is used as it is. */
  lemma WellFormedReplyIsUsed(apiKey: string, nums: seq<string>, items: seq<string>,
                              company: TaxEngine.CompanyData, savings: SavingsAnalysis,
                              formatAmount: real -> string)
    requires apiKey != "" && |nums| == |items| >= 1
    requires forall i :: 0 <= i < |items| ==> IsNumber(nums[i]) && Carried(items[i])
    ensures GenerateTaxRecommendations(apiKey, Some(Join(NumberedLines(nums, items), '\n')),
                                       company, savings, formatAmount) == items
  {
    NumberedReplyRoundTrip(nums, items);
  }
}

=== FILE: seqs.dfy ===
/** `Array.prototype.filter` on sequences. */
module Seqs {

  /** `r` can be obtained from `s` by deleting elements, so the elements it
      keeps stay in their order in `s`. */
  ghost predicate Subsequence<T>(r: seq<T>, s: seq<T>)
    decreases |s|
  {
    if r == [] then true
    else if s == [] then false
    else (r[0] == s[0] && Subsequence(r[1..], s[1..])) || Subsequence(r, s[1..])
  }

  /** The elements of `s` that satisfy `p`, in order: every occurrence of a
      satisfying value is kept, no other value is, and the order of `s` is
      kept. */
  function Filter<T>(s: seq<T>, p: T -> bool): (r: seq<T>)
    ensures |r| <= |s|
    ensures forall i :: 0 <= i < |r| ==> p(r[i])
    ensures multiset(r) <= multiset(s)
    ensures forall i :: 0 <= i < |s| ==> multiset(r)[s[i]] == if p(s[i]) then multiset(s)[s[i]] else 0
    ensures Subsequence(r, s)
  {
    if s == [] then []
    else
      var rest := Filter(s[1..], p);
      assert s == [s[0]] + s[1..];
      FilterCountStep(s, p, rest);
      SubsequenceStep(s, rest, p(s[0]));
      if p(s[0]) then [s[0]] + rest else rest
  }

  /** Keeping or dropping the head extends a subsequence of the tail to one
      of the whole sequence. */
  lemma SubsequenceStep<T>(s: seq<T>, rest: seq<T>, keep: bool)
    requires s != [] && Subsequence(rest, s[1..])
    ensures Subsequence(if keep then [s[0]] + rest else rest, s)
  {
    if keep {
      assert ([s[0]] + rest)[1..] == rest;
    }
  }

  /** One step of `Filter`: if `rest` holds the satisfying elements of the
      tail with their multiplicities, adding the head when it satisfies the
      condition gives those of the whole sequence. */
  lemma FilterCountStep<T>(s: seq<T>, p: T -> bool, rest: seq<T>)
    requires s != []
    requires multiset(rest) <= multiset(s[1..])
    requires forall i :: 0 <= i < |s[1..]| ==>
               multiset(rest)[s[1..][i]] == if p(s[1..][i]) then multiset(s[1..])[s[1..][i]] else 0
    ensures var r := if p(s[0]) then [s[0]] + rest else rest;
            forall i :: 0 <= i < |s| ==> multiset(r)[s[i]] == if p(s[i]) then multiset(s)[s[i]] else 0
  {
    var r := if p(s[0]) then [s[0]] + rest else rest;
    assert s == [s[0]] + s[1..];
    forall i | 0 <= i < |s| ensures multiset(r)[s[i]] == if p(s[i]) then multiset(s)[s[i]] else 0 {
      if i > 0 {
        assert s[1..][i - 1] == s[i];
      } else if s[0] !in s[1..] {
        assert multiset(s[1..])[s[0]] == 0;
      } else {
        var k :| 0 <= k < |s[1..]| && s[1..][k] == s[0];
      }
    }
  }

  /** Filtering keeps every element that satisfies the condition. */
  lemma {:induction false} FilterKeeps<T>(s: seq<T>, p: T -> bool, i: int)
    requires 0 <= i < |s| && p(s[i])
    ensures s[i] in Filter(s, p)
  {
    if i > 0 {
      FilterKeeps(s[1..], p, i - 1);
      assert s[1..][i - 1] == s[i];
    }
  }

  /** The filtered elements are elements of `s`, and every element of `s`
      that satisfies the condition is among them. */
  lemma FilterMembers<T>(s: seq<T>, p: T -> bool)
    ensures forall i :: 0 <= i < |Filter(s, p)| ==> Filter(s, p)[i] in s
    ensures forall i :: 0 <= i < |s| && p(s[i]) ==> s[i] in Filter(s, p)
  {
    var r := Filter(s, p);
    forall i | 0 <= i < |r| ensures r[i] in s {
      assert r[i] in multiset(r);
    }
    forall i | 0 <= i < |s| && p(s[i]) ensures s[i] in r {
      FilterKeeps(s, p, i);
    }
  }

  /** Filtering by a condition every element meets changes nothing. */
  lemma {:induction false} FilterAll<T>(s: seq<T>, p: T -> bool)
    requires forall i :: 0 <= i < |s| ==> p(s[i])
    ensures Filter(s, p) == s
  {
    if s != [] {
      FilterAll(s[1..], p);
      assert s == [s[0]] + s[1..];
    }
  }
}

=== FILE: stable_sort.dfy ===
/** `Array.prototype.sort` with a numeric comparator `(a, b) => key(a) - key(b)`,
    as the tax engine, the comparison API and the comparison table use it.
    ECMAScript requires this sort to be stable, so it is modelled by a stable
    insertion sort, and the position every element lands at is stated
    exactly: the number of strictly smaller keys plus the number of equal
    keys that came earlier. */
module StableSort {

  /** Keys never decrease along `s`. */
  ghost predicate SortedBy<T>(s: seq<T>, key: T -> real) {
    forall i, j :: 0 <= i < j < |s| ==> key(s[i]) <= key(s[j])
  }

  /** No two elements of `s` share an identifier. */
  ghost predicate DistinctIds<T>(s: seq<T>, id: T -> string) {
    forall a, b :: 0 <= a < b < |s| ==> id(s[a]) != id(s[b])
  }

  /** Where `x` enters `s`: in front of the first element whose key is not
      smaller than that of `x`, so it lands after every smaller key and before
      every equal one. */
  function InsertPos<T>(x: T, s: seq<T>, key: T -> real): (p: nat)
    ensures p <= |s|
    ensures forall k :: 0 <= k < p ==> key(s[k]) < key(x)
    ensures p < |s| ==> key(x) <= key(s[p])
  {
    if s == [] || key(x) <= key(s[0]) then 0 else 1 + InsertPos(x, s[1..], key)
  }

  /** Putting `x` at its insertion position keeps a sorted sequence sorted. */
  lemma InsertKeepsSorted<T>(x: T, s: seq<T>, key: T -> real, p: nat)
    requires SortedBy(s, key)
    requires p == InsertPos(x, s, key)
    ensures SortedBy(s[..p] + [x] + s[p..], key)
  {
    var r := s[..p] + [x] + s[p..];
    forall i, j | 0 <= i < j < |r|
      ensures key(r[i]) <= key(r[j])
    {
      if j < p {
        assert r[i] == s[i] && r[j] == s[j];
      } else if j == p {
        assert r[i] == s[i] && r[j] == x;
      } else if i < p {
        assert r[i] == s[i] && r[j] == s[j - 1];
      } else if i == p {
        assert r[i] == x && r[j] == s[j - 1] && key(s[p]) <= key(s[j - 1]);
      } else {
        assert r[i] == s[i - 1] && r[j] == s[j - 1];
      }
    }
  }

  /** `x` inserted into the sorted sequence `s`. */
  function Insert<T>(x: T, s: seq<T>, key: T -> real): (r: seq<T>)
    requires SortedBy(s, key)
    ensures |r| == |s| + 1
    ensures SortedBy(r, key)
    ensures multiset(r) == multiset(s) + multiset{x}
  {
    var p := InsertPos(x, s, key);
    InsertKeepsSorted(x, s, key, p);
    assert s == s[..p] + s[p..];
    s[..p] + [x] + s[p..]
  }

  /** The stable ascending sort of `s` by `key`. */
  function Sort<T>(s: seq<T>, key: T -> real): (r: seq<T>)
    ensures |r| == |s|
    ensures SortedBy(r, key)
    ensures multiset(r) == multiset(s)
  {
    if s == [] then []
    else
      assert s == [s[0]] + s[1..];
      Insert(s[0], Sort(s[1..], key), key)
  }

  /** When every key ties, the stable sort returns its input unchanged. */
  lemma {:induction false} SortAllTied<T>(s: seq<T>, key: T -> real)
    requires forall i, j :: 0 <= i < |s| && 0 <= j < |s| ==> key(s[i]) == key(s[j])
    ensures Sort(s, key) == s
  {
    if s != [] {
      var t := s[1..];
      forall i, j | 0 <= i < |t| && 0 <= j < |t| ensures key(t[i]) == key(t[j]) {
        assert t[i] == s[i + 1] && t[j] == s[j + 1];
      }
      SortAllTied(t, key);
      assert t != [] ==> key(s[0]) <= key(t[0]);
      assert InsertPos(s[0], t, key) == 0;
      assert t[..0] + [s[0]] + t[0..] == s;
    }
  }

  /** How many elements of `s` have a key strictly below `v`. */
  function CountBelow<T>(s: seq<T>, key: T -> real, v: real): (n: nat)
    ensures n <= |s|
  {
    if s == [] then 0 else (if key(s[0]) < v then 1 else 0) + CountBelow(s[1..], key, v)
  }

  /** How many elements of `s` have key exactly `v`. */
  function CountEqual<T>(s: seq<T>, key: T -> real, v: real): (n: nat)
    ensures n <= |s|
  {
    if s == [] then 0 else (if key(s[0]) == v then 1 else 0) + CountEqual(s[1..], key, v)
  }

  /** The stable rank of `s[i]`: the elements with a smaller key, plus those
      with the same key that come before it. */
  function StableRank<T>(s: seq<T>, key: T -> real, i: nat): nat
    requires i < |s|
  {
    CountBelow(s, key, key(s[i])) + CountEqual(s[..i], key, key(s[i]))
  }

  /** `s.findIndex(e => id(e) === target)`: the first index holding the
      identifier, or -1. */
  function IndexOfId<T>(s: seq<T>, id: T -> string, target: string): (r: int)
    ensures -1 <= r < |s|
    ensures r == -1 <==> forall k :: 0 <= k < |s| ==> id(s[k]) != target
    ensures r >= 0 ==> id(s[r]) == target && forall k :: 0 <= k < r ==> id(s[k]) != target
  {
    if s == [] then -1
    else if id(s[0]) == target then 0
    else
      var r := IndexOfId(s[1..], id, target);
      if r == -1 then -1 else r + 1
  }

  lemma {:induction false} CountBelowAppend<T>(a: seq<T>, b: seq<T>, key: T -> real, v: real)
    ensures CountBelow(a + b, key, v) == CountBelow(a, key, v) + CountBelow(b, key, v)
  {
    if a == [] {
      assert a + b == b;
    } else {
      assert (a + b)[0] == a[0] && (a + b)[1..] == a[1..] + b;
      CountBelowAppend(a[1..], b, key, v);
    }
  }

  /** Sorting does not change how many keys lie below a bound. */
  lemma {:induction false} CountBelowSort<T>(s: seq<T>, key: T -> real, v: real)
    ensures CountBelow(Sort(s, key), key, v) == CountBelow(s, key, v)
  {
    if s != [] {
      var t := Sort(s[1..], key);
      CountBelowSort(s[1..], key, v);
      SortStep(s, key);
      CountBelowInsert(t, s[0], InsertPos(s[0], t, key), key, v);
    }
  }

  /** One step of the sort: the head inserted into the sorted tail. */
  lemma SortStep<T>(s: seq<T>, key: T -> real)
    requires s != []
    ensures var t := Sort(s[1..], key);
            var p := InsertPos(s[0], t, key);
            Sort(s, key) == t[..p] + [s[0]] + t[p..]
  {
  }

  /** Inserting `x` anywhere adds one to the count exactly when its key is
      below the bound. */
  lemma CountBelowInsert<T>(t: seq<T>, x: T, p: nat, key: T -> real, v: real)
    requires p <= |t|
    ensures CountBelow(t[..p] + [x] + t[p..], key, v) == CountBelow(t, key, v) + (if key(x) < v then 1 else 0)
  {
    assert t == t[..p] + t[p..];
    CountBelowAppend(t[..p], t[p..], key, v);
    CountBelowAppend(t[..p] + [x], t[p..], key, v);
    CountBelowAppend(t[..p], [x], key, v);
    assert [x][1..] == [];
  }

  /** In a sequence whose first `p` keys lie below `v` and whose other keys do
      not, exactly `p` keys lie below `v`. */
  lemma {:induction false} CountBelowSplit<T>(s: seq<T>, key: T -> real, v: real, p: nat)
    requires p <= |s|
    requires forall k :: 0 <= k < p ==> key(s[k]) < v
    requires forall k :: p <= k < |s| ==> v <= key(s[k])
    ensures CountBelow(s, key, v) == p
  {
    if s != [] {
      if p == 0 {
        CountBelowSplit(s[1..], key, v, 0);
      } else {
        CountBelowSplit(s[1..], key, v, p - 1);
      }
    }
  }

  /** Every element of a sorted sequence is an element of the input. */
  lemma SortMembers<T>(s: seq<T>, key: T -> real, k: nat)
    requires k < |s|
    ensures exists j :: 0 <= j < |s| && Sort(s, key)[k] == s[j]
  {
    var t := Sort(s, key);
    assert t[k] in multiset(t);
    assert t[k] in multiset(s);
  }

  /** Within the sorted output, an identifier of the input is carried only by
      the input element that has it. */
  lemma SortedIdentity<T>(s: seq<T>, key: T -> real, id: T -> string, k: nat, j: nat)
    requires DistinctIds(s, id)
    requires k < |s| && j < |s|
    requires id(Sort(s, key)[k]) == id(s[j])
    ensures Sort(s, key)[k] == s[j]
  {
    IdentityInPermutation(Sort(s, key), s, id, k, j);
  }

  /** An element of an input with distinct identifiers is found, by its
      identifier, at its own place in the sorted output. */
  lemma FoundInSort<T>(s: seq<T>, key: T -> real, id: T -> string, j: nat)
    requires DistinctIds(s, id) && j < |s|
    ensures var i := IndexOfId(Sort(s, key), id, id(s[j]));
            0 <= i && Sort(s, key)[i] == s[j]
  {
    SortPosition(s, key, id, j);
    SortedIdentity(s, key, id, IndexOfId(Sort(s, key), id, id(s[j])), j);
  }

  /** In a rearrangement of a sequence with distinct identifiers, an element
      is the input element with the same identifier. */
  lemma IdentityInPermutation<T>(t: seq<T>, s: seq<T>, id: T -> string, k: nat, j: nat)
    requires multiset(t) == multiset(s) && DistinctIds(s, id)
    requires k < |t| && j < |s| && id(t[k]) == id(s[j])
    ensures t[k] == s[j]
  {
    assert t[k] in multiset(t);
    var j' :| 0 <= j' < |s| && s[j'] == t[k];
    assert id(s[j']) == id(s[j]);
  }

  /** Every element of the input is somewhere in the sorted output. */
  lemma SortKeeps<T>(s: seq<T>, key: T -> real, k: nat)
    requires k < |s|
    ensures exists j :: 0 <= j < |s| && Sort(s, key)[j] == s[k]
  {
    var t := Sort(s, key);
    assert s[k] in multiset(s);
    assert s[k] in multiset(t);
  }

  /** A prefix of a sorted sequence is sorted. */
  lemma SortedPrefix<T>(t: seq<T>, key: T -> real, n: nat)
    requires n <= |t| && SortedBy(t, key)
    ensures SortedBy(t[..n], key)
  {
    forall i, j | 0 <= i < j < n ensures key(t[..n][i]) <= key(t[..n][j]) {
      assert t[..n][i] == t[i] && t[..n][j] == t[j];
    }
  }

  /** The first `n` elements of the sorted output are input elements, and
      any input element they leave out has a key no smaller than theirs. */
  lemma SortPrefixCheapest<T>(s: seq<T>, key: T -> real, n: nat)
    requires n <= |s|
    ensures SortedBy(Sort(s, key)[..n], key)
    ensures forall i :: 0 <= i < n ==> Sort(s, key)[i] in s
    ensures multiset(Sort(s, key)[..n]) <= multiset(s)
    ensures forall i, k :: 0 <= i < n && 0 <= k < |s| ==>
              s[k] in Sort(s, key)[..n] || key(Sort(s, key)[i]) <= key(s[k])
  {
    var t := Sort(s, key);
    SortedPrefix(t, key, n);
    PrefixSubMultiset(t, n);
    forall i | 0 <= i < n ensures t[i] in s {
      SortMembers(s, key, i);
    }
    forall i, k | 0 <= i < n && 0 <= k < |s|
      ensures s[k] in t[..n] || key(t[i]) <= key(s[k])
    {
      LeftOutNotCheaper(s, key, n, i, k);
    }
  }

  /** In a sequence with distinct identifiers every element occurs once. */
  lemma {:induction false} DistinctOccursOnce<T>(s: seq<T>, id: T -> string, x: T)
    requires DistinctIds(s, id) && x in s
    ensures multiset(s)[x] == 1
  {
    assert s == [s[0]] + s[1..];
    DistinctTail(s, id);
    if s[0] == x {
      assert x !in s[1..] by {
        forall k | 0 <= k < |s| - 1 ensures s[1..][k] != x {
          assert id(s[1..][k]) != id(s[0]);
        }
      }
    } else {
      DistinctOccursOnce(s[1..], id, x);
    }
  }

  /** The first `n` elements of a sequence are a sub-multiset of it. */
  lemma PrefixSubMultiset<T>(t: seq<T>, n: nat)
    requires n <= |t|
    ensures multiset(t[..n]) <= multiset(t)
  {
    assert t == t[..n] + t[n..];
  }

  /** An element found at two places occurs at least twice. */
  lemma TwiceInSeq<T>(t: seq<T>, a: nat, b: nat)
    requires a < b < |t| && t[a] == t[b]
    ensures multiset(t)[t[a]] >= 2
  {
    assert t == t[..b] + t[b..];
    assert t[..b][a] == t[a];
    assert t[b..][0] == t[b];
  }

  /** A rearrangement of a sequence with distinct identifiers has distinct
      identifiers. */
  lemma PermutationKeepsDistinct<T>(t: seq<T>, s: seq<T>, id: T -> string)
    requires multiset(t) == multiset(s) && DistinctIds(s, id)
    ensures DistinctIds(t, id)
  {
    forall a, b | 0 <= a < b < |t| ensures id(t[a]) != id(t[b]) {
      if id(t[a]) == id(t[b]) {
        assert t[a] in multiset(s);
        var j :| 0 <= j < |s| && s[j] == t[a];
        IdentityInPermutation(t, s, id, b, j);
        TwiceInSeq(t, a, b);
        DistinctOccursOnce(s, id, s[j]);
        assert false;
      }
    }
  }

  /** Part of a sequence with distinct identifiers, taken with at most the
      multiplicities it has there, has distinct identifiers. */
  lemma SubMultisetKeepsDistinct<T>(t: seq<T>, s: seq<T>, id: T -> string)
    requires multiset(t) <= multiset(s) && DistinctIds(s, id)
    ensures DistinctIds(t, id)
  {
    forall a, b | 0 <= a < b < |t| ensures id(t[a]) != id(t[b]) {
      if id(t[a]) == id(t[b]) {
        assert t[a] in multiset(s) && t[b] in multiset(s);
        var j :| 0 <= j < |s| && s[j] == t[a];
        var k :| 0 <= k < |s| && s[k] == t[b];
        assert j == k;
        TwiceInSeq(t, a, b);
        DistinctOccursOnce(s, id, s[j]);
        assert false;
      }
    }
  }

  /** The first `n` elements of the sorted output of a sequence with
      distinct identifiers have distinct identifiers. */
  lemma SortKeepsDistinct<T>(s: seq<T>, key: T -> real, id: T -> string, n: nat)
    requires DistinctIds(s, id) && n <= |s|
    ensures DistinctIds(Sort(s, key)[..n], id)
  {
    var t := Sort(s, key);
    PermutationKeepsDistinct(t, s, id);
    forall a, b | 0 <= a < b < n ensures id(t[..n][a]) != id(t[..n][b]) {
      assert t[..n][a] == t[a] && t[..n][b] == t[b];
    }
  }

  /** An input element missing from the first `n` sorted elements has a key
      no smaller than any of theirs. */
  lemma LeftOutNotCheaper<T>(s: seq<T>, key: T -> real, n: nat, i: nat, k: nat)
    requires i < n <= |s| && k < |s|
    ensures s[k] in Sort(s, key)[..n] || key(Sort(s, key)[i]) <= key(s[k])
  {
    var t := Sort(s, key);
    SortKeeps(s, key, k);
    var j :| 0 <= j < |t| && t[j] == s[k];
    if j < n {
      assert t[..n][j] == s[k];
    } else {
      assert key(t[i]) <= key(t[j]);
    }
  }

  /** Every key from the insertion position on is at least the inserted key. */
  lemma KeysFromInsertPos<T>(x: T, t: seq<T>, key: T -> real)
    requires SortedBy(t, key)
    ensures forall k :: InsertPos(x, t, key) <= k < |t| ==> key(x) <= key(t[k])
  {
    var p := InsertPos(x, t, key);
    forall k | p <= k < |t| ensures key(x) <= key(t[k]) {
      assert key(t[p]) <= key(t[k]);
    }
  }

  /** An identifier found at `q` in `t` is found at `q` or `q + 1` once `x`,
      which does not carry it, is inserted at `p`. */
  lemma IndexAfterInsert<T>(t: seq<T>, x: T, p: nat, id: T -> string, c: string)
    requires p <= |t|
    requires id(x) != c
    requires IndexOfId(t, id, c) >= 0
    ensures IndexOfId(t[..p] + [x] + t[p..], id, c) ==
            (if IndexOfId(t, id, c) < p then IndexOfId(t, id, c) else IndexOfId(t, id, c) + 1)
  {
    var q := IndexOfId(t, id, c);
    var u := t[..p] + [x] + t[p..];
    assert forall k :: 0 <= k < p ==> u[k] == t[k];
    assert forall k :: p < k < |u| ==> u[k] == t[k - 1];
    if q < p {
      assert u[q] == t[q];
    } else {
      assert u[q + 1] == t[q];
      assert forall k :: 0 <= k <= q ==> id(u[k]) != c by {
        forall k | 0 <= k <= q ensures id(u[k]) != c {
          if k > p {
            assert u[k] == t[k - 1];
          }
        }
      }
    }
  }

  /** An element inserted at `p` into a sequence that lacks its identifier is
      found at `p`. */
  lemma IndexOfInserted<T>(t: seq<T>, x: T, p: nat, id: T -> string)
    requires p <= |t|
    requires forall k :: 0 <= k < |t| ==> id(t[k]) != id(x)
    ensures IndexOfId(t[..p] + [x] + t[p..], id, id(x)) == p
  {
    var u := t[..p] + [x] + t[p..];
    assert u[p] == x;
    assert forall k :: 0 <= k < p ==> u[k] == t[k];
  }

  lemma DistinctTail<T>(s: seq<T>, id: T -> string)
    requires |s| > 0 && DistinctIds(s, id)
    ensures DistinctIds(s[1..], id)
    ensures forall k :: 0 <= k < |s| - 1 ==> id(s[1..][k]) != id(s[0])
  {
    forall a, b | 0 <= a < b < |s| - 1 ensures id(s[1..][a]) != id(s[1..][b]) {
      assert s[1..][a] == s[a + 1] && s[1..][b] == s[b + 1];
    }
  }

  /** Stability, stated as the exact landing position of every element: in
      the sorted output, the element `s[i]` sits at index `StableRank(s, key, i)`,
      i.e. after every smaller key and after the equal keys that preceded it
      in the input. Identifiers must be distinct so that the element can be
      found by its identifier, as the source does with canton codes. */
  lemma {:induction false} SortPosition<T>(s: seq<T>, key: T -> real, id: T -> string, i: nat)
    requires i < |s|
    requires DistinctIds(s, id)
    ensures IndexOfId(Sort(s, key), id, id(s[i])) == StableRank(s, key, i)
  {
    DistinctTail(s, id);
    if i == 0 {
      PositionOfHead(s, key, id);
    } else {
      assert s[1..][i - 1] == s[i];
      SortPosition(s[1..], key, id, i - 1);
      PositionAfterInsert(s, key, id, i - 1);
      RankStep(s, key, i);
    }
  }

  /** The first input element lands after every smaller key. */
  lemma PositionOfHead<T>(s: seq<T>, key: T -> real, id: T -> string)
    requires |s| > 0
    requires forall k :: 0 <= k < |s| - 1 ==> id(s[1..][k]) != id(s[0])
    ensures IndexOfId(Sort(s, key), id, id(s[0])) == StableRank(s, key, 0)
  {
    var x, t := s[0], Sort(s[1..], key);
    var p := InsertPos(x, t, key);
    SortStep(s, key);
    KeysFromInsertPos(x, t, key);
    CountBelowSort(s[1..], key, key(x));
    forall k | 0 <= k < |t| ensures id(t[k]) != id(x) {
      SortMembers(s[1..], key, k);
    }
    IndexOfInserted(t, x, p, id);
    CountBelowSplit(t, key, key(x), p);
  }

  /** Inserting the first input element moves a later one found in the
      sorted tail one place on exactly when the first key is not larger. */
  lemma PositionAfterInsert<T>(s: seq<T>, key: T -> real, id: T -> string, j: nat)
    requires j + 1 < |s|
    requires DistinctIds(s[1..], id) && id(s[1..][j]) != id(s[0])
    requires IndexOfId(Sort(s[1..], key), id, id(s[1..][j])) == StableRank(s[1..], key, j)
    ensures IndexOfId(Sort(s, key), id, id(s[1..][j])) ==
              StableRank(s[1..], key, j) + (if key(s[0]) <= key(s[1..][j]) then 1 else 0)
  {
    var x, rest := s[0], s[1..];
    var t := Sort(rest, key);
    var p := InsertPos(x, t, key);
    var c, v := id(rest[j]), key(rest[j]);
    SortStep(s, key);
    KeysFromInsertPos(x, t, key);
    var q := IndexOfId(t, id, c);
    SortedIdentity(rest, key, id, q, j);
    assert key(t[q]) == v;
    IndexAfterInsert(t, x, p, id, c);
    assert q < p <==> v < key(x);
  }

  /** Dropping the first element lowers a later rank by one exactly when the
      first key is not larger. */
  lemma RankStep<T>(s: seq<T>, key: T -> real, i: nat)
    requires 0 < i < |s|
    ensures StableRank(s, key, i) ==
              StableRank(s[1..], key, i - 1) + (if key(s[0]) <= key(s[i]) then 1 else 0)
  {
    assert s[1..][i - 1] == s[i];
    assert s[..i][1..] == s[1..][..i - 1];
  }

  lemma {:induction false} CountBelowZero<T>(s: seq<T>, key: T -> real, v: real)
    ensures CountBelow(s, key, v) == 0 <==> forall k :: 0 <= k < |s| ==> v <= key(s[k])
  {
    if s != [] {
      CountBelowZero(s[1..], key, v);
      assert forall k :: 0 < k < |s| ==> s[k] == s[1..][k - 1];
    }
  }

  lemma {:induction false} CountEqualZero<T>(s: seq<T>, key: T -> real, v: real)
    ensures CountEqual(s, key, v) == 0 <==> forall k :: 0 <= k < |s| ==> key(s[k]) != v
  {
    if s != [] {
      CountEqualZero(s[1..], key, v);
      assert forall k :: 0 < k < |s| ==> s[k] == s[1..][k - 1];
    }
  }

  /** An element ranks first exactly when no key is smaller than its own and
      no earlier element has the same key. */
  lemma RankZeroIff<T>(s: seq<T>, key: T -> real, i: nat)
    requires i < |s|
    ensures StableRank(s, key, i) == 0 <==>
              (forall k :: 0 <= k < |s| ==> key(s[i]) <= key(s[k]))
              && (forall k :: 0 <= k < i ==> key(s[k]) != key(s[i]))
  {
    CountBelowZero(s, key, key(s[i]));
    CountEqualZero(s[..i], key, key(s[i]));
    assert forall k :: 0 <= k < i ==> s[..i][k] == s[k];
  }

  /** A stable rank is a position of the sequence. */
  lemma RankBound<T>(s: seq<T>, key: T -> real, i: nat)
    requires i < |s|
    ensures StableRank(s, key, i) < |s|
  {
    CountSplit(s, key, key(s[i]), i);
  }

  /** Strictly smaller keys, equal keys before `i` and `s[i]` itself are
      disjoint groups of elements. */
  lemma {:induction false} CountSplit<T>(s: seq<T>, key: T -> real, v: real, i: nat)
    requires i < |s| && key(s[i]) == v
    ensures CountBelow(s, key, v) + CountEqual(s[..i], key, v) < |s|
  {
    if i == 0 {
      CountBelowAtMost(s[1..], key, v);
    } else {
      CountSplit(s[1..], key, v, i - 1);
      assert s[..i] == [s[0]] + s[1..][..i - 1];
    }
  }

  lemma {:induction false} CountBelowAtMost<T>(s: seq<T>, key: T -> real, v: real)
    ensures CountBelow(s, key, v) <= |s|
  {
  }
}

=== FILE: stripe_client.dfy ===
/** The pure helpers of src/lib/stripe/client.ts: the product table with its
    monthly prices, the subscription-status test used by the billing pages,
    and the feature list shown for a plan id. */
module StripeClient {
  import opened Wrappers
  import FeatureGates

  /** One entry of `STRIPE_PRODUCTS`. The price id comes from the environment
      with a fixed default, so it is passed in; the price is whole francs. */
  datatype Product = Product(priceId: string, name: string, price: int, currency: string,
                             interval: string, features: seq<string>)

  const STARTER_FEATURES: seq<string> := [
    "Unlimited tax calculations",
    "Tax health monitoring",
    "Compliance calendar",
    "Email alerts",
    "Save up to 5 company profiles",
    "AI-powered recommendations"]

  const PROFESSIONAL_FEATURES: seq<string> := [
    "Everything in Starter",
    "Unlimited company profiles",
    "2 expert consultation credits/month",
    "Priority support",
    "Advanced reporting",
    "Custom tax strategies",
    "Regulatory update notifications"]

  const BASIC_FEATURES: seq<string> := [
    "Basic tax calculator",
    "Canton comparison (1 time)",
    "Tax health score"]

  /** `NEXT_PUBLIC_STRIPE_..._PRICE_ID || default`: an unset or empty
      variable falls back to the default id. */
  function PriceIdOr(env: Option<string>, default: string): (id: string)
    ensures env.Some? && env.value != "" ==> id == env.value
    ensures env.None? || env.value == "" ==> id == default
  {
    match env
    case Some(v) => if v != "" then v else default
    case None => default
  }

  /** The starter product, with the price-id variable as read. */
  function Starter(env: Option<string>): (p: Product)
    ensures env.Some? && env.value != "" ==> p.priceId == env.value
    ensures env.None? || env.value == "" ==> p.priceId == "price_starter_monthly"
    ensures p.name == "Starter Plan"
    ensures p.price == 197 && p.currency == "CHF" && p.interval == "month"
    ensures p.features == STARTER_FEATURES
  {
    Product(PriceIdOr(env, "price_starter_monthly"), "Starter Plan", 197, "CHF", "month", STARTER_FEATURES)
  }

  /** The professional product, with the price-id variable as read. */
  function Professional(env: Option<string>): (p: Product)
    ensures env.Some? && env.value != "" ==> p.priceId == env.value
    ensures env.None? || env.value == "" ==> p.priceId == "price_professional_monthly"
    ensures p.name == "Professional Plan"
    ensures p.price == 497 && p.currency == "CHF" && p.interval == "month"
    ensures p.features == PROFESSIONAL_FEATURES
  {
    Product(PriceIdOr(env, "price_professional_monthly"), "Professional Plan", 497, "CHF", "month",
            PROFESSIONAL_FEATURES)
  }

  /** The professional plan costs more than the starter plan, and neither is
      free, whatever price ids the environment supplies. */
  lemma PricesOrdered(starterEnv: Option<string>, professionalEnv: Option<string>)
    ensures 0 < Starter(starterEnv).price < Professional(professionalEnv).price
    ensures Professional(professionalEnv).price - Starter(starterEnv).price == 300
  {
  }

  /** `hasActiveSubscription(subscription)`: a present subscription whose
      status is active or trialing. The period end plays no part. */
  predicate HasActiveSubscription(sub: Option<FeatureGates.Subscription>): (b: bool)
    ensures sub.None? ==> !b
    ensures sub.Some? ==> (b <==> sub.value.status == "active" || sub.value.status == "trialing")
  {
    sub.Some? && sub.value.status in ["active", "trialing"]
  }

  /** The billing-page test and the plan-resolution test of the feature gate
      differ exactly on trialing subscriptions and on active ones whose period
      is over or unreadable: the billing test accepts both, the gate neither.
      Whatever the gate accepts, the billing test accepts too. */
  lemma ActiveTestsDiffer(sub: Option<FeatureGates.Subscription>, now: int)
    ensures FeatureGates.IsSubscriptionActive(sub, now) ==> HasActiveSubscription(sub)
    ensures HasActiveSubscription(sub) && !FeatureGates.IsSubscriptionActive(sub, now) <==>
              sub.Some? && (sub.value.status == "trialing"
                            || (sub.value.status == "active"
                                && (sub.value.currentPeriodEnd.None? || sub.value.currentPeriodEnd.value <= now)))
  {
  }

  /** A trialing subscriber sees an active subscription on the billing pages
      but is gated with the free plan's limits. */
  lemma TrialingIsFreeForTheGate(planId: string, periodEnd: Option<int>, now: int, usage: map<string, int>)
    ensures var sub := Some(FeatureGates.Subscription(planId, "trialing", periodEnd));
            && HasActiveSubscription(sub)
            && FeatureGates.GetUserPlanId(sub, now) == "free"
            && FeatureGates.NewFeatureGate(FeatureGates.GetUserPlanId(sub, now), usage).limits
               == FeatureGates.NewFeatureGate("free", usage).limits
  {
  }

  /** `getPlanFeatures(planId)`: the product's list for the two paid plans,
      the basic three-item list for every other id. */
  function GetPlanFeatures(planId: string): (features: seq<string>)
    ensures planId == "starter" ==> features == Starter(None).features
    ensures planId == "professional" ==> features == Professional(None).features
    ensures planId != "starter" && planId != "professional" ==> features == BASIC_FEATURES && |features| == 3
  {
    if planId == "starter" then STARTER_FEATURES
    else if planId == "professional" then PROFESSIONAL_FEATURES
    else BASIC_FEATURES
  }

  /** The three feature lists are different, so the list shown identifies the
      plan family: paid plans are told apart, and any other id shows the
      basic list. */
  lemma PlanFeaturesIdentifyPlan(a: string, b: string)
    ensures GetPlanFeatures(a) == GetPlanFeatures(b) <==>
              (a == b || (a !in {"starter", "professional"} && b !in {"starter", "professional"}))
  {
    assert |STARTER_FEATURES| == 6 && |PROFESSIONAL_FEATURES| == 7 && |BASIC_FEATURES| == 3;
  }
}

=== FILE: tax_engine.dfy ===
/** The canton tax calculator of src/lib/swiss-tax-data.ts: one tax breakdown
    per canton (`calculateTaxes`), the cheapest-canton reduction
    (`calculatePotentialSavings`) and the cheapest-N view (`getTopCantons`).
    Amounts are exact reals; the source's IEEE doubles are not modelled. */
module TaxEngine {
  import opened Wrappers
  import opened CantonTable
  import StableSort
  import Utils

  /** The company profile the engine is given. `legalForm` is one of
      "GmbH", "AG", "Einzelfirma", "Kollektivgesellschaft" in the source's
      type, but arrives as free text from a request body. */
  datatype CompanyData = CompanyData(
    name: string,
    legalForm: string,
    canton: string,
    revenue: real,
    profit: real,
    employees: int,
    industry: string,
    vatRegistered: bool)

  /** The tax breakdown of one company in one canton. */
  datatype TaxCalculation = TaxCalculation(
    canton: string,
    federalTax: real,
    cantonalTax: real,
    municipalTax: real,
    capitalTax: real,
    totalTaxBurden: real,
    effectiveRate: real)

  /** The fixed share of revenue taken as the company's taxable capital. */
  const CAPITAL_SHARE_OF_REVENUE: real := 0.2

  /** Sort key and lookup key of a breakdown. */
  function TotalOf(t: TaxCalculation): real { t.totalTaxBurden }
  function CantonOf(t: TaxCalculation): string { t.canton }

  /** The breakdown of `data` in canton `c`: federal and cantonal tax are
      percentages of profit, municipal tax scales the cantonal tax, capital
      tax applies to a fifth of revenue. */
  function CalculateFor(data: CompanyData, c: CantonTaxRates): (t: TaxCalculation)
    ensures t.canton == c.code
    ensures t.totalTaxBurden == t.federalTax + t.cantonalTax + t.municipalTax + t.capitalTax
    ensures t.effectiveRate == Utils.CalculateEffectiveRate(t.totalTaxBurden, data.profit)
  {
    var federalTax := data.profit * (c.federalTaxRate / 100.0);
    var cantonalTax := data.profit * (c.corporateIncomeTaxRate / 100.0);
    var municipalTax := cantonalTax * c.municipalMultiplier;
    var estimatedCapital := data.revenue * CAPITAL_SHARE_OF_REVENUE;
    var capitalTax := estimatedCapital * c.capitalTaxRate;
    var totalTaxBurden := federalTax + cantonalTax + municipalTax + capitalTax;
    var effectiveRate := if data.profit > 0.0 then (totalTaxBurden / data.profit) * 100.0 else 0.0;
    TaxCalculation(c.code, federalTax, cantonalTax, municipalTax, capitalTax, totalTaxBurden, effectiveRate)
  }

  /** Each part and the total in closed form, and the breakdown is
      non-negative for a non-negative profile and non-negative rates. */
  lemma CalculateForClosedForm(data: CompanyData, c: CantonTaxRates)
    ensures var t := CalculateFor(data, c);
            && t.federalTax == data.profit * c.federalTaxRate / 100.0
            && t.cantonalTax == data.profit * c.corporateIncomeTaxRate / 100.0
            && t.municipalTax == t.cantonalTax * c.municipalMultiplier
            && t.capitalTax == data.revenue * c.capitalTaxRate / 5.0
            && t.totalTaxBurden ==
                 data.profit * (c.federalTaxRate + c.corporateIncomeTaxRate * (1.0 + c.municipalMultiplier)) / 100.0
                 + data.revenue * c.capitalTaxRate / 5.0
            && (data.profit > 0.0 ==> t.effectiveRate * data.profit == t.totalTaxBurden * 100.0)
    ensures var t := CalculateFor(data, c);
            (&& data.profit >= 0.0 && data.revenue >= 0.0 && c.federalTaxRate >= 0.0
             && c.corporateIncomeTaxRate >= 0.0 && c.municipalMultiplier >= 0.0 && c.capitalTaxRate >= 0.0)
            ==> (&& t.federalTax >= 0.0 && t.cantonalTax >= 0.0 && t.municipalTax >= 0.0
                 && t.capitalTax >= 0.0 && t.totalTaxBurden >= 0.0)
  {
  }

  /** `cantons.map(...)`: one breakdown per rate entry, in order. */
  function Breakdowns(data: CompanyData, rates: seq<CantonTaxRates>): (r: seq<TaxCalculation>)
    ensures |r| == |rates|
    ensures forall i :: 0 <= i < |rates| ==> r[i] == CalculateFor(data, rates[i])
  {
    if rates == [] then [] else [CalculateFor(data, rates[0])] + Breakdowns(data, rates[1..])
  }

  /** `rates.filter(c => c.code === code)`. */
  function FilterByCode(rates: seq<CantonTaxRates>, code: string): (r: seq<CantonTaxRates>)
    ensures forall k :: 0 <= k < |r| ==> r[k].code == code && r[k] in rates
    ensures (forall k :: 0 <= k < |rates| ==> rates[k].code != code) ==> r == []
    ensures FindCode(rates, code).Some? ==> |r| >= 1 && r[0] == rates[FindCode(rates, code).value]
  {
    if rates == [] then []
    else if rates[0].code == code then [rates[0]] + FilterByCode(rates[1..], code)
    else FilterByCode(rates[1..], code)
  }

  /** In a table with distinct codes the filter keeps at most one entry. */
  lemma {:induction false} FilterDistinct(rates: seq<CantonTaxRates>, code: string)
    requires DistinctCodes(rates)
    ensures |FilterByCode(rates, code)| <= 1
  {
    if rates != [] {
      assert DistinctCodes(rates[1..]) by {
        forall i, j | 0 <= i < j < |rates| - 1 ensures rates[1..][i].code != rates[1..][j].code {
          assert rates[1..][i] == rates[i + 1] && rates[1..][j] == rates[j + 1];
        }
      }
      FilterDistinct(rates[1..], code);
      if rates[0].code == code {
        assert forall k :: 0 <= k < |rates| - 1 ==> rates[1..][k].code != code by {
          forall k | 0 <= k < |rates| - 1 ensures rates[1..][k].code != code {
            assert rates[1..][k] == rates[k + 1];
          }
        }
      }
    }
  }

  /** `calculateTaxes(companyData, targetCanton?)`. A missing or empty target
      is falsy in the source and selects every canton. */
  function CalculateTaxes(data: CompanyData, targetCanton: string): (r: seq<TaxCalculation>)
    ensures targetCanton == "" ==>
              |r| == |CANTON_TAX_RATES| && forall i :: 0 <= i < |r| ==> r[i] == CalculateFor(data, CANTON_TAX_RATES[i])
    ensures targetCanton != "" && GetCantonTaxRates(targetCanton).None? ==> r == []
    ensures targetCanton != "" && GetCantonTaxRates(targetCanton).Some? ==>
              r == [CalculateFor(data, GetCantonTaxRates(targetCanton).value)]
  {
    TargetFilter(targetCanton);
    var cantons := if targetCanton != "" then FilterByCode(CANTON_TAX_RATES, targetCanton) else CANTON_TAX_RATES;
    Breakdowns(data, cantons)
  }

  /** Filtering the table by a code gives nothing for an unknown code and
      exactly the coded entry for a known one. */
  lemma TargetFilter(code: string)
    ensures GetCantonTaxRates(code).None? ==> FilterByCode(CANTON_TAX_RATES, code) == []
    ensures GetCantonTaxRates(code).Some? ==> FilterByCode(CANTON_TAX_RATES, code) == [GetCantonTaxRates(code).value]
  {
    RateTableWellFormed();
    FilterDistinct(CANTON_TAX_RATES, code);
    match GetCantonTaxRates(code)
    case None =>
    case Some(c) =>
      var i := FindCode(CANTON_TAX_RATES, code).value;
      assert c == CANTON_TAX_RATES[i];
  }

  /** All 26 breakdowns, in table order. */
  function AllCalculations(data: CompanyData): (r: seq<TaxCalculation>)
    ensures |r| == 26
    ensures forall i :: 0 <= i < 26 ==> r[i] == CalculateFor(data, CANTON_TAX_RATES[i])
    ensures forall i :: 0 <= i < 26 ==> r[i].canton == CANTON_TAX_RATES[i].code
  {
    RateTableWellFormed();
    CalculateTaxes(data, "")
  }

  /** Without a target the result is one breakdown per table entry in table
      order; with a target it is that canton's breakdown alone, or nothing for
      a code the table does not have. */
  lemma CalculateTaxesShape(data: CompanyData, targetCanton: string)
    ensures targetCanton == "" ==> CalculateTaxes(data, targetCanton) == AllCalculations(data)
    ensures targetCanton != "" && GetCantonTaxRates(targetCanton).None? ==>
              CalculateTaxes(data, targetCanton) == []
    ensures targetCanton != "" && GetCantonTaxRates(targetCanton).Some? ==>
              CalculateTaxes(data, targetCanton) == [CalculateFor(data, GetCantonTaxRates(targetCanton).value)]
  {
    RateTableWellFormed();
  }

  /** The breakdowns of all cantons carry pairwise distinct canton codes. */
  lemma AllCalculationsDistinct(data: CompanyData)
    ensures StableSort.DistinctIds(AllCalculations(data), CantonOf)
  {
    RateTableWellFormed();
  }

  /** `list.reduce((best, cur) => cur.totalTaxBurden < best.totalTaxBurden ? cur : best)`
      as an index: the first entry whose total is minimal. */
  function FirstCheapest(s: seq<TaxCalculation>): (i: nat)
    requires |s| > 0
    ensures i < |s|
    ensures forall k :: 0 <= k < |s| ==> s[i].totalTaxBurden <= s[k].totalTaxBurden
    ensures forall k :: 0 <= k < i ==> s[k].totalTaxBurden > s[i].totalTaxBurden
  {
    if |s| == 1 then 0
    else
      var best := FirstCheapest(s[..|s| - 1]);
      if s[|s| - 1].totalTaxBurden < s[best].totalTaxBurden then |s| - 1 else best
  }

  /** The result of `calculatePotentialSavings`. */
  datatype SavingsResult = SavingsResult(savings: real, bestCanton: string, currentTax: real, bestTax: real)

  /** The position of a canton code in the rate table, when present. */
  function TableIndex(code: string): (r: Option<nat>)
    ensures r.Some? ==> r.value < 26 && CANTON_TAX_RATES[r.value].code == code
    ensures r.None? <==> GetCantonTaxRates(code).None?
  {
    RateTableWellFormed();
    FindCode(CANTON_TAX_RATES, code)
  }

  /** `calculatePotentialSavings(companyData, currentCanton)`: throws for a
      code outside the table; otherwise compares the canton's total with the
      cheapest canton's, the earliest table entry winning ties. */
  function CalculatePotentialSavings(data: CompanyData, currentCanton: string): (r: Result<SavingsResult>)
    ensures r.Err? <==> GetCantonTaxRates(currentCanton).None?
    ensures r.Err? ==> r.message == "Canton " + currentCanton + " not found"
    ensures r.Ok? ==>
              var all := AllCalculations(data);
              && r.value.currentTax == CalculateFor(data, GetCantonTaxRates(currentCanton).value).totalTaxBurden
              && r.value.savings == r.value.currentTax - r.value.bestTax
              && r.value.savings >= 0.0
              && (forall k :: 0 <= k < 26 ==> r.value.bestTax <= all[k].totalTaxBurden)
              && (exists b :: 0 <= b < 26 && all[b].canton == r.value.bestCanton && all[b].totalTaxBurden == r.value.bestTax
                    && forall k :: 0 <= k < b ==> all[k].totalTaxBurden > r.value.bestTax)
  {
    var all := AllCalculations(data);
    var current := StableSort.IndexOfId(all, CantonOf, currentCanton);
    if current < 0 then
      Err("Canton " + currentCanton + " not found")
    else
      var b := FirstCheapest(all);
      var currentTax := all[current].totalTaxBurden;
      var bestTax := all[b].totalTaxBurden;
      FoundCanton(data, currentCanton);
      CheapestIsEarliestMinimum(all);
      Ok(SavingsResult(currentTax - bestTax, all[b].canton, currentTax, bestTax))
  }

  /** The entry `FirstCheapest` picks has a minimal total and no earlier
      entry has that total. */
  lemma CheapestIsEarliestMinimum(all: seq<TaxCalculation>)
    requires |all| > 0
    ensures var best := all[FirstCheapest(all)];
            && (forall k :: 0 <= k < |all| ==> best.totalTaxBurden <= all[k].totalTaxBurden)
            && (exists b :: 0 <= b < |all| && all[b].canton == best.canton && all[b].totalTaxBurden == best.totalTaxBurden
                  && forall k :: 0 <= k < b ==> all[k].totalTaxBurden > best.totalTaxBurden)
  {
    var b := FirstCheapest(all);
    assert all[b].canton == all[b].canton;
  }

  /** Searching the breakdowns for a code finds exactly the codes of the
      table, at the position of the code's table entry. */
  lemma FoundCanton(data: CompanyData, code: string)
    ensures var i := StableSort.IndexOfId(AllCalculations(data), CantonOf, code);
            && (i >= 0 <==> GetCantonTaxRates(code).Some?)
            && (i >= 0 ==> GetCantonTaxRates(code).value == CANTON_TAX_RATES[i])
  {
    var all := AllCalculations(data);
    var i := StableSort.IndexOfId(all, CantonOf, code);
    assert forall k :: 0 <= k < 26 ==> CantonOf(all[k]) == CANTON_TAX_RATES[k].code;
    if i >= 0 {
      RateTableWellFormed();
      FindDistinct(CANTON_TAX_RATES, i);
    }
  }

  /** The reported best canton and best total are those of the earliest
      cheapest table entry, and the current total is the canton's own. */
  lemma SavingsBestIsFirstCheapest(data: CompanyData)
    requires GetCantonTaxRates(data.canton).Some?
    ensures CalculatePotentialSavings(data, data.canton).Ok?
    ensures var p := CalculatePotentialSavings(data, data.canton).value;
            var all := AllCalculations(data);
            && p.bestCanton == all[FirstCheapest(all)].canton
            && p.bestTax == all[FirstCheapest(all)].totalTaxBurden
            && p.currentTax == all[TableIndex(data.canton).value].totalTaxBurden
  {
    var all := AllCalculations(data);
    var p := CalculatePotentialSavings(data, data.canton).value;
    BestIsFirstCheapest(all, p);
    var j := TableIndex(data.canton).value;
    TableIndexRates(data.canton);
    assert all[j] == CalculateFor(data, CANTON_TAX_RATES[j]);
  }

  /** A best canton and total that are an earliest minimum of the entries
      are those of the entry `FirstCheapest` picks. */
  lemma BestIsFirstCheapest(all: seq<TaxCalculation>, p: SavingsResult)
    requires |all| > 0
    requires forall k :: 0 <= k < |all| ==> p.bestTax <= all[k].totalTaxBurden
    requires exists b :: 0 <= b < |all| && all[b].canton == p.bestCanton && all[b].totalTaxBurden == p.bestTax
               && forall k :: 0 <= k < b ==> all[k].totalTaxBurden > p.bestTax
    ensures p.bestCanton == all[FirstCheapest(all)].canton
    ensures p.bestTax == all[FirstCheapest(all)].totalTaxBurden
  {
    var b :| 0 <= b < |all| && all[b].canton == p.bestCanton && all[b].totalTaxBurden == p.bestTax
             && forall k :: 0 <= k < b ==> all[k].totalTaxBurden > p.bestTax;
    EarliestMinimumIsFirstCheapest(all, b);
  }

  /** An entry of minimal total with no earlier entry of that total is the
      one `FirstCheapest` picks. */
  lemma EarliestMinimumIsFirstCheapest(all: seq<TaxCalculation>, b: nat)
    requires b < |all|
    requires forall k :: 0 <= k < |all| ==> all[b].totalTaxBurden <= all[k].totalTaxBurden
    requires forall k :: 0 <= k < b ==> all[k].totalTaxBurden > all[b].totalTaxBurden
    ensures FirstCheapest(all) == b
  {
  }

  /** A known code's rates are the table entry at its index. */
  lemma TableIndexRates(code: string)
    requires GetCantonTaxRates(code).Some?
    ensures GetCantonTaxRates(code).value == CANTON_TAX_RATES[TableIndex(code).value]
  {
    RateTableWellFormed();
    FindDistinct(CANTON_TAX_RATES, TableIndex(code).value);
  }

  /** Among the cantons of minimal total, the one the reduction keeps has the
      alphabetically lowest code: the table is in code order, so keeping the
      earliest entry and keeping the lowest code are the same rule. */
  lemma BestHasLowestCode(data: CompanyData)
    ensures var all := AllCalculations(data);
            var b := FirstCheapest(all);
            forall k :: 0 <= k < 26 && k != b && all[k].totalTaxBurden == all[b].totalTaxBurden ==>
              CodeOrder(all[b].canton) < CodeOrder(all[k].canton)
  {
    var all := AllCalculations(data);
    CodesInOrder();
    EarliestHasLowestKey(all, CANTON_TAX_RATES, FirstCheapest(all));
  }

  /** In breakdowns of the table's entries, position by position, an entry with no
      earlier entry of its total has a lower code than every other entry of
      that total; the codes are those of a table in code order. */
  lemma EarliestHasLowestKey(all: seq<TaxCalculation>, table: seq<CantonTaxRates>, b: nat)
    requires b < |all| == |table|
    requires forall i :: 0 <= i < |all| ==> all[i].canton == table[i].code
    requires forall i, j :: 0 <= i < j < |table| ==> CodeOrder(table[i].code) < CodeOrder(table[j].code)
    requires forall k :: 0 <= k < b ==> all[k].totalTaxBurden > all[b].totalTaxBurden
    ensures forall k :: 0 <= k < |all| && k != b && all[k].totalTaxBurden == all[b].totalTaxBurden ==>
              CodeOrder(all[b].canton) < CodeOrder(all[k].canton)
  {
  }

  /** The savings figure is zero exactly when the current canton is one of
      the cantons of minimal total. */
  lemma SavingsZeroIffCheapest(data: CompanyData, currentCanton: string)
    requires GetCantonTaxRates(currentCanton).Some?
    ensures CalculatePotentialSavings(data, currentCanton).Ok?
    ensures var all := AllCalculations(data);
            var current := CalculateFor(data, GetCantonTaxRates(currentCanton).value);
            CalculatePotentialSavings(data, currentCanton).value.savings == 0.0 <==>
              forall k :: 0 <= k < 26 ==> current.totalTaxBurden <= all[k].totalTaxBurden
  {
    var r := CalculatePotentialSavings(data, currentCanton).value;
    var all := AllCalculations(data);
    var b :| 0 <= b < 26 && all[b].canton == r.bestCanton && all[b].totalTaxBurden == r.bestTax
             && forall k :: 0 <= k < b ==> all[k].totalTaxBurden > r.bestTax;
  }

  /** The stable ascending sort puts first the earliest of the cheapest
      cantons, the same canton the savings reduction picks. */
  lemma SortedHeadIsFirstCheapest(data: CompanyData)
    ensures StableSort.Sort(AllCalculations(data), TotalOf)[0] == AllCalculations(data)[FirstCheapest(AllCalculations(data))]
  {
    var all := AllCalculations(data);
    var b := FirstCheapest(all);
    StableSort.RankZeroIff(all, TotalOf, b);
    AllCalculationsDistinct(data);
    StableSort.SortPosition(all, TotalOf, CantonOf, b);
    StableSort.SortedIdentity(all, TotalOf, CantonOf, 0, b);
  }

  /** `list.reduce((sum, calc) => sum + calc.totalTaxBurden, 0)`. */
  function SumTotals(s: seq<TaxCalculation>): (r: real)
    ensures s == [] ==> r == 0.0
    ensures (forall k :: 0 <= k < |s| ==> s[k].totalTaxBurden >= 0.0) ==> r >= 0.0
  {
    if s == [] then 0.0 else SumTotals(s[..|s| - 1]) + s[|s| - 1].totalTaxBurden
  }

  /** A sum of totals none of which is below `m` is at least `|s|` times `m`. */
  lemma {:induction false} SumTotalsAtLeast(s: seq<TaxCalculation>, m: real)
    requires forall k :: 0 <= k < |s| ==> m <= s[k].totalTaxBurden
    ensures SumTotals(s) >= |s| as real * m
  {
    if s != [] {
      var init := s[..|s| - 1];
      assert forall k :: 0 <= k < |init| ==> init[k] == s[k];
      SumTotalsAtLeast(init, m);
      assert SumTotals(s) == SumTotals(init) + s[|s| - 1].totalTaxBurden;
      assert |s| as real * m == |init| as real * m + m;
    }
  }

  /** `end` of `slice(0, end)` on a sequence of length `n`: a negative end
      counts from the back, and the result is clamped to `[0, n]`. */
  function SliceEnd(n: nat, end: int): (e: nat)
    ensures e <= n
    ensures 0 <= end ==> e == if end < n then end else n
  {
    if end < 0 then (if n + end < 0 then 0 else n + end)
    else if end < n then end else n
  }

  /** `getTopCantons(companyData, limit)`: the breakdowns sorted by ascending
      total, cut after `limit` entries, so the `limit` cheapest cantons, each
      once. */
  function GetTopCantons(data: CompanyData, limit: int): (r: seq<TaxCalculation>)
    ensures |r| == SliceEnd(26, limit)
    ensures 0 <= limit ==> |r| == if limit < 26 then limit else 26
    ensures StableSort.SortedBy(r, TotalOf)
    ensures multiset(r) <= multiset(AllCalculations(data))
    ensures StableSort.DistinctIds(r, CantonOf)
    ensures forall i, k :: 0 <= i < |r| && 0 <= k < 26 ==>
              AllCalculations(data)[k] in r || r[i].totalTaxBurden <= AllCalculations(data)[k].totalTaxBurden
  {
    var all := AllCalculations(data);
    CheapestPrefix(all, SliceEnd(26, limit));
    AllCalculationsDistinct(data);
    StableSort.SortKeepsDistinct(all, TotalOf, CantonOf, SliceEnd(26, limit));
    StableSort.Sort(all, TotalOf)[..SliceEnd(26, limit)]
  }

  /** The `limit` the source uses when the caller gives none. */
  const DEFAULT_TOP_LIMIT: nat := 5

  /** `getTopCantons(companyData)` with the default limit: the five
      cheapest cantons. */
  function GetTopCantonsDefault(data: CompanyData): (r: seq<TaxCalculation>)
    ensures |r| == DEFAULT_TOP_LIMIT
    ensures StableSort.SortedBy(r, TotalOf)
    ensures forall i, k :: 0 <= i < |r| && 0 <= k < 26 ==>
              AllCalculations(data)[k] in r || r[i].totalTaxBurden <= AllCalculations(data)[k].totalTaxBurden
  {
    GetTopCantons(data, DEFAULT_TOP_LIMIT)
  }

  /** The default top list is the beginning of the top list for any larger
      limit. */
  lemma DefaultIsPrefix(data: CompanyData, n: int)
    requires DEFAULT_TOP_LIMIT <= n
    ensures GetTopCantonsDefault(data) == GetTopCantons(data, n)[..DEFAULT_TOP_LIMIT]
  {
    var sorted := StableSort.Sort(AllCalculations(data), TotalOf);
    assert GetTopCantons(data, n) == sorted[..SliceEnd(26, n)];
    assert GetTopCantonsDefault(data) == sorted[..DEFAULT_TOP_LIMIT];
  }

  /** `SortPrefixCheapest` for breakdowns sorted by their total. */
  lemma CheapestPrefix(all: seq<TaxCalculation>, n: nat)
    requires n <= |all|
    ensures var r := StableSort.Sort(all, TotalOf)[..n];
            && StableSort.SortedBy(r, TotalOf)
            && multiset(r) <= multiset(all)
            && (forall i, k :: 0 <= i < |r| && 0 <= k < |all| ==>
                  all[k] in r || r[i].totalTaxBurden <= all[k].totalTaxBurden)
  {
    StableSort.SortPrefixCheapest(all, TotalOf, n);
  }

  /** The profile of the repository's example request: a GmbH in Zurich with
      revenue 1,200,000 and profit 240,000. */
  const EXAMPLE_COMPANY: CompanyData :=
    CompanyData("Test Company", "GmbH", "ZH", 1200000.0, 240000.0, 8, "Technology", true)

  /** Worked example: in Zurich the example company owes federal 20,400,
      cantonal 15,600, municipal 18,564 and capital 240, in total 54,804,
      an effective rate of 22.835%. */
  lemma ZurichExample()
    ensures CalculateTaxes(EXAMPLE_COMPANY, "ZH") ==
              [TaxCalculation("ZH", 20400.0, 15600.0, 18564.0, 240.0, 54804.0, 22.835)]
  {
    CalculateTaxesShape(EXAMPLE_COMPANY, "ZH");
    ZurichRates();
    var t := CalculateFor(EXAMPLE_COMPANY, CANTON_TAX_RATES[25]);
    assert t.federalTax == 20400.0 && t.cantonalTax == 15600.0;
    assert t.municipalTax == 18564.0 && t.capitalTax == 240.0;
  }

  lemma ZurichRates()
    ensures GetCantonTaxRates("ZH") == Some(CANTON_TAX_RATES[25])
    ensures CANTON_TAX_RATES[25] == CantonTaxRates("ZH", "Zurich", 6.5, 0.001, 1.19, 100000.0, 8.5)
  {
    RateTableWellFormed();
    FindDistinct(CANTON_TAX_RATES, 25);
  }

  /** Zug's lower municipal multiplier makes it cheaper than Zurich for every
      profitable company. */
  lemma ZugCheaperThanZurich(data: CompanyData)
    requires data.profit > 0.0
    ensures AllCalculations(data)[24].canton == "ZG" && AllCalculations(data)[25].canton == "ZH"
    ensures AllCalculations(data)[24].municipalTax < AllCalculations(data)[25].municipalTax
    ensures AllCalculations(data)[24].totalTaxBurden < AllCalculations(data)[25].totalTaxBurden
  {
  }
}

=== FILE: text.dfy ===
/** The handful of JavaScript string primitives the modelled code relies on:
    `trim`, the `\s` and `\d` regex classes, ASCII case folding, `includes`,
    `split`/`join` on a one-character separator, `replace` of a first
    occurrence and the decimal rendering of an integer. */
module Text {

  /** The characters that `String.prototype.trim` strips and the regular
      expression class `\s` matches: ECMAScript WhiteSpace and LineTerminator. */
  predicate IsSpace(c: char) {
    c in WHITE_SPACE
  }

  const WHITE_SPACE: set<char> := {
    ' ', '\t', '\n', '\r', '\U{000B}', '\U{000C}', '\U{00A0}', '\U{FEFF}', '\U{1680}',
    '\U{2000}', '\U{2001}', '\U{2002}', '\U{2003}', '\U{2004}', '\U{2005}', '\U{2006}',
    '\U{2007}', '\U{2008}', '\U{2009}', '\U{200A}',
    '\U{2028}', '\U{2029}', '\U{202F}', '\U{205F}', '\U{3000}'}

  /** The regular expression class `\d`: ASCII decimal digits only. */
  predicate IsDigit(c: char) {
    '0' <= c <= '9'
  }

  /** `s` with its leading white space removed. */
  function TrimStart(s: string): (r: string)
    ensures |r| <= |s| && r == s[|s| - |r|..]
    ensures r == [] || !IsSpace(r[0])
    ensures forall i :: 0 <= i < |s| - |r| ==> IsSpace(s[i])
  {
    if |s| > 0 && IsSpace(s[0]) then TrimStart(s[1..]) else s
  }

  /** `s` with its trailing white space removed. */
  function TrimEnd(s: string): (r: string)
    ensures |r| <= |s| && r == s[..|r|]
    ensures r == [] || !IsSpace(r[|r| - 1])
    ensures forall i :: |r| <= i < |s| ==> IsSpace(s[i])
  {
    if |s| > 0 && IsSpace(s[|s| - 1]) then TrimEnd(s[..|s| - 1]) else s
  }

  /** `r` is the infix of `s` starting at `i`, and everything of `s`
      around it is white space. */
  ghost predicate SpaceAround(s: string, r: string, i: int) {
    && 0 <= i <= |s| - |r|
    && r == s[i..i + |r|]
    && (forall k :: 0 <= k < i ==> IsSpace(s[k]))
    && (forall k :: i + |r| <= k < |s| ==> IsSpace(s[k]))
  }

  /** `String.prototype.trim`: `s` without its leading and trailing white
      space. */
  function Trim(s: string): (r: string)
    ensures |r| <= |s|
    ensures r == [] || (!IsSpace(r[0]) && !IsSpace(r[|r| - 1]))
  {
    TrimEnd(TrimStart(s))
  }

  /** The trim is the infix of `s` left after dropping only white space. */
  lemma TrimMeaning(s: string)
    ensures exists i :: SpaceAround(s, Trim(s), i)
  {
    var a := TrimStart(s);
    var r := TrimEnd(a);
    var i := |s| - |a|;
    assert a == s[i..];
    assert r == a[..|r|];
    assert r == s[i..i + |r|];
    forall k | 0 <= k < i ensures IsSpace(s[k]) {
    }
    forall k | i + |r| <= k < |s| ensures IsSpace(s[k]) {
      assert s[k] == a[k - i];
    }
    assert Trim(s) == r;
    assert SpaceAround(s, Trim(s), i);
  }

  /** A string already free of surrounding white space is its own trim. */
  lemma {:induction false} TrimOfTrimmed(s: string)
    requires s == [] || (!IsSpace(s[0]) && !IsSpace(s[|s| - 1]))
    ensures Trim(s) == s
  {
  }

  /** Trimming twice is trimming once. */
  lemma TrimIdempotent(s: string)
    ensures Trim(Trim(s)) == Trim(s)
  {
    TrimOfTrimmed(Trim(s));
  }

  /** ASCII upper case letters to lower case, everything else unchanged. */
  function LowerChar(c: char): (r: char)
    ensures 'A' <= c <= 'Z' ==> 'a' <= r <= 'z'
    ensures !('A' <= c <= 'Z') ==> r == c
  {
    if 'A' <= c <= 'Z' then (c as int - 'A' as int + 'a' as int) as char else c
  }

  /** `toLowerCase`, restricted to ASCII letters. */
  function Lower(s: string): (r: string)
    ensures |r| == |s|
    ensures forall i :: 0 <= i < |s| ==> r[i] == LowerChar(s[i])
  {
    if s == [] then [] else [LowerChar(s[0])] + Lower(s[1..])
  }

  predicate IsPrefix(p: string, s: string) {
    |p| <= |s| && s[..|p|] == p
  }

  /** `needle` occurs in `haystack` starting at index `i`. */
  ghost predicate OccursAt(haystack: string, needle: string, i: int) {
    0 <= i <= |haystack| - |needle| && haystack[i..i + |needle|] == needle
  }

  /** `haystack.includes(needle)`, computed by scanning. */
  function Contains(haystack: string, needle: string): (b: bool)
    ensures b <==> exists i :: OccursAt(haystack, needle, i)
    decreases |haystack|
  {
    if IsPrefix(needle, haystack) then
      assert OccursAt(haystack, needle, 0);
      true
    else if |haystack| <= |needle| then
      false
    else
      var rest := Contains(haystack[1..], needle);
      assert rest <==> exists i :: OccursAt(haystack, needle, i) by {
        forall i | OccursAt(haystack, needle, i) ensures OccursAt(haystack[1..], needle, i - 1) {
          assert i != 0;
          OccursShift(haystack, needle, i - 1);
        }
        forall j | OccursAt(haystack[1..], needle, j) ensures OccursAt(haystack, needle, j + 1) {
          OccursShift(haystack, needle, j);
        }
      }
      rest
  }

  /** An occurrence in the tail is an occurrence one place later in the whole. */
  lemma OccursShift(haystack: string, needle: string, j: int)
    requires |haystack| >= 1 && j >= 0
    ensures OccursAt(haystack[1..], needle, j) <==> OccursAt(haystack, needle, j + 1)
  {
    if 0 <= j <= |haystack| - 1 - |needle| {
      assert haystack[1..][j..j + |needle|] == haystack[j + 1..j + 1 + |needle|];
    }
  }

  /** Index of the first `c` in `s`, or `|s|` when there is none. */
  function IndexOf(s: string, c: char): (i: nat)
    ensures i <= |s|
    ensures i < |s| ==> s[i] == c
    ensures forall k :: 0 <= k < i ==> s[k] != c
  {
    if s == [] then 0 else if s[0] == c then 0 else 1 + IndexOf(s[1..], c)
  }

  /** `s.split(sep)` for a one-character separator: the maximal
      separator-free pieces, in order (so `""` splits to `[""]`). */
  function Split(s: string, sep: char): (parts: seq<string>)
    ensures |parts| >= 1
    ensures forall k :: 0 <= k < |parts| ==> sep !in parts[k]
    ensures Join(parts, sep) == s
    ensures parts[0] == s[..IndexOf(s, sep)]
    decreases |s|
  {
    var i := IndexOf(s, sep);
    if i == |s| then
      assert sep !in s;
      [s]
    else
      var tail := Split(s[i + 1..], sep);
      assert s == s[..i] + [sep] + s[i + 1..];
      [s[..i]] + tail
  }

  /** `parts.join(sep)`. */
  function Join(parts: seq<string>, sep: char): string
  {
    if parts == [] then ""
    else if |parts| == 1 then parts[0]
    else parts[0] + [sep] + Join(parts[1..], sep)
  }

  /** Everything after the first separator is the rest of the split, rejoined:
      the identity `line.split('=').slice(1).join('=')` relies on. */
  lemma {:induction false} SplitTailJoin(s: string, sep: char)
    requires IndexOf(s, sep) < |s|
    ensures |Split(s, sep)| >= 2
    ensures Join(Split(s, sep)[1..], sep) == s[IndexOf(s, sep) + 1..]
  {
    var i := IndexOf(s, sep);
    var tail := Split(s[i + 1..], sep);
    assert Split(s, sep) == [s[..i]] + tail;
    assert Split(s, sep)[1..] == tail;
  }

  /** Splitting a join of separator-free pieces gives the pieces back. */
  lemma {:induction false} SplitJoin(parts: seq<string>, sep: char)
    requires |parts| >= 1
    requires forall k :: 0 <= k < |parts| ==> sep !in parts[k]
    ensures Split(Join(parts, sep), sep) == parts
  {
    if |parts| == 1 {
      SplitNoSeparator(parts[0], sep);
    } else {
      var rest := Join(parts[1..], sep);
      assert Join(parts, sep) == parts[0] + [sep] + rest;
      SplitAt(parts[0], sep, rest);
      SplitJoin(parts[1..], sep);
      assert parts == [parts[0]] + parts[1..];
    }
  }

  /** A separator-free piece followed by the separator splits off first. */
  lemma SplitAt(a: string, sep: char, b: string)
    requires sep !in a
    ensures Split(a + [sep] + b, sep) == [a] + Split(b, sep)
  {
    var s := a + [sep] + b;
    IndexOfSkip(a, sep, b);
    AroundSeparator(a, sep, b);
    assert Split(s, sep) == [s[..|a|]] + Split(s[|a| + 1..], sep);
  }

  /** The first separator of `a + [sep] + b` is the one after `a` when `a`
      holds none. */
  lemma IndexOfSkip(a: string, sep: char, b: string)
    requires sep !in a
    ensures IndexOf(a + [sep] + b, sep) == |a|
  {
    var s := a + [sep] + b;
    assert s[|a|] == sep;
    assert forall k :: 0 <= k < |a| ==> s[k] == a[k];
  }

  /** The two sides of a separator placed between `a` and `b`. */
  lemma AroundSeparator(a: string, sep: char, b: string)
    ensures (a + [sep] + b)[..|a|] == a
    ensures (a + [sep] + b)[|a| + 1..] == b
  {
    var s := a + [sep] + b;
    assert s == a + ([sep] + b);
    assert s[|a|..] == [sep] + b;
  }

  /** A string without the separator splits into itself alone. */
  lemma SplitNoSeparator(s: string, sep: char)
    requires sep !in s
    ensures Split(s, sep) == [s]
  {
    assert IndexOf(s, sep) == |s|;
  }

  /** `s` with its first occurrence of `pat` replaced by `rep`
      (`String.prototype.replace` with a string pattern). */
  function ReplaceFirst(s: string, pat: string, rep: string): (r: string)
    ensures !Contains(s, pat) ==> r == s
    ensures IsPrefix(pat, s) ==> r == rep + s[|pat|..]
    decreases |s|
  {
    if IsPrefix(pat, s) then rep + s[|pat|..]
    else if |s| <= |pat| then s
    else
      var rest := ReplaceFirst(s[1..], pat, rep);
      [s[0]] + rest
  }

  /** The decimal digit for `d`. */
  function DigitChar(d: nat): (c: char)
    requires d < 10
    ensures IsDigit(c)
  {
    ('0' as int + d) as char
  }

  /** Decimal rendering of a natural number, as template literals print it. */
  function NatToString(n: nat): (r: string)
    ensures |r| >= 1
    ensures forall k :: 0 <= k < |r| ==> IsDigit(r[k])
    ensures n >= 10 ==> r[0] != '0'
  {
    if n < 10 then [DigitChar(n)] else NatToString(n / 10) + [DigitChar(n % 10)]
  }

  /** Decimal rendering of an integer, with a leading `-` when negative. */
  function IntToString(n: int): (r: string)
    ensures n >= 0 ==> r == NatToString(n)
    ensures n < 0 ==> r == "-" + NatToString(-n)
  {
    if n >= 0 then NatToString(n) else "-" + NatToString(-n)
  }

  /** The value of one decimal digit. */
  function DigitValue(c: char): (d: nat)
    requires IsDigit(c)
    ensures d < 10
  {
    c as int - '0' as int
  }

  /** The value a string of decimal digits denotes. */
  function DigitsValue(s: string): nat
    requires forall k :: 0 <= k < |s| ==> IsDigit(s[k])
  {
    if s == [] then 0 else DigitsValue(s[..|s| - 1]) * 10 + DigitValue(s[|s| - 1])
  }

  /** Reading back a rendered natural number gives the number. */
  lemma {:induction false} NatToStringRoundTrip(n: nat)
    ensures DigitsValue(NatToString(n)) == n
  {
    if n >= 10 {
      NatToStringRoundTrip(n / 10);
      var r := NatToString(n);
      assert r[..|r| - 1] == NatToString(n / 10);
    }
  }
}

=== FILE: usage_meter.dfy ===
/** The display logic of src/components/billing/UsageMeter.tsx: how full each
    quota row is, the colour of its bar, which rows are shown, and when the
    meter asks the user to upgrade. */
module UsageMeter {
  import opened Wrappers
  import JsMath
  import Plans
  import FeatureGates

  /** `Math.min((current / limit) * 100, 100)`, or 0 for an unlimited row.
      A limit of zero would divide by zero; no row the meter shows has one
      (see `OverviewRowsHaveLimits`). */
  function Percentage(current: int, limit: int, unlimited: bool): (p: real)
    requires unlimited || limit != 0
    ensures unlimited ==> p == 0.0
    ensures p <= 100.0
    ensures !unlimited && limit > 0 ==> (p == 100.0 <==> current >= limit)
    ensures !unlimited && limit > 0 && current < limit ==> p * limit as real == current as real * 100.0
    ensures !unlimited && limit > 0 && current >= 0 ==> p >= 0.0
  {
    if unlimited then 0.0
    else
      var ratio := (current as real / limit as real) * 100.0;
      if ratio < 100.0 then ratio else 100.0
  }

  /** The colours of a row's bar. */
  datatype BarColour = Green | Red | Orange | Blue

  /** `getProgressColor()`. */
  function ProgressColour(percentage: real, unlimited: bool): (c: BarColour)
    ensures unlimited <==> c == Green
    ensures !unlimited ==> (c == Red <==> percentage >= 100.0)
    ensures !unlimited ==> (c == Orange <==> 80.0 <= percentage < 100.0)
  {
    if unlimited then Green
    else if percentage >= 100.0 then Red
    else if percentage >= 80.0 then Orange
    else Blue
  }

  /** The colour of a limited row in terms of its counts: red once the
      quota is used up, orange from four fifths of it, blue below. */
  lemma ColourByUsage(current: int, limit: int)
    requires limit > 0
    ensures var c := ProgressColour(Percentage(current, limit, false), false);
            && (c == Red <==> current >= limit)
            && (c == Orange <==> 5 * current >= 4 * limit && current < limit)
            && (c == Blue <==> 5 * current < 4 * limit)
  {
    var p := Percentage(current, limit, false);
    if current < limit {
      FourFifths(current as real, limit as real);
      assert p == (current as real / limit as real) * 100.0;
    }
  }

  /** A share of at least 80% is at least four fifths of the whole. */
  lemma FourFifths(c: real, l: real)
    requires l > 0.0
    ensures (c / l) * 100.0 >= 80.0 <==> 5.0 * c >= 4.0 * l
  {
    var q := c / l;
    assert q * l == c;
    RealScale(q * 100.0, 80.0, l);
    assert q * 100.0 * l == 100.0 * c;
  }

  /** Comparing `p` with `bound` is comparing their multiples by a positive `k`. */
  lemma RealScale(p: real, bound: real, k: real)
    requires k > 0.0
    ensures p >= bound <==> p * k >= bound * k
  {
    if p >= bound {
      assert p * k - bound * k == (p - bound) * k;
    } else {
      assert bound * k - p * k == (bound - p) * k;
    }
  }

  /** A share taken as a percentage is the count times a hundred over the whole. */
  lemma ShareOfHundred(c: real, l: real)
    requires l > 0.0
    ensures (c / l) * 100.0 == c * 100.0 / l
  {
    var q := c / l;
    assert q * l == c;
    assert (q * 100.0) * l == c * 100.0;
  }

  /** The colour of a limited row's bar, and its percentage as a share of
      the limit, whenever the limit is positive. */
  lemma LimitedRowFigures(current: int, limit: int)
    ensures limit > 0 ==>
              var c := ProgressColour(Percentage(current, limit, false), false);
              && (c == Red <==> current >= limit)
              && (c == Orange <==> 5 * current >= 4 * limit && current < limit)
              && (c == Blue <==> 5 * current < 4 * limit)
              && (current < limit ==> Percentage(current, limit, false) == current as real * 100.0 / limit as real)
  {
    if limit > 0 {
      ColourByUsage(current, limit);
      if current < limit {
        ShareOfHundred(current as real, limit as real);
      }
    }
  }

  /** The optional status hint a row can be given. */
  datatype Status = Good | Warning | Danger

  /** `getStatusColor()`: the icon and text colour, where a hint can raise
      the colour but never lower it. */
  function StatusColour(percentage: real, unlimited: bool, status: Option<Status>): (c: BarColour)
    ensures unlimited ==> c == Green
    ensures c != Blue
    ensures !unlimited && status != Some(Danger) && status != Some(Warning) ==>
              c == (if ProgressColour(percentage, unlimited) == Blue then Green else ProgressColour(percentage, unlimited))
  {
    if unlimited then Green
    else if status == Some(Danger) || percentage >= 100.0 then Red
    else if status == Some(Warning) || percentage >= 80.0 then Orange
    else Green
  }

  /** What one `UsageItem` shows: the usage caption, and for a limited row
      the bar, its rounded percentage and the warning icon. */
  datatype UsageView = UsageView(title: string, unlimitedCaption: bool, textColour: BarColour,
                                 bar: Option<(BarColour, int)>, checkIcon: bool, alertIcon: bool)

  function ItemView(title: string, item: FeatureGates.UsageItem): (v: UsageView)
    requires item.unlimited || item.limit != 0
    ensures v.unlimitedCaption <==> item.unlimited
    ensures v.checkIcon <==> item.unlimited
    ensures v.bar.Some? <==> !item.unlimited
    ensures !item.unlimited && item.limit > 0 ==> (v.alertIcon <==> item.usage >= item.limit)
    ensures item.unlimited ==> !v.alertIcon
    ensures !item.unlimited && item.limit > 0 && item.usage >= 0 ==> 0 <= v.bar.value.1 <= 100
    ensures !item.unlimited && item.limit > 0 ==>
              && (v.bar.value.0 == Red <==> item.usage >= item.limit)
              && (v.bar.value.0 == Orange <==> 5 * item.usage >= 4 * item.limit && item.usage < item.limit)
              && (v.bar.value.0 == Blue <==> 5 * item.usage < 4 * item.limit)
    ensures !item.unlimited && item.limit > 0 && item.usage >= item.limit ==> v.bar.value.1 == 100
    ensures !item.unlimited && item.limit > 0 && item.usage < item.limit ==>
              v.bar.value.1 == JsMath.Round(item.usage as real * 100.0 / item.limit as real)
    ensures item.unlimited ==> v.textColour == Green
    ensures !item.unlimited ==> v.textColour == (if v.bar.value.0 == Blue then Green else v.bar.value.0)
  {
    var p := Percentage(item.usage, item.limit, item.unlimited);
    LimitedRowFigures(item.usage, item.limit);
    UsageView(title, item.unlimited, StatusColour(p, item.unlimited, None),
              if item.unlimited then None else Some((ProgressColour(p, item.unlimited), JsMath.Round(p))),
              item.unlimited,
              !item.unlimited && p >= 100.0)
  }

  /** `hasLimitIssues`: some limited quota row is used up. The expert row
      does not count. */
  predicate HasLimitIssues(o: FeatureGates.LimitsOverview): (b: bool)
    ensures o.calculations.unlimited && o.savedProfiles.unlimited && o.cantonComparisons.unlimited ==> !b
    ensures !o.calculations.unlimited && o.calculations.usage >= o.calculations.limit ==> b
    ensures !o.savedProfiles.unlimited && o.savedProfiles.usage >= o.savedProfiles.limit ==> b
    ensures !o.cantonComparisons.unlimited && o.cantonComparisons.usage >= o.cantonComparisons.limit ==> b
    ensures b ==> exists r :: r in [o.calculations, o.savedProfiles, o.cantonComparisons] && !r.unlimited && r.usage >= r.limit
  {
    || (!o.calculations.unlimited && o.calculations.usage >= o.calculations.limit)
    || (!o.savedProfiles.unlimited && o.savedProfiles.usage >= o.savedProfiles.limit)
    || (!o.cantonComparisons.unlimited && o.cantonComparisons.usage >= o.cantonComparisons.limit)
  }

  /** The meter reports a limit issue exactly when one of the three quota
      checks of the gate refuses. */
  lemma LimitIssuesIffRefused(g: FeatureGates.FeatureGate)
    ensures HasLimitIssues(FeatureGates.GetLimitsOverview(g)) <==>
              || !FeatureGates.CanCalculateTaxes(g).allowed
              || !FeatureGates.CanSaveCompanyProfile(g).allowed
              || !FeatureGates.CanCompareCantons(g).allowed
  {
    FeatureGates.QuotaRowsAgree(g);
  }

  /** Every row of an overview built for a plan has a usable limit: either
      unlimited or non-zero. */
  lemma OverviewRowsHaveLimits(planId: string, usage: map<string, int>)
    ensures var o := FeatureGates.GetLimitsOverview(FeatureGates.NewFeatureGate(planId, usage));
            && (o.calculations.unlimited || o.calculations.limit > 0)
            && (o.savedProfiles.unlimited || o.savedProfiles.limit > 0)
            && (o.cantonComparisons.unlimited || o.cantonComparisons.limit > 0)
            && (o.expertConsultations.Some? ==> o.expertConsultations.value.limit > 0)
  {
    var l := Plans.LimitsFor(planId);
    assert l == Plans.FREE_LIMITS || l == Plans.STARTER_LIMITS || l == Plans.PROFESSIONAL_LIMITS;
  }

  /** An overview whose rows all have usable limits. */
  predicate Displayable(o: FeatureGates.LimitsOverview) {
    && (o.calculations.unlimited || o.calculations.limit != 0)
    && (o.savedProfiles.unlimited || o.savedProfiles.limit != 0)
    && (o.cantonComparisons.unlimited || o.cantonComparisons.limit != 0)
    && (o.expertConsultations.Some? ==>
          o.expertConsultations.value.unlimited || o.expertConsultations.value.limit != 0)
  }

  /** What the meter shows. */
  datatype Meter = Meter(upgradeButton: bool, rows: seq<UsageView>, suggestions: seq<string>,
                         upgradeNow: bool)

  /** The rows of the meter: the three quota rows in a fixed order, then the
      expert row when the overview has one. */
  function MeterRows(o: FeatureGates.LimitsOverview): (rows: seq<UsageView>)
    requires Displayable(o)
    ensures |rows| == 4 <==> o.expertConsultations.Some?
    ensures 3 <= |rows| <= 4
    ensures rows[0] == ItemView("Tax Calculations", o.calculations)
    ensures rows[1] == ItemView("Company Profiles", o.savedProfiles)
    ensures rows[2] == ItemView("Canton Comparisons", o.cantonComparisons)
    ensures o.expertConsultations.Some? ==>
              rows[3] == ItemView("Expert Consultations", o.expertConsultations.value)
  {
    var quota := [ItemView("Tax Calculations", o.calculations),
                  ItemView("Company Profiles", o.savedProfiles),
                  ItemView("Canton Comparisons", o.cantonComparisons)];
    match o.expertConsultations
    case Some(item) => quota + [ItemView("Expert Consultations", item)]
    case None => quota
  }

  /** `UsageMeter`: the upgrade button needs both a limit issue and an
      upgrade handler; the rows are the overview's rows, with the expert row
      only when the overview has one. */
  function RenderMeter(g: FeatureGates.FeatureGate, hasUpgradeHandler: bool): (m: Meter)
    requires Displayable(FeatureGates.GetLimitsOverview(g))
    ensures m.upgradeButton <==> hasUpgradeHandler && HasLimitIssues(FeatureGates.GetLimitsOverview(g))
    ensures |m.rows| == 4 <==> FeatureGates.GetLimitsOverview(g).expertConsultations.Some?
    ensures 3 <= |m.rows| <= 4
    ensures m.rows == MeterRows(FeatureGates.GetLimitsOverview(g))
    ensures m.upgradeNow <==> hasUpgradeHandler && |m.suggestions| > 0
    ensures m.suggestions == FeatureGates.GetUpgradeSuggestions(g)
  {
    var o := FeatureGates.GetLimitsOverview(g);
    var suggestions := FeatureGates.GetUpgradeSuggestions(g);
    Meter(hasUpgradeHandler && HasLimitIssues(o), MeterRows(o), suggestions,
          hasUpgradeHandler && |suggestions| > 0)
  }

  /** Only professional subscribers see the expert row; a free user who has
      used up the three calculations is offered an upgrade. */
  lemma ExpertRowForProfessionalOnly(planId: string, usage: map<string, int>)
    ensures var g := FeatureGates.NewFeatureGate(planId, usage);
            && Displayable(FeatureGates.GetLimitsOverview(g))
            && (|RenderMeter(g, true).rows| == 4 <==> planId == "professional")
            && (Plans.LimitsFor(planId) == Plans.FREE_LIMITS && "calculations" in usage && usage["calculations"] >= 3 ==>
                  RenderMeter(g, true).upgradeButton)
  {
    OverviewRowsHaveLimits(planId, usage);
    Plans.ExpertOnlyForProfessional(planId);
  }
}

=== FILE: utils.dfy ===
/** The pure helpers of src/lib/utils.ts other than the canton list: tax-year
    validation, the CHE enterprise number (shape `CHE-XXX.XXX.XXX`, no check
    digit) and the effective/marginal rate helpers. */
module Utils {
  import opened Text

  /** `isValidTaxYear(year)`, with the calendar year of "now" passed in. */
  function IsValidTaxYear(year: int, currentYear: int): (b: bool)
    ensures b ==> year >= 2020
    ensures year > currentYear + 1 ==> !b
    ensures 2020 <= year <= currentYear + 1 ==> b
    ensures year == currentYear + 1 ==> (b <==> currentYear >= 2019)
  {
    year >= 2020 && year <= currentYear + 1
  }

  /** A year accepted now is accepted in every later calendar year. */
  lemma TaxYearWindow(year: int, currentYear: int, laterYear: int)
    requires currentYear <= laterYear
    ensures IsValidTaxYear(year, currentYear) ==> IsValidTaxYear(year, laterYear)
  {
  }

  /** One position of a fixed-length pattern: a literal character or `\d`. */
  datatype PatternChar = Lit(c: char) | AnyDigit

  predicate MatchesAt(c: char, p: PatternChar) {
    match p
    case Lit(l) => c == l
    case AnyDigit => IsDigit(c)
  }

  /** The regular expression `^CHE-\d{3}\.\d{3}\.\d{3}$`, one entry per
      character it accepts. */
  const CHE_PATTERN: seq<PatternChar> := [
    Lit('C'), Lit('H'), Lit('E'), Lit('-'),
    AnyDigit, AnyDigit, AnyDigit, Lit('.'),
    AnyDigit, AnyDigit, AnyDigit, Lit('.'),
    AnyDigit, AnyDigit, AnyDigit]

  /** `isValidCHE`: the whole string matches the anchored pattern. */
  predicate IsValidCHE(s: string): (b: bool)
    ensures b ==> |s| == 15 && s[..4] == "CHE-" && s[7] == '.' && s[11] == '.'
    ensures b ==> AllDigits(s[4..7]) && AllDigits(s[8..11]) && AllDigits(s[12..15])
    ensures |s| != 15 ==> !b
  {
    |s| == |CHE_PATTERN| && forall k :: 0 <= k < |s| ==> MatchesAt(s[k], CHE_PATTERN[k])
  }

  predicate AllDigits(s: string) {
    forall k :: 0 <= k < |s| ==> IsDigit(s[k])
  }

  /** The canonical display form of nine digits. */
  function CanonicalCHE(d: string): (r: string)
    requires |d| == 9
    ensures |r| == 15
  {
    "CHE-" + d[0..3] + "." + d[3..6] + "." + d[6..9]
  }

  /** Positions of the pattern that hold a digit, mapped to the index of
      that digit among the nine. */
  function DigitIndex(k: int): int {
    if k < 7 then k - 4 else if k < 11 then k - 5 else k - 6
  }

  /** Each character of the canonical form: the literal of the pattern, or
      the matching one of the nine digits. */
  lemma CanonicalChar(d: string, k: int)
    requires |d| == 9 && 0 <= k < 15
    ensures CHE_PATTERN[k].Lit? ==> CanonicalCHE(d)[k] == CHE_PATTERN[k].c
    ensures CHE_PATTERN[k].AnyDigit? ==> 0 <= DigitIndex(k) < 9 && CanonicalCHE(d)[k] == d[DigitIndex(k)]
  {
    var r := CanonicalCHE(d);
    assert r == "CHE-" + d[0..3] + "." + d[3..6] + "." + d[6..9];
    if k < 4 {
      assert r[k] == "CHE-"[k];
    }
  }

  /** A string is a valid CHE number exactly when it is the canonical form of
      some nine digits. */
  lemma ValidCHEIsCanonical(s: string)
    ensures IsValidCHE(s) <==> exists d :: |d| == 9 && AllDigits(d) && s == CanonicalCHE(d)
  {
    if IsValidCHE(s) {
      var d := s[4..7] + s[8..11] + s[12..15];
      assert |d| == 9;
      forall k | 0 <= k < 15 ensures s[k] == CanonicalCHE(d)[k] {
        CanonicalChar(d, k);
        assert MatchesAt(s[k], CHE_PATTERN[k]);
        if CHE_PATTERN[k].AnyDigit? {
          var a, b, c := s[4..7], s[8..11], s[12..15];
          assert d == a + b + c;
          if k < 7 {
            assert d[k - 4] == a[k - 4];
          } else if k < 11 {
            assert d[k - 5] == b[k - 8];
          } else {
            assert d[k - 6] == c[k - 12];
          }
        }
      }
      assert |s| == |CHE_PATTERN| == 15 == |CanonicalCHE(d)|;
      assert s == CanonicalCHE(d);
      forall k | 0 <= k < 9 ensures IsDigit(d[k]) {
        var pos := if k < 3 then k + 4 else if k < 6 then k + 5 else k + 6;
        assert d[k] == s[pos] && MatchesAt(s[pos], CHE_PATTERN[pos]);
      }
    }
    forall d | |d| == 9 && AllDigits(d) && s == CanonicalCHE(d)
      ensures IsValidCHE(s)
    {
      CanonicalIsValid(d);
    }
  }

  /** The canonical form of nine digits passes the validator. */
  lemma CanonicalIsValid(d: string)
    requires |d| == 9 && AllDigits(d)
    ensures IsValidCHE(CanonicalCHE(d))
  {
    var r := CanonicalCHE(d);
    forall k | 0 <= k < 15 ensures MatchesAt(r[k], CHE_PATTERN[k]) {
      CanonicalChar(d, k);
    }
  }

  /** `che.replace(/\D/g, '')`: the ASCII digits of `s`, in order. */
  function Digits(s: string): (r: string)
    ensures |r| <= |s|
    ensures AllDigits(r)
  {
    if s == [] then []
    else (if IsDigit(s[0]) then [s[0]] else []) + Digits(s[1..])
  }

  lemma {:induction false} DigitsAppend(a: string, b: string)
    ensures Digits(a + b) == Digits(a) + Digits(b)
  {
    if a == [] {
      assert a + b == b;
    } else {
      assert (a + b)[0] == a[0] && (a + b)[1..] == a[1..] + b;
      DigitsAppend(a[1..], b);
    }
  }

  lemma {:induction false} DigitsOfDigits(s: string)
    requires AllDigits(s)
    ensures Digits(s) == s
  {
    if s != [] {
      DigitsOfDigits(s[1..]);
    }
  }

  /** The digits of a canonical form are the nine digits it was built from. */
  lemma DigitsOfCanonical(d: string)
    requires |d| == 9 && AllDigits(d)
    ensures Digits(CanonicalCHE(d)) == d
  {
    var a, b, c := d[0..3], d[3..6], d[6..9];
    DigitsAppend("CHE-" + a + "." + b + ".", c);
    DigitsAppend("CHE-" + a + "." + b, ".");
    DigitsAppend("CHE-" + a + ".", b);
    DigitsAppend("CHE-" + a, ".");
    DigitsAppend("CHE-", a);
    assert Digits("CHE-") == [] && Digits(".") == [];
    DigitsOfDigits(a);
    DigitsOfDigits(b);
    DigitsOfDigits(c);
    assert a + b + c == d;
  }

  /** `formatCHE`: when the input holds exactly nine digits, their canonical
      form, which is a valid CHE number with those digits in order; otherwise
      the input unchanged. */
  function FormatCHE(che: string): (r: string)
    ensures |Digits(che)| == 9 ==> IsValidCHE(r) && Digits(r) == Digits(che)
    ensures |Digits(che)| != 9 ==> r == che
  {
    var digits := Digits(che);
    if |digits| == 9 then
      CanonicalIsValid(digits);
      DigitsOfCanonical(digits);
      CanonicalCHE(digits)
    else che
  }

  /** Formatting an already formatted number changes nothing. */
  lemma FormatCHEIdempotent(che: string)
    ensures FormatCHE(FormatCHE(che)) == FormatCHE(che)
  {
    var d := Digits(che);
    if |d| == 9 {
      DigitsOfCanonical(d);
    }
  }

  /** A valid CHE number is a fixed point of the formatter. */
  lemma FormatValidCHE(che: string)
    requires IsValidCHE(che)
    ensures FormatCHE(che) == che
  {
    ValidCHEIsCanonical(che);
    var d :| |d| == 9 && AllDigits(d) && che == CanonicalCHE(d);
    DigitsOfCanonical(d);
  }

  /** `calculateEffectiveRate`: tax as a percentage of a positive income,
      0 for an income that is zero or negative. */
  function CalculateEffectiveRate(totalTax: real, income: real): (rate: real)
    ensures income <= 0.0 ==> rate == 0.0
    ensures income > 0.0 ==> rate * income == totalTax * 100.0
    ensures totalTax >= 0.0 ==> rate >= 0.0
  {
    if income <= 0.0 then 0.0 else (totalTax / income) * 100.0
  }

  /** `calculateMarginalRate`: the marginal income is ignored and the result
      is always the effective rate. */
  function CalculateMarginalRate(currentTax: real, currentIncome: real, marginalIncome: real): (rate: real)
    ensures rate == CalculateEffectiveRate(currentTax, currentIncome)
  {
    if currentIncome <= 0.0 then 0.0 else CalculateEffectiveRate(currentTax, currentIncome)
  }
}

=== FILE: wrappers.dfy ===
/** Failure-carrying result types shared by every module of the model.
    The source signals missing data with `undefined` and failures with a
    thrown `Error(message)`; here these become `None` and `Err(message)`. */
module Wrappers {

  /** A value that may be absent (`undefined` / `null` in the source). */
  datatype Option<+T> = None | Some(value: T) {

    /** The held value, or `default` when absent (the source's `x ?? default`). */
    function GetOr(default: T): T {
      match this
      case Some(v) => v
      case None => default
    }
  }

  /** The outcome of an operation that can throw: `Err` carries the message
      of the `Error` the source would throw. */
  datatype Result<+T> = Ok(value: T) | Err(message: string) {

    predicate IsFailure() {
      Err?
    }

    function PropagateFailure<U>(): Result<U>
      requires Err?
    {
      Err(message)
    }

    function Extract(): T
      requires Ok?
    {
      value
    }
  }
}
